=== FILE: README.md ===
# CS2Script core, modelled in Dafny

CS2Script is a userscript for the Steam Community site. It lists a user's
Counter-Strike 2 inventory, storage units and in-game store in virtualised
tables, and moves items in and out of storage units through the
ArchiSteamFarm (ASF) IPC interface. This project models the deterministic
core of the script as immutable datatypes and pure functions and proves
properties about them:

- **Table engine** (`table.dfy`, `virtual_list.dfy`, `rows.dfy`, `sorting.dfy`).
  The virtual scrolling window renders a clamped, contiguous slice of the
  filtered rows, and scrolling updates it incrementally. Header clicks go
  through a tri-state sort machine. The multi-column comparator puts
  missing values last. Filtering keeps rows in order and then re-sorts them.
- **Item table** (`item_table.dfy`, `selection.dfy`, `item_filter.dfy`).
  Plain clicks and shift-click ranges update the selection, and the footer
  enforces an advisory capacity. The row filter and the filter form's
  specification are modelled, as are the facet buckets and the per-item
  policy of a batch transfer.
- **Store table** (`store_table.dfy`). The default order of the store's
  items, the tabs, the searches and the single selection.
- **Worker** (`worker.dfy`). The task queue as a state machine with
  explicit add, dispatch, complete and cancel events.
- **Helpers** (`helpers.dfy`). Version comparison and the memoising
  wrapper of an asynchronous function.
- **Item data** (`constants.dfy`, `asset.dfy`, `inventory_asset.dfy`,
  `market_asset.dfy`, `inventory.dfy`, `store.dfy`, `icons.dfy`):
  - wear bands, the cosmetic count and the inspection cache rule;
  - asset classification and lookups;
  - the display fields of inventory items;
  - the storage-unit cache and its bookkeeping when items move;
  - currency formatting, market hash names, owned counts and purchase
    parameters;
  - the icon registry and the batching of icon requests.
- **ASF client** (`asf.dfy`, `url_encoding.dfy`). Request building,
  including the `application/x-www-form-urlencoded` query of section 5.2
  of the WHATWG URL Standard, proved to parse back. Also modelled are the
  quoting of large numbers in replies, the classification of HTTP replies
  into results and coded errors, and the bot and plugin-status lookups.

`wrappers.dfy` holds `Option` and `Result`, and `strings.dfy` and
`sequences.dfy` give JavaScript string and array methods their
JavaScript meaning.

Every file belongs to one project; verify them together:

    dafny verify *.dfy

## Model

| member | source | states |
|---|---|---|
| VirtualList.WindowSize | src/components/table.js:14-17 | the window holds the visible rows plus three buffer rows above and three below |
| VirtualList.StartRow | src/components/table.js:118-124 | the start row is never negative; when the data is longer than the window, the window ends inside the data; when the scrolled-to row is inside the data, it lies inside the window |
| VirtualList.Diff | src/components/table.js:130-136 | the window shift is clamped to `[-n, n]`, equals the true row difference when that is within range, and is `-n` straight after a rebuild (last start `+Infinity`) |
| VirtualList.Rebuilt | src/components/table.js:91-108 | a full rebuild forgets the last start and renders the first `min(n, len)` rows in order |
| VirtualList.DownLoopSlice | src/components/table.js:140-157 | the shift-out/append loop leaves the old rows it did not shift out followed by the data rows up to the end of the new window |
| VirtualList.UpLoopSlice | src/components/table.js:158-176 | the pop/prepend loop leaves the data rows from the new start followed by the old rows it did not pop, skipping indexes past the data |
| VirtualList.SlideFromRebuild | src/components/table.js:113-176 | the first update after a rebuild turns the first `min(n, len)` rows into the window at the computed start |
| VirtualList.SlideDown | src/components/table.js:140-157 | scrolling down from a consistent window renders exactly the new window's slice of the data |
| VirtualList.SlideUp | src/components/table.js:158-176 | scrolling up from a consistent window renders exactly the new window's slice of the data |
| VirtualList.SlideFromWindow | src/components/table.js:130-176 | from a consistent window, any move of the start renders `data[s .. s + min(n, len)]` |
| VirtualList.UpdateRowsSlides | src/components/table.js:117-179 | after every scroll update the rendered rows are the contiguous slice at the freshly computed start and the body offset is start × 69 |
| VirtualList.UpdateRows | src/components/table.js:117-179 | a scroll update records the freshly computed start; an unchanged start changes nothing, and a moved one translates the body to start × 69 |
| VirtualList.UnchangedStartIsNoOp | src/components/table.js:126-128 | an update whose start equals the last start changes nothing |
| VirtualList.UpdateTableWindow | src/components/table.js:91-115 | a full rebuild ends with the window invariant for the current scroll offset |
| VirtualList.UpdateTable | src/components/table.js:91-115 | a rebuild always slides the window: it records the start for the current offset and translates the body to start × 69 |
| VirtualList.StartRowExample | src/components/table.js:118-124 | 10 visible rows, 1000 rows and a scroll offset of 6900 pixels give start row 97 |
| Table.Create | src/components/table.js:35-42 | a new table shows all rows, unsorted, with nothing rendered |
| Table.Refresh | src/components/table.js:91-115 | rebuilding leaves the rows and sort state alone and restores the window invariant |
| Table.Scroll | src/components/table.js:62 | the scroll handler moves only the window and keeps the window invariant |
| Table.WithColumns | src/components/table.js:190-196 | new columns replace the sort columns, and a different lead column forgets the direction |
| Table.AfterClick | src/components/table.js:200-213 | a click restores the default sort exactly when the direction was DESC and a default exists; nothing else changes |
| Table.SortRows | src/components/table.js:185-266 | sorting on an empty table is a no-op; otherwise the filtered rows are permuted into comparator order and the window is rebuilt; with no columns the rows stay as they are |
| Table.Resort | src/components/table.js:219-250 | the filtered rows become a sorted permutation of themselves in the chosen direction |
| Table.ResortStable | src/components/table.js:219-250 | re-sorting keeps the relative order of the rows that tie under the chosen columns and direction |
| Table.FilterRows | src/components/table.js:272-281 | filtering on an empty table is a no-op; otherwise the filtered rows are exactly the data rows that pass, counted with multiplicity, the scroll resets to the top and the window starts at row 0; without a sort they keep the data's order, and with one they are in that sort's order |
| Table.Show | src/components/table.js:74-78 | showing the table keeps the data and the sort columns, makes the rows exactly the passing data rows with multiplicity (in data order without a sort), and leaves a consistent window |
| Table.FirstClickAscends | src/components/table.js:190-221 | a click on a new lead column, or with no direction yet, sorts ascending and marks the header ascending |
| Table.SecondClickDescends | src/components/table.js:210-212 | a click on the column already sorted ascending sorts descending and marks it descending |
| Table.ThirdClickResets | src/components/table.js:201-209 | a click on the column already sorted descending restores the default sort with no indicator, or sorts ascending when there is no default |
| Table.ClickCycle | src/components/table.js:190-263 | three clicks on one header give ascending, descending, then the default (or ascending again) |
| Table.MarkerShowsDirection | src/components/table.js:252-263 | after a click, a header indicator always shows the direction actually used |
| Table.ResortKeepsOrder | src/components/table.js:219-250 | re-sorting without a click, as filtering does, keeps an already sorted order unchanged |
| Table.FilterRowsIdempotent | src/components/table.js:272-281 | filtering twice with the same predicate equals filtering once |
| Table.FilterRowsStable | src/components/table.js:272-281 | after filtering a sorted table, rows that tie under the sort appear in the order they have in the data |
| Rows.ValueCmp | src/components/table.js:242-246 | comparing two present values gives -1, 0 or 1, and 0 exactly for equal values |
| Rows.ValueCmpAntisymmetric | src/components/table.js:242-246 | swapping the operands negates the comparison of two values |
| Rows.ValueCmpTransitive | src/components/table.js:242-246 | "sorts before" on present values is transitive |
| Rows.CellCmp | src/components/table.js:230-246 | a cell comparison is 0 exactly for equal cells, an undefined cell sorts last, and DESC swaps the operands |
| Rows.CellCmpAntisymmetric | src/components/table.js:230-246 | swapping the operands negates a cell comparison |
| Rows.CellCmpTransitive | src/components/table.js:230-246 | "sorts before" on cells is transitive in both directions |
| Rows.CompareZeroIff | src/components/table.js:225-250 | two rows compare as 0 exactly when they agree on every sort column |
| Rows.FirstDifferenceDecides | src/components/table.js:226-232 | the first column whose values differ alone decides the comparison |
| Rows.UndefinedSortsLast | src/components/table.js:234-240 | a missing value in the deciding column puts its row last, whatever the direction |
| Rows.DescendingIsSwappedAscending | src/components/table.js:243-246 | for rows defining every sort column, DESC is ASC with the operands swapped |
| Rows.CompareAntisymmetric | src/components/table.js:225-250 | the row comparator is antisymmetric |
| Rows.CompareTransitive | src/components/table.js:225-250 | the row comparator's "not after" is transitive |
| Rows.OrderIsTotalPreorder | src/components/table.js:225-250 | the comparator is a consistent total preorder, so the sort result is well defined |
| Rows.SortRows | src/components/table.js:225-250 | sorting yields a permutation of the rows in comparator order |
| Rows.SortRowsStable | src/components/table.js:225-250 | rows that agree on every sort column keep their relative order through the sort |
| Sorting.SortBy | src/components/table.js:225 | the sort returns a permutation of its input |
| Sorting.InsertSorted | src/components/table.js:225 | inserting into a sorted sequence keeps it sorted |
| Sorting.SortSorted | src/components/table.js:225 | the sort result is ordered by any consistent comparator |
| Sorting.SortOfSorted | src/components/table.js:225 | sorting an already ordered sequence leaves it unchanged |
| Sorting.SortStable | src/components/table.js:225 | the sort is stable, as `Array.prototype.sort` is: the elements that tie with any given one keep their relative order |
| Sorting.LexTotalPreorder | src/components/store_table.js:55-88 | chaining consistent comparators, the first non-tie deciding, is consistent |
| Selection.IndexOf | src/components/item_table.js:616-617 | `indexOf` is -1 exactly for an absent row and otherwise points at it |
| Selection.ApplyRangeEffect | src/components/item_table.js:626-638 | the shift-click loop adds (or removes) exactly the ids of the rows between the two ends, inclusive |
| Selection.SelectItem | src/components/item_table.js:609-658 | a plain click toggles only the clicked id, records whether it added, and anchors the row; a shift-click is a no-op without an anchor, on the anchor itself, without a recorded action or with either row outside the filtered rows, and otherwise applies the recorded action to the inclusive range |
| Selection.ShiftClickRange | src/components/item_table.js:623-638 | a shift-click leaves ids outside the range alone and treats both ends alike, whatever their order |
| Selection.PlainClickTwiceRestores | src/components/item_table.js:639-653 | two plain clicks on one row give back the original selection |
| Selection.SelectFirst | src/components/item_table.js:660-679 | selecting the first `count` rows adds exactly the ids of the first `min(count, len)` filtered rows and forgets the anchor |
| Selection.DeselectAll | src/components/item_table.js:681-697 | deselecting removes exactly the ids of the table's data and forgets the anchor |
| Selection.UpdateFooter | src/components/item_table.js:577-607 | proceed is disabled exactly when nothing, or more than the limit, is selected, and then carries a tooltip; the selection itself is not trimmed |
| Selection.RetrieveLimit | src/components/item_table.js:186-187 | the retrieve limit is at most 1000, the inventory limit |
| Selection.RetrieveLimitCounts | src/components/item_table.js:186-187 | the retrieve limit plus the number of inventory items without an escrow date is 1000 |
| Selection.StoreLimit | src/components/item_table.js:188-189 | the store limit is at most 1000, the storage unit limit |
| Selection.StoreLimitCounts | src/components/item_table.js:188-189 | the store limit plus the number of stored items already in this storage unit is 1000 |
| Selection.OnStatusUpdate | src/components/item_table.js:192-199 | a status update changes the limit only in retrieve mode with a reported size, and then limit plus size is 1000 |
| ItemFilter.InRangeMeaning | src/components/item_table.js:700-706 | the range test is inclusive, a missing bound is unbounded, and an undefined value fails |
| ItemFilter.BucketPasses | src/components/item_table.js:728-747 | an item passes the bucket test of the bucket its rarity is listed under; of the others it can pass only the agents test |
| ItemFilter.WeakerSpecPassesMore | src/components/item_table.js:699-782 | the filter is a conjunction: unsetting any field lets more rows through, and no filter keeps every row matching the search |
| ItemFilter.FilterRow | src/components/item_table.js:699-782 | with no filter and no search every row passes; a row passing the "selected only" option is one of the saved ids |
| ItemFilter.BoundsOf | src/components/item_table.js:1470-1481 | a range is null exactly when both inputs are empty |
| ItemFilter.Build | src/components/item_table.js:1459-1490 | the built spec records the checkbox as `true` or null and the float range as entered |
| ItemFilter.BuildNoneIffEmpty | src/components/item_table.js:1488-1490 | the submitted filter is "no filter" exactly when every input is empty |
| ItemFilter.WearOnlyFilterKeepsAll | src/components/item_table.js:699-782 | a filter with only a wear chosen keeps exactly the rows no filter would |
| ItemFilter.AddItemRarities | src/components/item_table.js:836-844 | adding one item lists its rarity name under its own bucket and nowhere else |
| ItemFilter.AddItemCollections | src/components/item_table.js:863-881 | adding one item lists its collection under its own collection bucket and nowhere else |
| ItemFilter.RarityFacetBuckets | src/components/item_table.js:823-844 | a rarity name is offered under a bucket exactly when some item with that name belongs to that bucket |
| ItemFilter.CollectionFacetBuckets | src/components/item_table.js:823-881 | a collection is offered under a bucket exactly when some item of that collection belongs to that bucket |
| ItemTable.SubmitFilter | src/components/item_table.js:1456-1500 | submit snapshots the selection, stores the built filter, and refilters to exactly the data rows that pass it |
| ItemTable.KeyIndex | src/components/item_table.js:1610-1612 | `findIndex` by id is -1 exactly when no row has that id, and otherwise finds a row with it |
| ItemTable.Create | src/components/item_table.js:27-30 | a new item table shows every item unsorted, with the default sort by storage unit then id descending, and nothing selected, filtered or searched |
| ItemTable.CompleteTransfer | src/components/item_table.js:1610-1618 | on success the id leaves the selection, the limit drops by one, the sort is kept and the window is rebuilt |
| ItemTable.RemoveUnique | src/components/item_table.js:1611 | splicing out one row of distinct ids removes exactly its id and keeps the ids distinct |
| ItemTable.TransferRemovesRowOnce | src/components/item_table.js:1610-1614 | a transferred row leaves the data, the filtered rows and the selection exactly once; the data shrinks by one |
| ItemTable.TransferRows | src/components/item_table.js:1610-1614 | the data and filtered rows after a transfer are the old ones with the found row spliced out |
| ItemTable.RemoveKey | src/components/item_table.js:1612-1613 | splicing out a found id removes exactly that id, and a missing id changes nothing |
| ItemTable.MissingIdDropsLastRow | src/components/item_table.js:1610-1611 | as written, completing an id absent from the data would splice out the data's last row |
| ItemTable.CancelledLastAttemptCountsAsTransfer | src/components/item_table.js:1580-1611 | a cancellation during the third attempt, whose call then fails, leaves the loop and runs the success bookkeeping |
| ItemTable.TaskPolicy | src/components/item_table.js:1578-1608 | a task makes at most three calls, retries only errors it may retry, counts a transfer only when the last call succeeded, and fails only on an error it does not retry |
| StoreTable.DefaultCmpAsWrittenCycles | src/components/store_table.js:55-88 | the written comparator orders three items in a cycle, so it is not a consistent order |
| StoreTable.DefaultOrderIsTotalPreorder | src/components/store_table.js:55-88 | the corrected default order is a consistent total preorder |
| StoreTable.DefaultOrderUnfolds | src/components/store_table.js:55-88 | the default order ranks discounted first, then by weight with missing last, then by supplemental data larger first, then by id |
| StoreTable.DefaultOrderAgrees | src/components/store_table.js:55-88 | the corrected order equals the written comparator whenever both items, or neither, have supplemental data |
| StoreTable.DefaultSorted | src/components/store_table.js:55-95 | the constructor keeps exactly the given items, with multiplicity, only reordered and numbered: each gets its position as `default_sort_order`, and the result is in the corrected default order |
| StoreTable.NumberKeepsOrder | src/components/store_table.js:90-95 | recording the positions does not disturb the default order |
| StoreTable.PositionsIncrease | src/components/store_table.js:90-95 | the recorded positions increase along the data |
| StoreTable.ResetOrderFollowsPosition | src/components/store_table.js:583-586 | the reset sort orders two numbered rows by their recorded positions |
| StoreTable.ResetSortRestoresDefaultOrder | src/components/store_table.js:583-627 | the reset sort leaves any order-preserving selection of the numbered items as it is, which is the default order |
| StoreTable.CapsulesAndSouvenirsDisjoint | src/components/store_table.js:659-665 | no item is in both the capsule tab and the souvenir tab |
| StoreTable.TeamSearchOnlyInSouvenirs | src/components/store_table.js:674-679 | outside the souvenir tab the team search has no effect |
| StoreTable.Matches | src/components/store_table.js:650-683 | a matching row is in the current tab, and without searches matching is exactly being in the tab |
| StoreTable.FilterRows | src/components/store_table.js:645-690 | filtering an empty store table changes nothing; otherwise the rows are exactly the data rows matching the tab and searches, with multiplicity, and nothing but the table changes |
| StoreTable.Create | src/components/store_table.js:47-95 | a new store table holds a numbered permutation of the given items in the corrected default order, on the general tab, with the reset sort and nothing selected |
| StoreTable.SelectItem | src/components/store_table.js:552-565 | clicking the selected item clears the selection; clicking another item replaces it |
| StoreTable.SelectTwiceRestores | src/components/store_table.js:552-565 | two clicks on one item restore an empty selection, or one holding that item |
| StoreTable.ActionDisabled | src/components/store_table.js:537-550 | the action is disabled exactly when nothing is selected, and then carries a tooltip |
| StoreTable.ChangeTab | src/components/store_table.js:691-734 | changing to the current tab is a no-op; otherwise the sort resets to the position column ascending with no indicator, both searches and the selection clear, and the rows become exactly the data rows in the new tab |
| StoreTable.ChangeTabShowsDefaultOrder | src/components/store_table.js:691-734 | after a tab change the rows are the tab's items in their default order |
| ItemFilter.ShowFilters | src/components/item_table.js:786-823 | facets gathered at the first opening of the form are reused as they are |
| ItemTable.TaskAsWritten | src/components/item_table.js:1578-1608 | as written, a task makes at most three calls before it ends |
| ItemTable.Task | src/components/item_table.js:1578-1608 | with exhausted attempts counted as abandonment, a task still makes at most three calls |
| StoreTable.DefaultCmpAsWritten | src/components/store_table.js:55-88 | the comparator as written, keeping only the sign of each branch's result, which is all `sort` reads; that sign is -1, 0 or 1 |
| Worker.New | src/utils/worker.js:4-9 | a new worker has an empty queue, nothing in flight, is not running and not cancelled |
| Worker.Add | src/utils/worker.js:18-28 | adding after a cancel changes nothing; a priority task goes to the head and any other to the tail, the rest of the queue unmoved |
| Worker.Run | src/utils/worker.js:30-35 | starting while running is a no-op; otherwise only the running flag changes |
| Worker.Step | src/utils/worker.js:38-60 | with an empty queue the loop ends and `running` resets; below the limit the head task is taken and counted in flight; at the limit nothing changes |
| Worker.Complete | src/utils/worker.js:44-50 | a settling task, returned or thrown, lowers the in-flight count by one and touches nothing else |
| Worker.Cancel | src/utils/worker.js:70-72 | cancelling sets the flag and empties the queue, leaving tasks in flight alone |
| Worker.Apply | src/utils/worker.js:30-72 | an event is impossible exactly when it is a loop iteration without a running loop or a completion with nothing in flight |
| Worker.ActiveWithinLimit | src/utils/worker.js:39-50 | with a constant limit, the number of tasks in flight never exceeds it |
| Worker.CancelledStaysEmpty | src/utils/worker.js:18-75 | once cancelled, the queue stays empty, so the worker is finished as soon as its tasks in flight settle |
| Worker.StepShrinksQueue | src/utils/worker.js:38-58 | a loop iteration never lengthens the queue, dispatches exactly when it shortens it, and ends the loop exactly when the queue is empty |
| Helpers.Components | src/utils/helpers.js:202-203 | each version component is converted on its own, keeping the component count |
| Helpers.CompareFrom | src/utils/helpers.js:206-214 | comparing from a given component always gives -1, 0 or 1 |
| Helpers.CompareVersions | src/utils/helpers.js:201-215 | the loop returns exactly one of -1, 0, 1, and agrees with the lexicographic order on zero-padded components |
| Helpers.CompareReflexive | src/utils/helpers.js:206-214 | every version compares equal to itself |
| Helpers.CompareAntisymmetric | src/utils/helpers.js:206-214 | swapping the two versions negates the result |
| Helpers.FirstDifferenceDecides | src/utils/helpers.js:206-212 | the first component that differs decides the comparison |
| Helpers.AgreeingPartsAreEqual | src/utils/helpers.js:206-214 | versions whose padded components all agree compare as equal |
| Helpers.TrailingZerosIgnored | src/utils/helpers.js:204-208 | trailing zero components do not matter: "1.2" equals "1.2.0.0" |
| Helpers.Call | src/utils/helpers.js:82-98 | a call starts an invocation exactly when nothing is cached and none is pending, and otherwise changes nothing |
| Helpers.Settle | src/utils/helpers.js:91-95 | a settled invocation caches its result and changes nothing else |
| Helpers.ImmediateIffFromCache | src/utils/helpers.js:100-102 | the wrapper reports an immediate answer exactly when a call would be served from the cache |
| Helpers.AtMostOneInvocation | src/utils/helpers.js:78-105 | whatever the calls and settlements, the wrapped function runs at most once |
| Helpers.FromInitialAtMostOnce | src/utils/helpers.js:78-105 | a fresh wrapper invokes the wrapped function at most once over any run |
| Constants.WearsTileFloatRange | src/cs2/constants.js:8-15 | the five wear bands are contiguous, each non-empty, and together span the float range 0 to 1 |
| Constants.Lookup | src/cs2/constants.js:16-60 | a name lookup returns a number listed with that name, and nothing only when no entry has the name |
| Constants.LookupAt | src/cs2/constants.js:16-60 | the first entry with a name decides its number |
| Constants.QualitiesNumbered | src/cs2/constants.js:16-32 | the fifteen qualities carry the distinct numbers 0 to 14 in listed order |
| Constants.RarityBases | src/cs2/constants.js:33-57 | each base rarity has its own number and is followed by two variants with the same number |
| Constants.RarityWeaponVariants | src/cs2/constants.js:33-57 | every `_Weapon` variant has the number of its base rarity |
| Constants.RarityCharacterVariants | src/cs2/constants.js:33-57 | every `_Character` variant has the number of its base rarity |
| Constants.RarityNamesDistinct | src/cs2/constants.js:33-59 | no rarity name is listed twice |
| Constants.RarityVariantLookup | src/cs2/constants.js:33-57 | the i-th base rarity and its `_Weapon` and `_Character` variants all look up the number i |
| Constants.RarityVariantsLookUpLikeBase | src/cs2/constants.js:33-57 | every `_Weapon` and `_Character` variant looks up the same number as its base rarity |
| Asset.WearIndexFrom | src/cs2/items/assets/asset.js:132-138 | the band found is the first band containing the value, and none is found only when no band contains it |
| Asset.GetWear | src/cs2/items/assets/asset.js:132-138 | a returned wear is a listed band that contains the value |
| Asset.GetWearCoversFloatRange | src/cs2/items/assets/asset.js:132-138 | a wear is found exactly for values in [0, 1], and a value on a shared boundary belongs to the lower band |
| Asset.FactoryNewBoundary | src/cs2/items/assets/asset.js:132-138 | 0.07 is Factory New |
| Asset.CountStickerSlots | src/cs2/items/assets/asset.js:191-198 | the count is the number of slots 0 to 4 holding a sticker id, at most 5 |
| Asset.GetNumCosmetics | src/cs2/items/assets/asset.js:180-203 | a stored count is returned unchanged; otherwise the count is one for a keychain plus the filled sticker slots, lies between 0 and 6, and is stored on the item |
| Asset.CosmeticsMemoised | src/cs2/items/assets/asset.js:180-203 | a second call returns the first call's count |
| Asset.ExpiryRule | src/cs2/items/assets/asset.js:44-52 | a negative maximum age never expires; otherwise an entry expires exactly when its age reaches the maximum, and expiry is monotone in age |
| Asset.ShouldInspect | src/cs2/items/assets/asset.js:30-32 | only wearables are inspected, never one whose link is the string "undefined", and a wearable whose link was never set is still inspected |
| Asset.Project | src/cs2/items/assets/asset.js:84-116 | the stored data keeps the wear triple only when all three parts are present, defaults sticker wears to 0, takes the first keychain's pattern as charm, and marks StatTrak only for `true` |
| Asset.FetchPolicy | src/cs2/items/assets/asset.js:61-73 | the request is made at most three times; every call before the last timed out; an error that propagates is not a timeout; giving up follows three timeouts |
| Asset.Fetch | src/cs2/items/assets/asset.js:61-73 | the attempt loop makes at most as many calls as attempts remain of the three |
| Asset.CheckWear | src/cs2/items/assets/asset.js:121-129 | inspected data with a wear succeeds only when the wear falls in a band, and then records that band |
| Asset.Inspect | src/cs2/items/assets/asset.js:34-130 | nothing happens for a non-wearable, a broken link or a missing id; a request is made only without valid cached or held data and outside cache-only mode; a cache-only miss is reported exactly in that case; valid cached data wins over held data; a request is preceded only by timeouts, and its last call decides: three timeouts or an empty reply give no data, another error is reported with its own code, a reply without item information is invalid data, and otherwise the projected reply is the data |
| InventoryAsset.Classify | src/cs2/items/assets/inventory_asset.js:26-38 | a storage unit is recognised by name; otherwise the first tag naming a weapon or hands, or a keychain, decides the type, and without such a tag the type stays unset |
| InventoryAsset.WeaponFirstIsWearable | src/cs2/items/assets/inventory_asset.js:29-32 | a tag list starting with a weapon tag classifies as wearable whatever follows |
| InventoryAsset.InspectLink | src/cs2/items/assets/inventory_asset.js:40-47 | only wearables get a link; it is the first game-launching action with the first owner and asset placeholders substituted, and it is missing only when no action launches the game |
| InventoryAsset.LinkWithoutPlaceholders | src/cs2/items/assets/inventory_asset.js:43 | a link without placeholders is used unchanged |
| InventoryAsset.QualityNumbers | src/cs2/items/assets/inventory_asset.js:57 | each quality tag is mapped to its number, one for one |
| InventoryAsset.QualityNumberNames | src/cs2/items/assets/inventory_asset.js:57-60 | the numbers 3, 9 and 12 belong exactly to the names "unusual", "strange" and "tournament" |
| InventoryAsset.FlagsByName | src/cs2/items/assets/inventory_asset.js:57-60 | the unusual, StatTrak and souvenir flags are set exactly when the matching quality name is among the tags |
| InventoryAsset.GetDescription | src/cs2/items/assets/inventory_asset.js:579-598 | without descriptions the result is undefined; otherwise it is the value of the first description with the name, and undefined only when none has it |
| InventoryAsset.GetProperty | src/cs2/items/assets/inventory_asset.js:600-610 | the result is the first property with the id, and undefined when there are no properties or none has the id |
| InventoryAsset.GetTags | src/cs2/items/assets/inventory_asset.js:612-625 | without tags the result is undefined; otherwise it is the subsequence of the tags in the category, in their original order and with their multiplicity |
| MarketAsset.Classify | src/cs2/items/assets/market_asset.js:19-24 | the type is wearable exactly when some description is the exterior wear, and is otherwise unset |
| MarketAsset.InspectLink | src/cs2/items/assets/market_asset.js:26-33 | only wearables get a link; it is the first game-launching action with the asset id substituted, missing only when no action launches the game |
| MarketAsset.GetProperty | src/cs2/items/assets/market_asset.js:163-173 | the result is the first property with the id, and undefined when there are no properties or none has the id |
| MarketAsset.BuildItemPage | src/cs2/items/assets/market_asset.js:147-160 | a call adds the wear range exactly when the page flag was clear, the item has wear and a paint seed, and the description element is found; it always leaves the flag set |
| MarketAsset.BuiltAtMostOnce | src/cs2/items/assets/market_asset.js:147-160 | however many calls are made, the wear range is added at most once per page, and exactly when the page's first call passes the wear, seed and element checks: a first call that fails them leaves the page without it for good |
| Inventory.DropLast | src/cs2/items/inventory.js:61 | dropping the last `m` characters leaves a prefix that is `m` shorter, or empty when the name is shorter than that |
| Inventory.DisplayName | src/cs2/items/inventory.js:61 | the display name is a prefix of the full name, and is the full name itself without a wear name or when the wear name does not occur in it |
| Inventory.DisplayNameStripsWear | src/cs2/items/inventory.js:61 | a full name `base + " (" + wear + ")"` displays as `base` |
| Inventory.CollectionName | src/cs2/items/inventory.js:63 | the collection name is the set name when there is one, and otherwise exists exactly when there is a crate name |
| Inventory.AutographCapsuleCollection | src/cs2/items/inventory.js:63 | a crate named `x + " Autograph Capsule"` belongs to collection `x + " Autographs"` |
| Inventory.CapsuleCollection | src/cs2/items/inventory.js:63 | any other crate named `x + " Capsule"` belongs to collection `x` |
| Inventory.Collection | src/cs2/items/inventory.js:64 | the short collection exists exactly when the collection name does, and is no longer |
| Inventory.CollectionOfSet | src/cs2/items/inventory.js:64 | "The X Collection" shortens to X |
| Inventory.Rarity | src/cs2/items/inventory.js:65 | the rarity is kept exactly when the item has a non-empty collection or a rarity above 1 |
| Inventory.Seed | src/cs2/items/inventory.js:66 | a non-zero texture seed is floored; otherwise the seed is keychain slot 0's |
| Inventory.Quality | src/cs2/items/inventory.js:68-80 | the remapped quality lies in 0..5; it is 4 or 5 exactly for quality 3, 1 exactly for 12, 3 exactly for 13, and otherwise 2 exactly for StatTrak |
| Inventory.CasketName | src/cs2/items/inventory.js:82-84 | an item in a storage unit gets a casket name: the custom name of the first inventory item with the unit's id, or the id when that item has none or no item has the id |
| Inventory.OpenCrate | src/cs2/items/inventory.js:133-152 | cached contents are used exactly when the inventory came from the cache or they are as recent as the unit with as many items; an inventory from the cache with no cached contents is the interface-not-connected error |
| Inventory.FreshCacheUsed | src/cs2/items/inventory.js:135-144 | contents cached for the unit's current stamp are used |
| Inventory.IdDescIsTotalPreorder | src/cs2/items/inventory.js:377 | the id-descending comparator is a consistent order |
| Inventory.SortByIdDesc | src/cs2/items/inventory.js:377 | sorting by id descending is a permutation with ids non-increasing |
| Inventory.IndexOfId | src/cs2/items/inventory.js:382 | `findIndex` by id is -1 exactly when no entry has the id, and otherwise points at one |
| Inventory.StoreItem | src/cs2/items/inventory.js:362-386 | without success or with a cache missing nothing changes; otherwise the marked asset joins the unit's contents kept newest first, the count goes up by one, the date is now, and the inventory entry found by id is spliced out |
| Inventory.RetrieveItem | src/cs2/items/inventory.js:388-412 | without success or with a cache missing nothing changes; otherwise the unit's entry found by id is spliced out, the count goes down by one, and the unmarked asset joins the inventory kept newest first |
| Inventory.StoreRemovesFromInventory | src/cs2/items/inventory.js:382-383 | a stored asset present in the inventory cache leaves it exactly once |
| Inventory.RemoveFoundEntry | src/cs2/items/inventory.js:382-383 | splicing out the entry found by id removes that one entry |
| Inventory.StoreMissingDropsLast | src/cs2/items/inventory.js:382-383 | as written, storing an asset missing from the inventory cache drops the inventory's last entry instead |
| Inventory.StoreThenRetrieve | src/cs2/items/inventory.js:362-412 | storing an asset and retrieving it again restores the unit's count and both caches' contents, up to order |
| Inventory.RetrieveRestoresCasket | src/cs2/items/inventory.js:401-404 | retrieving the stored asset takes exactly it back out of the unit and lowers the count by one |
| Inventory.RetrieveRestoresInventory | src/cs2/items/inventory.js:407-410 | retrieving the stored asset puts it, unmarked, back into the inventory |
| Store.FormatCurrency | src/cs2/items/store.js:185-207 | USD wallets outside the US get " USD" after the placed number; a EUR amount is exactly as long as the placed number, since ",--" only takes the place of ",00"; any other currency is the placed number |
| Store.DropZeroCents | src/cs2/items/store.js:188-190 | in whole-unit currencies, removing ".00" drops exactly a zero cents part and leaves any other amount alone |
| Store.SwapPoint | src/cs2/items/store.js:192-194 | the decimal point, and nothing in the whole units, becomes the currency's decimal symbol |
| Store.NumberPartShape | src/cs2/items/store.js:186-194 | the number is the sign, the whole units, and then the decimal symbol with two digits of cents unless a whole-unit currency has no cents |
| Store.FixedParts | src/cs2/items/store.js:186 | `toFixed(2)` of an amount in cents is a point-free whole part, a point and two digits that are "00" exactly for whole amounts |
| Store.ParseDigits | src/cs2/items/store.js:186-194 | whole units, and whole units followed by a non-digit symbol and two digits of cents, read back as the amount |
| Store.ParseSigned | src/cs2/items/store.js:186 | a "-" in front of the digits of an amount reads back as its negative |
| Store.ShapeRoundTrip | src/cs2/items/store.js:186-194 | every number of the formatted shape reads back as the amount it was made from |
| Store.NumberPartRoundTrip | src/cs2/items/store.js:186-194 | with a one-character decimal symbol that is neither a digit nor "-", the formatted number reads back as the amount in cents, so no two amounts share a number |
| Store.EuroDashes | src/cs2/items/store.js:202-203 | the ",00" replaced is the first one after the whole units |
| Store.FormatEuro | src/cs2/items/store.js:196-203 | a euro number ending in ",00" written before the symbol shows ",--" in its place |
| Store.EuroWholeAmounts | src/cs2/items/store.js:185-203 | every whole euro amount shows as its whole units followed by ",--" and the symbol |
| Store.SouvenirName | src/cs2/items/store.js:222-229 | an item name without "Souvenir Package" is kept as it is |
| Store.GetHashName | src/cs2/items/store.js:210-233 | the loot-list name wins; a tournament item not needing supplemental data is sold under its item name; a souvenir package with a map gets its map-specific name; there is no name exactly when none of the three applies |
| Store.ReplacePackage | src/cs2/items/store.js:223 | `replace` rewrites the first "Souvenir Package" and keeps the text around it |
| Store.MapPackageNamed | src/cs2/items/store.js:223 | the map name is placed in front of the first "Souvenir Package" |
| Store.SouvenirHashName | src/cs2/items/store.js:222-223 | a souvenir package of a map is "<map> Souvenir Package" with the rest of the name kept |
| Store.HighlightHashName | src/cs2/items/store.js:222-227 | a highlight package is "<map> Souvenir Highlight Package" with the rest of the name kept |
| Store.Round | src/cs2/items/store.js:82 | `Math.round` lands within one half of its argument, halves rounding up |
| Store.RatioBounds | src/cs2/items/store.js:82 | a positive sale price no higher than the list price is a ratio in (0, 1], and equal prices give exactly 1 |
| Store.Price | src/cs2/items/store.js:80 | the shown price is the sale price when there is one, otherwise the list price |
| Store.DiscountOf | src/cs2/items/store.js:82 | there is no discount exactly without a non-zero sale price; it is not finite exactly when the list price is missing or zero; a sale price up to the list price gives 0..100 percent, and 0 when they are equal |
| Store.SalePriceShownWithItsDiscount | src/cs2/items/store.js:80-82 | a sale below the list price is shown with a non-negative discount; a zero sale price is shown with no discount |
| Store.Owned | src/cs2/items/store.js:157-178 | the owned count is at most the number of inventory and stored items, and positive exactly when one of them counts for the entry |
| Store.OwnedSplits | src/cs2/items/store.js:157 | the owned count is the inventory's count plus the storage units' count |
| Store.OwnedCountsPositions | src/cs2/items/store.js:157-178 | the owned count is the number of positions in the inventory items followed by the stored items that hold an item counting for the entry |
| Store.OwnedCounts | src/cs2/items/store.js:155-179 | every store entry gets the owned count of its own |
| Store.PurchaseParamsFor | src/cs2/items/store.js:236-244 | the request names the item and quantity, costs price times quantity when there is a price, and carries supplemental data exactly when the item has non-zero data |
| Store.PurchaseUrl | src/cs2/items/store.js:248-252 | the purchase succeeds exactly with a non-empty purchase URL, which it returns |
| Store.CostAdds | src/cs2/items/store.js:239 | the cost of buying in two lots is the sum of the lots' costs |
| Icons.LoadCachedIcons | src/cs2/items/icons.js:12-18 | the cached icons are loaded only into an empty registry; a non-empty one is kept |
| Icons.LoadCachedIconsIdempotent | src/cs2/items/icons.js:12-18 | loading the cache twice is loading it once |
| Icons.SetIcon | src/cs2/items/icons.js:20-23 | the hash name gets the given icon and no other entry changes |
| Icons.GetIconURL | src/cs2/items/icons.js:25-31 | there is no address exactly when the hash name has no non-empty icon; otherwise the address is on the CDN and ends with the size |
| Icons.SetThenGet | src/cs2/items/icons.js:20-31 | a recorded icon is served, its address gives the icon back, and other hash names are served as before |
| Icons.SetNullHides | src/cs2/items/icons.js:20-31 | recording `null` for a hash name leaves it without an address |
| Icons.CommodityBatches | src/cs2/items/icons.js:119-124 | the commodity names go out in ceil(n / 25) non-empty batches of at most 25 that concatenate back to the names in order |
| Icons.ClassIdBatches | src/cs2/items/icons.js:245-252 | the class ids go out in ceil(n / 100) non-empty batches of at most 100 that concatenate back to the ids in order |
| Icons.Targets | src/cs2/items/icons.js:229-236 | the lookup fails exactly when an asset lacks a `def_index` entry; otherwise the class of every asset whose definition index is requested is asked for, and every class asked for belongs to some asset and targets a requested definition index with its hash name |
| Icons.TargetsLastWins | src/cs2/items/icons.js:229-236 | each class id targets the definition index of the last asset of that class that asks for an icon |
| Icons.Record | src/cs2/items/icons.js:271-278 | a usable icon (non-empty, not the blank store icon) is recorded under the class's hash name and its definition index stops waiting; anything else changes nothing |
| Icons.RecordAll | src/cs2/items/icons.js:271-279 | after a batch, every class of the batch with a usable icon in the reply has its icon recorded under its hash name and its definition index no longer waiting; no waiting index is added and no recorded usable icon is lost |
| Icons.BatchAsWritten | src/cs2/items/icons.js:254-279 | as written, a failed request and a reply reporting partial success both leave the lookup unchanged |
| Icons.Batch | src/cs2/items/icons.js:254-279 | as the comment at the success check intends, every reply is processed and only a failed request is skipped |
| Icons.BatchAgreesOnSuccess | src/cs2/items/icons.js:259-264 | without a partial-success reply, the code as written and the intended batch agree |
| Icons.PartialReplyLost | src/cs2/items/icons.js:259-262 | a partial reply carrying a usable icon is dropped as written and recorded by the intended batch |
| Icons.RecordAllFaithful | src/cs2/items/icons.js:271-279 | after a batch, every changed icon is usable and belongs to a target's hash name, every definition index that stopped waiting has its icon recorded, and no icon is forgotten |
| Icons.FaithfulStep | src/cs2/items/icons.js:271-278 | recording one class and then a faithful rest is faithful as a whole |
| Sequences.ChunkProperties | src/cs2/items/inventory.js:279-282 | the batches concatenate back to the sequence in order, and each one is non-empty with at most the batch size |
| Sequences.FlattenPrefix | src/cs2/items/inventory.js:279-282 | the first `m` batches concatenate to the first `m` times the batch size elements |
| Sequences.Chunk | src/cs2/items/inventory.js:279-282 | there are ceil(n / k) batches |
| Sequences.FindIndex | src/cs2/items/inventory.js:382 | `findIndex` gives the first satisfying index, and -1 exactly when no element satisfies the test |
| Sequences.Splice1 | src/cs2/items/inventory.js:383 | `splice(i, 1)` removes the element at a valid index, and the last element for -1 |
| Sequences.FilterMembers | src/components/table.js:277 | the filtered rows are exactly the rows that pass the filter |
| Sequences.FilterIdempotent | src/components/table.js:277 | filtering again with the same test changes nothing |
| Strings.Tokens | src/components/item_table.js:775 | the search words are non-empty and contain no space |
| Strings.SingleWordQuery | src/components/item_table.js:775-779 | a one-word query matches exactly the texts containing the word |
| Strings.ReplaceFirst | src/cs2/items/store.js:223 | `replace` with a string pattern leaves a string without the pattern alone |
| Strings.Cmp | src/components/table.js:243 | the comparison is 0 exactly for equal strings, and otherwise -1 or 1 |
| Strings.CmpTransitive | src/components/table.js:243 | the string comparison is transitive |
| Strings.CmpAntisymmetric | src/components/table.js:243 | swapping the strings negates the comparison |
| Asf.BuildRequest | src/core/asf.js:4-20 | the request keeps the method; a GET with data adds `?` and a query that parses back to exactly the data; otherwise the URL is the bare endpoint; only a POST with data carries a body, and it is the data |
| Asf.GetUrl | src/core/asf.js:8-18 | a GET with data asks for the endpoint followed by `?` and the serialized data |
| Asf.StatusRequest | src/core/asf.js:141 | the plugin-status request asks for `Status?refreshAutoStop=true` |
| Asf.QuotePrefix | src/core/asf.js:30 | text without a colon is left as it is by the large-number quoting |
| Asf.QuoteBigNumbers | src/core/asf.js:30 | text without a colon is left unchanged, and text not starting with a colon keeps its first character |
| Asf.SpaceRun | src/core/asf.js:30 | the white-space run at the head is maximal: all of it is white space and the next character is not |
| Asf.DigitRun | src/core/asf.js:30 | the digit run at the head is maximal: all of it is digits and the next character is not a digit |
| Asf.BigNumberQuoted | src/core/asf.js:30 | a colon, white space and sixteen or more digits become the colon and the digits in quotes, and quoting resumes after them |
| Asf.ShortNumberKept | src/core/asf.js:30 | a number of fewer than sixteen digits after a colon is left as it is, white space included |
| Asf.NumberAt | src/core/asf.js:30 | the pattern matches after a colon exactly when the number there has sixteen or more digits |
| Asf.Outcome | src/core/asf.js:38-107 | a failed or timed-out request, 401, 403, another status, a missing body and an unsuccessful body each give their own error with the HTTP status as code; success happens exactly for status 200 with a successful body, and returns its `Result`, or the whole body when there is none |
| Asf.ForbiddenMessage | src/core/asf.js:61-70 | a 403 asks for a password exactly when a remote server is used without one; with a password, or on 127.0.0.1, it says the password was wrong |
| Asf.Lookup | src/core/asf.js:128 | looking a name up finds exactly the names present, with their value |
| Asf.Merge | src/core/asf.js:123-131 | each bot keeps its name and its ASF record, in order, and gets the plugin status filed under its own name when statuses were fetched |
| Asf.FindBySteamId | src/core/asf.js:134 | the bot found is the first with the given Steam id, and there is none exactly when no bot has it |
| Asf.GetBot | src/core/asf.js:110-138 | a logged-out browser sends nothing and gets nothing; otherwise the bot list is fetched, then the plugin status when asked for and the list succeeded; either failure is passed on; with an id the first merged bot with that id is returned, without one every merged bot |
| Asf.FoundBotHasItsStatus | src/core/asf.js:123-134 | a bot found by id has that id and carries the plugin status filed under its own name |
| Asf.GetPluginStatus | src/core/asf.js:140-148 | a failed request is passed on; a bot name gives that bot's status, present exactly when listed; no name gives the whole listing |
| UrlEncoding.Utf8 | src/core/asf.js:10 | each character encodes to one to four bytes, one exactly for ASCII, the others being continuation bytes after the first |
| UrlEncoding.LeadOfUtf8 | src/core/asf.js:10 | the decoder reads each encoded character back whole |
| UrlEncoding.Utf8RoundTrip | src/core/asf.js:10 | UTF-8 decoding inverts UTF-8 encoding |
| UrlEncoding.EncodeByte | src/core/asf.js:10 | every byte is written with characters from the serializer's alphabet only |
| UrlEncoding.BytesRoundTrip | src/core/asf.js:10 | the percent-decoding of the encoded bytes gives the bytes back |
| UrlEncoding.SerializeRoundTrip | src/core/asf.js:10 | every serialized name or value is read back exactly |
| UrlEncoding.SerializePlain | src/core/asf.js:10 | names and values of unreserved ASCII characters are sent unchanged |
| UrlEncoding.QueryOfPlainEntry | src/core/asf.js:10 | one entry of plain characters is sent as `name=value` |
| UrlEncoding.ParseAllEntries | src/core/asf.js:10 | the serialized entries parse back to the entries in order |
| UrlEncoding.QueryRoundTrip | src/core/asf.js:10 | the query of any data parses back to the same data, so no name or value can break it apart |

## Left out

- Page rendering: element construction, CSS classes, tooltips, popups, animations and the filter form's widgets. The table model keeps only what the user can observe: the rows in order, the rendered window, the scroll offset and the sort indicator.
- Timing and concurrency in the worker: polling sleeps, the delay between dispatches, random back-off and the final settle wait. Dispatch and completion are explicit events, and the dynamic limit is a parameter.
- Worker.Run: `Run` starts the drain loop, whose first iteration runs synchronously inside the call. The model makes starting and each iteration (`Worker.Step`) separate events, so it allows more interleavings than the source; the safety lemmas hold for all of them.
- The network: the browser's HTTP request in `Send`, the `Request` helper, and the scraping of market pages with its retry loops (`FetchMarketIcons`, the commodity page fetch, the price lookup of `FetchStoreIcons`). Each reply is a parameter: a result or a coded error.
- `JSON.parse` and `JSON.stringify`: the quoting of large numbers is modelled on the response text, and the parsed body is a parameter.
- The IndexedDB cache with its encryption: it is a plain map, or a value passed in.
- Wall-clock time: `Date.now()`, modification dates and inspection timestamps are inputs.
- Floating-point display: percentile ranks, wear-range percentages, the float facet's rounding to two decimals, progress percentages, and the visible-row count taken from the window height, which is a parameter of at least 1. Amounts of money are whole cents, so `toFixed(2)` is exact. Wear values are exact reals. Trade protection (context 16) only picks the float precision (7 or 11 decimals, 2 or 6 in the tooltip), so it is display only and not modelled.
- Store.DiscountOf: rounds the exact ratio `(1 - sale/list) * 100`, where the source rounds its double-precision value. The two differ when that value is exactly a half in exact arithmetic but lands just below it in doubles. For sale 170 and list 400 the double product is 57.49999999999999, so the source gives 57 where the model gives 58; in every such case the model is one point higher.
- Unicode NFD normalisation and diacritic stripping: normalised names are inputs.
- Strings.Cmp: stands in for `localeCompare` with code-unit order. Any total order would do, and locale collation is not modelled.
- Rows.ValueCmp: values of different kinds (a number against a string) are ordered by kind. The source subtracts or calls `localeCompare` across kinds.
- Helpers.Component: reads a version component as a run of decimal digits. Other strings that `Number` accepts (such as "0x10", " 7" or "1e3") count as 0.
- InventoryAsset.Classify: treats missing tags as an empty list where the source's loop would throw. InventoryAsset.InspectLink treats missing actions the same way.
- InventoryAsset.GetDescription: the optional regular expression match is not modelled, only the lookup by name.
- Asset.Inspect: the inspect call and the cache are parameters. Showing the fetched data on the page is not modelled.
- The host-page glue: the script bootstrap (menu, settings form, interface start and stop polling, error log), the page handlers that patch page globals, the entry point and the build files.
- The fetch of store-item icons that `LoadStoreData` starts (and its market fallbacks) is not modelled beyond the chunking and the class-id bookkeeping of `FetchStoreIcons`.
- Icons.Batch: the class-id lookup of `FetchStoreIcons` is unreachable as the source is written. Its only caller (src/cs2/items/store.js:147) passes three arguments, a `Set` of hashes first, to a function that takes `(hashes, progressCallback)`. `Object.values` of a `Set` is empty, so the function returns at its first check (src/cs2/items/icons.js:204-206). The model describes the lookup as it would run if it were reached.

## Findings

| source | as written | input that shows it | evidently intended | confidence | as-written member | corrected member |
|---|---|---|---|---|---|---|
| src/components/item_table.js:1580-1611 | a call that throws while the worker is cancelled is retried even on the third attempt, so the loop ends without a `break` and falls through to the success bookkeeping | the worker is cancelled while the third call is in flight, and the call throws (code 504) | a task that runs out of attempts without moving the item is abandoned, and its row stays | not executed | ItemTable.CancelledLastAttemptCountsAsTransfer | ItemTable.TaskPolicy |
| src/components/store_table.js:55-88 | supplemental data is compared only when both items have it, so the comparator is not transitive and the sort result is unspecified | undiscounted, unweighted items a (id 3, data 9), b (id 2, no data) and c (id 1, data 5): a before c, c before b, b before a | a consistent order in which an item with supplemental data comes before one without, like the layout weight | not executed | StoreTable.DefaultCmpAsWrittenCycles | StoreTable.DefaultOrderIsTotalPreorder |
| src/cs2/items/icons.js:259-262 | when a class-info reply reports partial success, the error branch reads `assets.error` while `assets` is still undefined; the throw is caught and the whole batch is skipped. The code is reached only if `FetchStoreIcons` gets a non-empty `hashes`, which its one caller (src/cs2/items/store.js:147) never passes | a reply with success false carrying a usable icon for a requested class | as the comment says, a partial reply is still processed and its icons are recorded | not executed | Icons.PartialReplyLost | Icons.Batch |

=== FILE: asf.dfy ===
/** The ASF client of core/asf.js: how `Send` builds a request, how it
    protects 64-bit numbers in the response text, how it turns the HTTP
    reply into a value or a coded error, and the bot and plugin-status
    lookups built on it. The HTTP exchange itself is a parameter: every
    function takes the reply the server gave. */
module Asf {
  import opened Wrappers
  import Strings
  import UrlEncoding

  // ---- the request ----

  datatype Method = Get | Post | OtherMethod

  /** The three connection settings `Send` reads; a missing password is
      the empty string. */
  datatype Settings = Settings(server: string, port: string, password: string)

  /** The request handed to the browser: the URL, the method and the data
      sent as the JSON body (its JSON text is not modelled). */
  datatype Request = Request(url: string, verb: Method, payload: Option<seq<(string, string)>>)

  /** `{server}:{port}/Api/{operation}/{bot}/{path}`. */
  function Endpoint(s: Settings, operation: string, bot: string, path: string): string {
    s.server + ":" + s.port + "/Api/" + operation + "/" + bot + "/" + path
  }

  /** The request of `Send(operation, path, verb, bot, data)`: data
      (`None` when absent) goes into the query of a GET and into the body
      of a POST; other verbs send it nowhere. */
  function BuildRequest(s: Settings, operation: string, path: string, verb: Method, bot: string,
                        data: Option<seq<(string, string)>>): (r: Request)
    ensures r.verb == verb
    ensures verb == Get && data.Some? ==> exists q :: (r.url == Endpoint(s, operation, bot, path) + "?" + q
      && UrlEncoding.ParseQuery(q) == Some(data.value))
    ensures !(verb == Get && data.Some?) ==> r.url == Endpoint(s, operation, bot, path)
    ensures r.payload.Some? <==> verb == Post && data.Some?
    ensures r.payload.Some? ==> r.payload == data
  {
    var parameters := if data.Some? && verb == Get then "?" + UrlEncoding.Query(data.value) else "";
    UrlEncoding.QueryRoundTrip(data.GetOr([]));
    Request(Endpoint(s, operation, bot, path) + parameters, verb,
            if data.Some? && verb == Post then data else None)
  }

  /** The plugin-status request always asks to refresh the interface's
      auto-stop timer. */
  lemma StatusRequest(s: Settings)
    ensures BuildRequest(s, "CS2Interface", "Status", Get, "ASF", Some([("refreshAutoStop", "true")])).url
      == Endpoint(s, "CS2Interface", "ASF", "Status") + "?refreshAutoStop=true"
  {
    GetUrl(s, "CS2Interface", "Status", "ASF", [("refreshAutoStop", "true")]);
    StatusQuery();
    StatusQueryText();
  }

  /** With data, a GET carries its query after a `?`. */
  lemma GetUrl(s: Settings, operation: string, path: string, bot: string, data: seq<(string, string)>)
    ensures BuildRequest(s, operation, path, Get, bot, Some(data)).url
      == Endpoint(s, operation, bot, path) + "?" + UrlEncoding.Query(data)
  {
  }

  lemma StatusQuery()
    ensures UrlEncoding.Query([("refreshAutoStop", "true")]) == "refreshAutoStop" + "=" + "true"
  {
    PlainWord("refreshAutoStop");
    PlainWord("true");
    UrlEncoding.QueryOfPlainEntry("refreshAutoStop", "true");
  }

  lemma StatusQueryText()
    ensures "?" + ("refreshAutoStop" + "=" + "true") == "?refreshAutoStop=true"
  {
  }

  /** A word of ASCII letters is sent as it is. */
  lemma PlainWord(w: string)
    requires forall k :: 0 <= k < |w| ==> 'a' <= w[k] <= 'z' || 'A' <= w[k] <= 'Z'
    ensures forall k :: 0 <= k < |w| ==> UrlEncoding.Plain(w[k])
  {
  }

  // ---- protecting large numbers ----

  /** JavaScript's `\s`: the white space and line terminator characters. */
  predicate IsSpace(c: char) {
    c == '\t' || c == '\n' || c == '\U{000B}' || c == '\U{000C}' || c == '\r' || c == ' '
    || c == '\U{00A0}' || c == '\U{1680}' || ('\U{2000}' <= c <= '\U{200A}')
    || c == '\U{2028}' || c == '\U{2029}' || c == '\U{202F}' || c == '\U{205F}'
    || c == '\U{3000}' || c == '\U{FEFF}'
  }

  /** The length of the white space at the head of `s`. */
  function SpaceRun(s: string): (r: nat)
    ensures r <= |s|
    ensures forall k :: 0 <= k < r ==> IsSpace(s[k])
    ensures r < |s| ==> !IsSpace(s[r])
    decreases |s|
  {
    if |s| > 0 && IsSpace(s[0]) then 1 + SpaceRun(s[1..]) else 0
  }

  /** The length of the digits at the head of `s`. */
  function DigitRun(s: string): (r: nat)
    ensures r <= |s|
    ensures forall k :: 0 <= k < r ==> Strings.IsDigit(s[k])
    ensures r < |s| ==> !Strings.IsDigit(s[r])
    decreases |s|
  {
    if |s| > 0 && Strings.IsDigit(s[0]) then 1 + DigitRun(s[1..]) else 0
  }

  /** A match of `(\s*)(\d{16,})` at the head of `s`: the lengths of its
      white space and of its digits. */
  function BigNumberAt(s: string): (r: Option<(nat, nat)>)
    ensures r.Some? ==> r.value.0 + r.value.1 <= |s| && r.value.1 >= 16
  {
    var w := SpaceRun(s);
    var d := DigitRun(s[w..]);
    if d >= 16 then Some((w, d)) else None
  }

  /** The response text with every `:` followed by white space and sixteen
      or more digits turned into `:` and those digits in quotes, so that
      `JSON.parse` keeps ids such as tournament match ids exact. The white
      space is dropped; matching resumes after each replaced number. */
  function QuoteBigNumbers(s: string): (r: string)
    ensures ':' !in s ==> r == s
    ensures |s| > 0 && s[0] != ':' ==> |r| > 0 && r[0] == s[0]
    decreases |s|
  {
    if |s| == 0 then ""
    else
      var (out, used) := ScanStep(s);
      out + QuoteBigNumbers(s[used..])
  }

  /** One step of the scan: what is written for the head of `s` and how
      many characters it consumes. */
  function ScanStep(s: string): (r: (string, nat))
    requires |s| > 0
    ensures 1 <= r.1 <= |s|
  {
    if s[0] == ':' && BigNumberAt(s[1..]).Some? then
      var (w, d) := BigNumberAt(s[1..]).value;
      (Quoted(s[1 + w..1 + w + d]), 1 + w + d)
    else ([s[0]], 1)
  }

  /** A colon and the digits in quotes. */
  function Quoted(digits: string): string {
    [':', '"'] + digits + ['"']
  }

  predicate AllSpaces(s: string) {
    forall k :: 0 <= k < |s| ==> IsSpace(s[k])
  }

  /** Text without a colon passes through unchanged. */
  lemma {:induction false} QuotePrefix(p: string, rest: string)
    requires ':' !in p
    ensures QuoteBigNumbers(p + rest) == p + QuoteBigNumbers(rest)
    decreases |p|
  {
    if |p| > 0 {
      QuotePrefix(p[1..], rest);
      ConsAppend(p, rest);
      QuoteOther(p[0], p[1..] + rest);
      ConsAppend(p, QuoteBigNumbers(rest));
    } else {
      assert p + rest == rest;
    }
  }

  /** A character other than a colon is copied as it is. */
  lemma QuoteOther(c: char, t: string)
    requires c != ':'
    ensures QuoteBigNumbers([c] + t) == [c] + QuoteBigNumbers(t)
  {
    assert ScanStep([c] + t) == ([c], 1);
    assert ([c] + t)[1..] == t;
  }

  lemma ConsAppend(p: string, x: string)
    requires |p| > 0
    ensures p + x == [p[0]] + (p[1..] + x)
  {
  }

  /** The runs of white space and digits after a colon are exactly `ws`
      and `digits` when `rest` does not continue the number. */
  lemma RunsAfterColon(ws: string, digits: string, rest: string)
    requires AllSpaces(ws) && Strings.AllDigits(digits) && |digits| > 0
    requires |rest| == 0 || !Strings.IsDigit(rest[0])
    ensures SpaceRun(ws + digits + rest) == |ws|
    ensures DigitRun((ws + digits + rest)[|ws|..]) == |digits|
  {
    TailSlices(ws, digits, rest);
    assert !IsSpace(digits[0]);
  }

  lemma TailSlices(ws: string, digits: string, rest: string)
    requires |digits| > 0
    ensures var t := ws + digits + rest;
      && t[|ws|] == digits[0] && t[|ws|..] == digits + rest
      && (|rest| > 0 ==> (digits + rest)[|digits|] == rest[0])
  {
  }

  /** The pieces of a colon followed by `ws`, `digits` and `rest`. */
  lemma ColonSlices(ws: string, digits: string, rest: string)
    ensures var s := ":" + ws + digits + rest;
      && s[0] == ':' && s[1..] == ws + digits + rest
      && s[1 + |ws|..1 + |ws| + |digits|] == digits && s[1 + |ws| + |digits|..] == rest
  {
  }

  /** A number of sixteen or more digits after a colon is quoted, and the
      white space before it dropped. */
  lemma BigNumberQuoted(ws: string, digits: string, rest: string)
    requires AllSpaces(ws) && Strings.AllDigits(digits) && |digits| >= 16
    requires |rest| == 0 || !Strings.IsDigit(rest[0])
    ensures QuoteBigNumbers(":" + ws + digits + rest) == Quoted(digits) + QuoteBigNumbers(rest)
  {
    NumberAt(ws, digits, rest);
    QuoteAtColon(ws, digits, rest);
  }

  /** Where the number after a colon ends, and whether it is long enough. */
  lemma NumberAt(ws: string, digits: string, rest: string)
    requires AllSpaces(ws) && Strings.AllDigits(digits) && |digits| > 0
    requires |rest| == 0 || !Strings.IsDigit(rest[0])
    ensures BigNumberAt(ws + digits + rest) == if |digits| >= 16 then Some((|ws|, |digits|)) else None
  {
    RunsAfterColon(ws, digits, rest);
  }

  lemma QuoteAtColon(ws: string, digits: string, rest: string)
    requires BigNumberAt(ws + digits + rest) == Some((|ws|, |digits|))
    ensures QuoteBigNumbers(":" + ws + digits + rest) == Quoted(digits) + QuoteBigNumbers(rest)
  {
    var s := ":" + ws + digits + rest;
    ColonSlices(ws, digits, rest);
    assert ScanStep(s) == (Quoted(digits), 1 + |ws| + |digits|);
  }

  lemma SkipColon(ws: string, digits: string, rest: string)
    requires BigNumberAt(ws + digits + rest).None?
    ensures QuoteBigNumbers(":" + ws + digits + rest) == ":" + QuoteBigNumbers((ws + digits) + rest)
  {
    var s := ":" + ws + digits + rest;
    ColonSlices(ws, digits, rest);
    Regroup(ws, digits, rest, "");
    assert ScanStep(s) == (":", 1);
  }

  lemma NoColonInNumber(ws: string, digits: string)
    requires AllSpaces(ws) && Strings.AllDigits(digits)
    ensures ':' !in ws + digits
  {
    forall k | 0 <= k < |ws + digits| ensures (ws + digits)[k] != ':' {
      if k < |ws| { assert IsSpace(ws[k]); } else { assert Strings.IsDigit(digits[k - |ws|]); }
    }
  }

  lemma Regroup(ws: string, digits: string, rest: string, tail: string)
    ensures (":" + ws + digits + rest)[1..] == (ws + digits) + rest
    ensures ":" + ((ws + digits) + tail) == ":" + ws + digits + tail
  {
  }

  /** A shorter number after a colon is left as it is, white space
      included. */
  lemma ShortNumberKept(ws: string, digits: string, rest: string)
    requires AllSpaces(ws) && Strings.AllDigits(digits) && 0 < |digits| < 16
    requires |rest| == 0 || !Strings.IsDigit(rest[0])
    ensures QuoteBigNumbers(":" + ws + digits + rest) == ":" + ws + digits + QuoteBigNumbers(rest)
  {
    NumberAt(ws, digits, rest);
    SkipColon(ws, digits, rest);
    NoColonInNumber(ws, digits);
    QuotePrefix(ws + digits, rest);
    Regroup(ws, digits, rest, QuoteBigNumbers(rest));
  }

  // ---- the reply ----

  /** The parsed response of a reply that carried a truthy body: its
      `Success`, its `Message` (empty when absent) and its `Result`. A body
      that is not such an object, such as text that was not JSON, is
      `Body(false, "", None)`, since it has neither field. */
  datatype Body<R> = Body(success: bool, message: string, result: Option<R>)

  /** What the browser reports: a loaded reply with its status and body
      (`None` for a falsy body), or a failed or timed-out request. */
  datatype Reply<R> = Loaded(status: int, body: Option<Body<R>>) | Errored(status: int) | TimedOut(status: int)

  /** A successful `Send` returns the body's `Result`, or the whole body
      when it has none. */
  datatype Payload<R> = ResultField(value: R) | WholeBody(body: Body<R>)

  /** A thrown error: its message and its `code`, always the HTTP status. */
  datatype AsfError = AsfError(code: int, message: string)

  const PASSWORD_MISSING := "(401) Missing or incorrect ASF IPC password. Please check your settings and verify your ASF IPC password."
  const PASSWORD_REQUIRED := "(403) You must use an ASF IPC password when connecting to ASF remotely."
  const PASSWORD_INCORRECT := "(403) The ASF IPC password you entered was incorrect. Please wait or restart ASF, and then try again."
  const LOG_HINT := ": Please check your ASF logs for errors"

  /** `(status) ` in front of a message. */
  function Coded(status: int, text: string): string {
    "(" + Strings.IntToString(status) + ") " + text
  }

  function Where(operation: string, path: string): string {
    "/Api/" + operation + "/" + path
  }

  /** A server that is neither `127.0.0.1` nor `localhost` reached
      without a password. */
  predicate RemoteWithoutPassword(s: Settings) {
    !Strings.Contains(s.server, "127.0.0.1") && !Strings.Contains(Strings.ToLower(s.server), "localhost")
    && s.password == ""
  }

  /** What follows the request-error header: the server's message if it
      sent one, a hint to check the logs for a server error, else nothing. */
  function RequestErrorDetail<R>(status: int, body: Option<Body<R>>): string {
    if body.Some? && body.value.message != "" then ": " + body.value.message
    else if status >= 500 then LOG_HINT
    else ""
  }

  /** The outcome of `Send` for a reply. */
  function Outcome<R>(s: Settings, operation: string, path: string, reply: Reply<R>): (r: Result<Payload<R>, AsfError>)
    ensures r.Failure? ==> r.error.code == reply.status
    ensures r.Success? <==> reply.Loaded? && reply.status == 200 && reply.body.Some? && reply.body.value.success
    ensures r.Success? ==> (r.value.ResultField? <==> reply.body.value.result.Some?)
    ensures r.Success? && r.value.ResultField? ==> r.value.value == reply.body.value.result.value
    ensures r.Success? && r.value.WholeBody? ==> r.value.body == reply.body.value
    ensures reply.Errored? ==> r.Failure? && r.error.message == Coded(reply.status, "Request error from " + Where(operation, path))
    ensures reply.TimedOut? ==> r.Failure? && r.error.message == Coded(reply.status, "Request timed out on " + Where(operation, path))
    ensures reply.Loaded? && reply.status == 401 ==> r == Failure(AsfError(401, PASSWORD_MISSING))
    ensures reply.Loaded? && reply.status == 403 ==>
      r == Failure(AsfError(403, if RemoteWithoutPassword(s) then PASSWORD_REQUIRED else PASSWORD_INCORRECT))
    ensures reply.Loaded? && reply.status != 401 && reply.status != 403 && (reply.body.None? || reply.status != 200) ==>
      r.Failure? && r.error.message == Coded(reply.status, "ASF request error from " + Where(operation, path))
        + RequestErrorDetail(reply.status, reply.body)
    ensures reply.Loaded? && reply.status == 200 && reply.body.Some? && !reply.body.value.success ==>
      r.Failure? && r.error.message == Coded(200, "ASF response error from " + Where(operation, path))
        + (if reply.body.value.message != "" then ": " + reply.body.value.message else "")
  {
    match reply
    case Errored(status) => Failure(AsfError(status, Coded(status, "Request error from " + Where(operation, path))))
    case TimedOut(status) => Failure(AsfError(status, Coded(status, "Request timed out on " + Where(operation, path))))
    case Loaded(status, body) =>
      if status == 401 then Failure(AsfError(status, PASSWORD_MISSING))
      else if status == 403 then
        Failure(AsfError(status, if RemoteWithoutPassword(s) then PASSWORD_REQUIRED else PASSWORD_INCORRECT))
      else if body.None? || status != 200 then
        Failure(AsfError(status, Coded(status, "ASF request error from " + Where(operation, path))
          + RequestErrorDetail(status, body)))
      else if !body.value.success then
        Failure(AsfError(status, Coded(status, "ASF response error from " + Where(operation, path))
          + (if body.value.message != "" then ": " + body.value.message else "")))
      else match body.value.result
        case Some(v) => Success(ResultField(v))
        case None => Success(WholeBody(body.value))
  }

  /** The 403 message asks for a password exactly when a remote server is
      used without one; a local server, or any password, means the
      password was wrong. */
  lemma ForbiddenMessage<R>(s: Settings, operation: string, path: string, body: Option<Body<R>>)
    ensures Outcome(s, operation, path, Loaded(403, body)).error.message == PASSWORD_REQUIRED
      <==> RemoteWithoutPassword(s)
    ensures s.password != "" ==> Outcome(s, operation, path, Loaded(403, body)).error.message == PASSWORD_INCORRECT
    ensures Strings.Contains(s.server, "127.0.0.1") ==>
      Outcome(s, operation, path, Loaded(403, body)).error.message == PASSWORD_INCORRECT
  {
    assert PASSWORD_REQUIRED != PASSWORD_INCORRECT by {
      assert |PASSWORD_REQUIRED| != |PASSWORD_INCORRECT|;
    }
  }

  // ---- bots ----

  /** A bot as ASF lists it; its `SteamID` is read as the text of the
      number, kept exact by the quoting of large numbers. */
  datatype AsfBot = AsfBot(name: string, steamId: string)

  /** A bot with the interface plugin's status for it, if any. */
  datatype MergedBot<P> = MergedBot(asf: AsfBot, plugin: Option<P>)

  /** The `steamID` argument of `GetBot`: `false` (not logged into Steam in
      the browser), any other falsy value, or an id. */
  datatype SteamIdArg = LoggedOut | NoSteamId | SteamId(id: string)

  /** What `GetBot` returns: nothing without a request, every bot by name,
      or the bot found for the id (`None` when there is none). */
  datatype BotLookup<P> = NotRequested | AllBots(bots: seq<(string, MergedBot<P>)>) | FoundBot(bot: Option<MergedBot<P>>)

  /** The requests `GetBot` sends, in order. */
  datatype Call = BotList | PluginStatus

  function Lookup<P>(m: map<string, P>, key: string): (r: Option<P>)
    ensures r.Some? <==> key in m
    ensures r.Some? ==> r.value == m[key]
  {
    if key in m then Some(m[key]) else None
  }

  /** Each bot, under its own name, with the plugin status under the same
      name. */
  function Merge<P>(bots: seq<(string, AsfBot)>, plugins: Option<map<string, P>>): (r: seq<(string, MergedBot<P>)>)
    ensures |r| == |bots|
    ensures forall k :: 0 <= k < |r| ==> r[k].0 == bots[k].0 && r[k].1.asf == bots[k].1
    ensures forall k :: 0 <= k < |r| ==>
      r[k].1.plugin == (if plugins.Some? then Lookup(plugins.value, bots[k].0) else None)
  {
    seq(|bots|, k requires 0 <= k < |bots| =>
      (bots[k].0, MergedBot(bots[k].1, if plugins.Some? then Lookup(plugins.value, bots[k].0) else None)))
  }

  /** The first bot whose Steam id is `id`. */
  function FindBySteamId<P>(bots: seq<(string, MergedBot<P>)>, id: string): (r: Option<MergedBot<P>>)
    ensures r.None? <==> forall k :: 0 <= k < |bots| ==> bots[k].1.asf.steamId != id
    ensures r.Some? ==> exists i :: (0 <= i < |bots| && bots[i].1 == r.value && r.value.asf.steamId == id
      && forall k :: 0 <= k < i ==> bots[k].1.asf.steamId != id)
    decreases |bots|
  {
    if |bots| == 0 then None
    else if bots[0].1.asf.steamId == id then Some(bots[0].1)
    else
      var r := FindBySteamId(bots[1..], id);
      assert forall k :: 1 <= k < |bots| ==> bots[k] == bots[1..][k - 1];
      r
  }

  /** `GetBot(steamID, includePluginStatus)` given the replies of the bot
      list and the plugin status (each either the listing or the error
      `Send` threw). Returns the result and the requests sent. */
  function GetBot<P>(steamID: SteamIdArg, includePluginStatus: bool,
                     botList: Result<seq<(string, AsfBot)>, AsfError>,
                     pluginStatus: Result<map<string, P>, AsfError>): (r: (Result<BotLookup<P>, AsfError>, seq<Call>))
    ensures steamID.LoggedOut? <==> r.1 == []
    ensures steamID.LoggedOut? ==> r.0 == Success(NotRequested)
    ensures !steamID.LoggedOut? ==> r.1 == (if includePluginStatus && botList.Success? then [BotList, PluginStatus] else [BotList])
    ensures !steamID.LoggedOut? && botList.Failure? ==> r.0 == Failure(botList.error)
    ensures !steamID.LoggedOut? && botList.Success? && includePluginStatus && pluginStatus.Failure? ==>
      r.0 == Failure(pluginStatus.error)
    ensures r.0.Success? && !steamID.LoggedOut? ==> botList.Success?
    ensures r.0.Success? ==> (r.0.value.AllBots? <==> steamID.NoSteamId?) && (r.0.value.FoundBot? <==> steamID.SteamId?)
    ensures r.0.Success? && r.0.value.AllBots? ==>
      r.0.value.bots == Merge(botList.value, if includePluginStatus then Some(pluginStatus.value) else None)
    ensures r.0.Success? && r.0.value.FoundBot? ==>
      r.0.value.bot == FindBySteamId(Merge(botList.value, if includePluginStatus then Some(pluginStatus.value) else None), steamID.id)
  {
    if steamID.LoggedOut? then (Success(NotRequested), [])
    else if botList.Failure? then (Failure(botList.error), [BotList])
    else if includePluginStatus && pluginStatus.Failure? then (Failure(pluginStatus.error), [BotList, PluginStatus])
    else
      var calls := if includePluginStatus then [BotList, PluginStatus] else [BotList];
      var merged := Merge(botList.value, if includePluginStatus then Some(pluginStatus.value) else None);
      match steamID
      case SteamId(id) => (Success(FoundBot(FindBySteamId(merged, id))), calls)
      case NoSteamId => (Success(AllBots(merged)), calls)
  }

  /** A bot found by id carries the plugin status filed under its own
      name. */
  lemma FoundBotHasItsStatus<P>(id: string, bots: seq<(string, AsfBot)>, plugins: map<string, P>)
    requires GetBot(SteamId(id), true, Success(bots), Success(plugins)).0.Success?
    requires GetBot(SteamId(id), true, Success(bots), Success(plugins)).0.value.bot.Some?
    ensures var b := GetBot(SteamId(id), true, Success(bots), Success(plugins)).0.value.bot.value;
      b.asf.steamId == id
      && exists i :: 0 <= i < |bots| && bots[i].1 == b.asf && b.plugin == Lookup(plugins, bots[i].0)
  {
    var merged := Merge(bots, Some(plugins));
    var b := FindBySteamId(merged, id).value;
    var i :| 0 <= i < |merged| && merged[i].1 == b && b.asf.steamId == id;
    assert bots[i].1 == b.asf;
  }

  /** What `GetPluginStatus` returns: one bot's status (`None` when the
      listing has none) or the whole listing. */
  datatype PluginLookup<P> = OneBot(status: Option<P>) | AllStatuses(statuses: map<string, P>)

  /** `GetPluginStatus(botName)` given the reply of the status request;
      an empty name asks for every bot. */
  function GetPluginStatus<P>(botName: string, reply: Result<map<string, P>, AsfError>): (r: Result<PluginLookup<P>, AsfError>)
    ensures reply.Failure? ==> r == Failure(reply.error)
    ensures reply.Success? && botName != "" ==> (r.Success? && r.value.OneBot?
      && (r.value.status.Some? <==> botName in reply.value)
      && (r.value.status.Some? ==> r.value.status.value == reply.value[botName]))
    ensures reply.Success? && botName == "" ==> r == Success(AllStatuses(reply.value))
  {
    match reply
    case Failure(e) => Failure(e)
    case Success(bots) => if botName != "" then Success(OneBot(Lookup(bots, botName))) else Success(AllStatuses(bots))
  }
}

=== FILE: asset.dfy ===
/** The shared asset logic of cs2/items/assets/asset.js: the wear-band
    lookup, the cosmetic count, whether to inspect, and the inspection
    with its cache, retry policy and stored projection. Floats are exact
    reals; the clock, the inspection cache and the inspect call are
    parameters. */
module Asset {
  import opened Wrappers
  import opened Rows
  import Constants
  import Strings

  datatype AssetType = Wearable | Keychain | StorageUnit | Other

  // ---- GetWear ----

  predicate InBand(w: Constants.Wear, x: real) {
    w.min <= x <= w.max
  }

  /** The index of the first wear band containing `x`. */
  function WearIndexFrom(x: real, i: nat): (r: Option<nat>)
    requires i <= |Constants.WEARS|
    ensures r.Some? ==> i <= r.value < |Constants.WEARS| && InBand(Constants.WEARS[r.value], x)
    ensures r.Some? ==> forall j :: i <= j < r.value ==> !InBand(Constants.WEARS[j], x)
    ensures r.None? ==> forall j :: i <= j < |Constants.WEARS| ==> !InBand(Constants.WEARS[j], x)
    decreases |Constants.WEARS| - i
  {
    if i == |Constants.WEARS| then None
    else if InBand(Constants.WEARS[i], x) then Some(i)
    else WearIndexFrom(x, i + 1)
  }

  /** `Asset.GetWear(x)`: the first band with `min <= x <= max`. */
  function GetWear(x: real): (r: Option<Constants.Wear>)
    ensures r.Some? ==> r.value in Constants.WEARS && InBand(r.value, x)
  {
    match WearIndexFrom(x, 0)
    case Some(i) => Some(Constants.WEARS[i])
    case None => None
  }

  /** A wear is found exactly for floats in the float range, and a float on
      a shared boundary belongs to the lower band. */
  lemma GetWearCoversFloatRange(x: real)
    ensures GetWear(x).Some? <==> Constants.FLOAT_RANGE.min <= x <= Constants.FLOAT_RANGE.max
    ensures forall i :: 0 <= i < |Constants.WEARS| - 1 && x == Constants.WEARS[i].max ==>
      GetWear(x) == Some(Constants.WEARS[i])
  {
    Constants.WearsTileFloatRange();
    var r := WearIndexFrom(x, 0);
    if 0.0 <= x <= 1.0 {
      if x <= 0.07 { assert InBand(Constants.WEARS[0], x); }
      else if x <= 0.15 { assert InBand(Constants.WEARS[1], x); }
      else if x <= 0.38 { assert InBand(Constants.WEARS[2], x); }
      else if x <= 0.45 { assert InBand(Constants.WEARS[3], x); }
      else { assert InBand(Constants.WEARS[4], x); }
    }
  }

  lemma FactoryNewBoundary()
    ensures GetWear(0.07) == Some(Constants.WEARS[0]) && GetWear(0.07).value.name == "FN"
  {
    assert InBand(Constants.WEARS[0], 0.07);
  }

  // ---- GetNumCosmetics ----

  function SlotField(k: nat): string {
    "attributes.sticker slot " + Strings.NatToString(k) + " id"
  }

  /** The sticker slots (0 to 4) holding a sticker id. */
  function FilledSlots(item: Row, n: nat): set<nat> {
    set k | 0 <= k < n && Truthy(Get(item, SlotField(k)))
  }

  /** Counts the sticker slots `0..STICKER_MAX_COUNT` holding an id. */
  method CountStickerSlots(item: Row) returns (count: nat)
    ensures count == |FilledSlots(item, Constants.STICKER_MAX_COUNT)|
    ensures count <= Constants.STICKER_MAX_COUNT
  {
    count := 0;
    var slotNum: nat := 0;
    while slotNum < Constants.STICKER_MAX_COUNT
      invariant slotNum <= Constants.STICKER_MAX_COUNT
      invariant count == |FilledSlots(item, slotNum)|
      invariant count <= slotNum
    {
      if Truthy(Get(item, SlotField(slotNum))) {
        assert FilledSlots(item, slotNum + 1) == FilledSlots(item, slotNum) + {slotNum};
        count := count + 1;
      } else {
        assert FilledSlots(item, slotNum + 1) == FilledSlots(item, slotNum);
      }
      slotNum := slotNum + 1;
    }
  }

  /** `Asset.GetNumCosmetics(item)`: a memoised count stored on the item;
      otherwise one for keychains plus the filled sticker slots when the
      item has stickers, recorded as `cosmetics`. */
  method GetNumCosmetics(item: Row) returns (count: Value, updated: Row)
    ensures Get(item, "cosmetics").Some? ==> count == Get(item, "cosmetics").value && updated == item
    ensures Get(item, "cosmetics").None? ==>
      && count.Num?
      && count.n == (if Truthy(Get(item, "keychains")) then 1 else 0) as real
                    + (if Truthy(Get(item, "stickers")) then |FilledSlots(item, Constants.STICKER_MAX_COUNT)| else 0) as real
      && 0.0 <= count.n <= (Constants.STICKER_MAX_COUNT + Constants.KEYCHAIN_MAX_COUNT) as real
      && updated == Row(item.key, item.fields["cosmetics" := count])
  {
    if Get(item, "cosmetics").Some? {
      return Get(item, "cosmetics").value, item;
    }
    var n: nat := 0;
    if Truthy(Get(item, "keychains")) {
      n := n + 1;
    }
    if Truthy(Get(item, "stickers")) {
      var stickers := CountStickerSlots(item);
      n := n + stickers;
    }
    count := Num(n as real);
    updated := Row(item.key, item.fields["cosmetics" := count]);
  }

  /** The count is memoised: a second call returns the first call's count
      and changes nothing. */
  method CosmeticsMemoised(item: Row) returns (first: Value, second: Value)
    ensures first == second
  {
    var updated;
    first, updated := GetNumCosmetics(item);
    var again;
    second, again := GetNumCosmetics(updated);
  }

  // ---- ShouldInspect ----

  /** `ShouldInspect()`: a wearable whose link is not the string
      "undefined" (a link built from a missing action id); a link that was
      never set compares unequal to that string too. */
  predicate ShouldInspect(assetType: Option<AssetType>, link: Option<string>): (r: bool)
    ensures r ==> assetType == Some(Wearable)
    ensures link == Some("undefined") ==> !r
    ensures assetType == Some(Wearable) && link.None? ==> r
  {
    assetType == Some(Wearable) && link != Some("undefined")
  }

  // ---- _Inspect ----

  /** The cache-expiry rule: a non-negative maximum age expires entries at
      least that old; a negative one never expires. */
  predicate Expired(ageHours: real, maxAgeHours: real) {
    maxAgeHours >= 0.0 && ageHours >= maxAgeHours
  }

  lemma ExpiryRule(ageHours: real, older: real, maxAgeHours: real)
    requires ageHours <= older
    ensures maxAgeHours < 0.0 ==> !Expired(ageHours, maxAgeHours)
    ensures Expired(ageHours, maxAgeHours) ==> Expired(older, maxAgeHours)
    ensures 0.0 <= maxAgeHours ==> (Expired(ageHours, maxAgeHours) <==> ageHours >= maxAgeHours)
  {
  }

  /** The parts of an inspection response the projection reads. */
  datatype ItemInfo = ItemInfo(
    paintseed: Option<int>, rarity: Option<int>, quality: Option<int>,
    stickerWears: seq<Option<real>>, keychainPatterns: seq<int>)

  datatype Response = Response(
    wear: Option<real>, wearMin: Option<real>, wearMax: Option<real>,
    stattrak: Option<bool>, iteminfo: Option<ItemInfo>)

  datatype WearRange = WearRange(wear: real, wearMin: real, wearMax: real)

  /** The stored inspection data. */
  datatype InspectData = InspectData(
    created: real, wear: Option<WearRange>, seed: Option<int>, rarity: Option<int>,
    quality: Option<int>, stattrak: bool, stickers: Option<seq<real>>, charm: Option<int>)

  /** The projection of a response into stored data, at time `now`. */
  function Project(info: ItemInfo, resp: Response, now: real): (d: InspectData)
    ensures d.created == now
    ensures d.wear.Some? <==> resp.wear.Some? && resp.wearMin.Some? && resp.wearMax.Some?
    ensures d.wear.Some? ==> d.wear.value == WearRange(resp.wear.value, resp.wearMin.value, resp.wearMax.value)
    ensures d.seed == info.paintseed && d.rarity == info.rarity && d.quality == info.quality
    ensures d.stattrak <==> resp.stattrak == Some(true)
    ensures d.stickers.Some? <==> |info.stickerWears| > 0
    ensures d.stickers.Some? ==>
      && |d.stickers.value| == |info.stickerWears|
      && (forall k :: 0 <= k < |info.stickerWears| ==> d.stickers.value[k] == info.stickerWears[k].GetOr(0.0))
    ensures d.charm.Some? <==> |info.keychainPatterns| > 0
    ensures d.charm.Some? ==> d.charm.value == info.keychainPatterns[0]
  {
    InspectData(
      now,
      if resp.wear.Some? && resp.wearMin.Some? && resp.wearMax.Some?
      then Some(WearRange(resp.wear.value, resp.wearMin.value, resp.wearMax.value)) else None,
      info.paintseed, info.rarity, info.quality,
      resp.stattrak == Some(true),
      if |info.stickerWears| > 0
      then Some(seq(|info.stickerWears|, k requires 0 <= k < |info.stickerWears| => info.stickerWears[k].GetOr(0.0)))
      else None,
      if |info.keychainPatterns| > 0 then Some(info.keychainPatterns[0]) else None)
  }

  /** One call of the inspect request: a response (possibly empty) or an
      error with its status code. */
  datatype CallResult = Returned(body: Option<Response>) | Threw(code: int)

  datatype Fetched = Got(body: Option<Response>) | Raised(code: int) | TimedOut
  datatype FetchRun = FetchRun(result: Fetched, calls: nat)

  const MAX_ATTEMPTS: nat := 3

  /** The attempt loop: a timeout (504) is reported and retried, any other
      error propagates, the first response ends the loop. */
  function Fetch(env: nat -> CallResult, attempt: nat): (r: FetchRun)
    requires attempt <= MAX_ATTEMPTS
    ensures r.calls <= MAX_ATTEMPTS - attempt
    decreases MAX_ATTEMPTS - attempt
  {
    if attempt == MAX_ATTEMPTS then FetchRun(TimedOut, 0)
    else match env(attempt)
      case Returned(body) => FetchRun(Got(body), 1)
      case Threw(code) =>
        if code == 504 then
          var rest := Fetch(env, attempt + 1);
          FetchRun(rest.result, rest.calls + 1)
        else FetchRun(Raised(code), 1)
  }

  /** The retry policy: at most three calls; every call before the last one
      timed out; a propagated error is not a timeout; giving up follows
      three timeouts. */
  lemma {:induction false} FetchPolicy(env: nat -> CallResult, attempt: nat)
    requires attempt <= MAX_ATTEMPTS
    ensures var r := Fetch(env, attempt);
      && (forall j :: attempt <= j < attempt + r.calls - 1 ==> env(j) == Threw(504))
      && (r.result.Raised? ==> r.result.code != 504 && r.calls >= 1 && env(attempt + r.calls - 1) == Threw(r.result.code))
      && (r.result.Got? ==> r.calls >= 1 && env(attempt + r.calls - 1) == Returned(r.result.body))
      && (r.result.TimedOut? ==> r.calls == MAX_ATTEMPTS - attempt && forall j :: attempt <= j < MAX_ATTEMPTS ==> env(j) == Threw(504))
    decreases MAX_ATTEMPTS - attempt
  {
    if attempt < MAX_ATTEMPTS && env(attempt).Threw? && env(attempt).code == 504 {
      FetchPolicy(env, attempt + 1);
    }
  }

  datatype InspectError = RequestFailed(code: int) | NoData | InvalidData | InvalidWear
  /** `undefined` (nothing to inspect), `false` (cache-only miss), `true`,
      or a thrown error. */
  datatype Outcome = NotInspected | CacheMiss | Inspected | Failed(error: InspectError)

  datatype InspectRun = InspectRun(outcome: Outcome, data: Option<InspectData>, wear: Option<Constants.Wear>, calls: nat)

  /** The inputs of one `_Inspect` call: the asset's type, link, whether its
      id is set and the data it already holds; the cached entry with its
      age; the configured maximum age; the cache-only option; the request
      results per attempt; the current time. */
  datatype Inputs = Inputs(
    assetType: Option<AssetType>, link: Option<string>, hasId: bool, held: Option<InspectData>,
    cached: Option<InspectData>, ageHours: real, maxAgeHours: real, cacheOnly: bool,
    env: nat -> CallResult, now: real)

  /** The wear check at the end of `_Inspect`. */
  function CheckWear(d: InspectData, calls: nat): (r: InspectRun)
    ensures r.data == Some(d) && r.calls == calls
    ensures r.outcome == Inspected || r.outcome == Failed(InvalidWear)
    ensures r.outcome == Inspected && d.wear.Some? ==> r.wear == GetWear(d.wear.value.wear) && r.wear.Some?
  {
    if d.wear.None? then InspectRun(Inspected, Some(d), None, calls)
    else match GetWear(d.wear.value.wear)
      case None => InspectRun(Failed(InvalidWear), Some(d), None, calls)
      case Some(w) => InspectRun(Inspected, Some(d), Some(w), calls)
  }

  /** The request is made: the asset should be inspected and has an id, no
      valid cached or held data exists, and cache-only mode is off. */
  predicate Requests(i: Inputs) {
    && ShouldInspect(i.assetType, i.link) && i.hasId
    && i.held.None? && (i.cached.None? || Expired(i.ageHours, i.maxAgeHours))
    && !i.cacheOnly
  }

  /** How the last call of the request decides the outcome: a timeout
      (only ever the third) and an empty reply give no data, another error
      is reported with its code, a reply without item information is
      invalid, and a reply with it is projected and checked for its wear. */
  predicate LastCallDecides(last: CallResult, r: InspectRun, now: real) {
    match last
    case Threw(code) =>
      if code == 504 then r.outcome == Failed(NoData) && r.calls == MAX_ATTEMPTS
      else r.outcome == Failed(RequestFailed(code))
    case Returned(None) => r.outcome == Failed(NoData)
    case Returned(Some(resp)) =>
      if resp.iteminfo.None? then r.outcome == Failed(InvalidData)
      else
        && r.data == Some(Project(resp.iteminfo.value, resp, now))
        && (r.outcome == Inspected || r.outcome == Failed(InvalidWear))
  }

  /** `_Inspect(options)`. */
  function Inspect(i: Inputs): (r: InspectRun)
    ensures r.calls <= MAX_ATTEMPTS
    ensures !ShouldInspect(i.assetType, i.link) || !i.hasId ==> r.outcome == NotInspected && r.calls == 0
    ensures r.calls > 0 ==> i.held.None? && (i.cached.None? || Expired(i.ageHours, i.maxAgeHours)) && !i.cacheOnly
    ensures r.outcome == CacheMiss <==>
      ShouldInspect(i.assetType, i.link) && i.hasId && i.cacheOnly
      && i.held.None? && (i.cached.None? || Expired(i.ageHours, i.maxAgeHours))
    ensures r.outcome.Failed? && r.outcome.error.RequestFailed? ==> r.outcome.error.code != 504
    ensures r.outcome == Inspected ==> r.data.Some? && (r.data.value.wear.Some? ==> r.wear.Some?)
    ensures ShouldInspect(i.assetType, i.link) && i.hasId && i.cached.Some? && !Expired(i.ageHours, i.maxAgeHours)
      ==> r.data == i.cached && r.calls == 0
    ensures ShouldInspect(i.assetType, i.link) && i.hasId && i.held.Some?
      && (i.cached.None? || Expired(i.ageHours, i.maxAgeHours))
      ==> r.data == i.held && r.calls == 0
    ensures Requests(i) ==> 1 <= r.calls && forall j :: 0 <= j < r.calls - 1 ==> i.env(j) == Threw(504)
    ensures Requests(i) && 1 <= r.calls ==> LastCallDecides(i.env(r.calls - 1), r, i.now)
  {
    if !ShouldInspect(i.assetType, i.link) || !i.hasId then InspectRun(NotInspected, None, None, 0)
    else
      var current := if i.cached.Some? && !Expired(i.ageHours, i.maxAgeHours) then i.cached else i.held;
      if current.Some? then CheckWear(current.value, 0)
      else if i.cacheOnly then InspectRun(CacheMiss, None, None, 0)
      else
        var f := Fetch(i.env, 0);
        FetchPolicy(i.env, 0);
        match f.result
        case Raised(code) => InspectRun(Failed(RequestFailed(code)), None, None, f.calls)
        case TimedOut => InspectRun(Failed(NoData), None, None, f.calls)
        case Got(None) => InspectRun(Failed(NoData), None, None, f.calls)
        case Got(Some(resp)) =>
          if resp.iteminfo.None? then InspectRun(Failed(InvalidData), None, None, f.calls)
          else CheckWear(Project(resp.iteminfo.value, resp, i.now), f.calls)
  }
}

=== FILE: constants.dfy ===
/** The constant tables of cs2/constants.js that the modelled code uses. */
module Constants {
  import opened Wrappers

  const INVENTORY_ITEM_LIMIT: int := 1000
  const STORAGE_UNIT_ITEM_LIMIT: int := 1000
  const MAX_PURCHASE_QUANTITY: int := 20
  const STICKER_MAX_COUNT: nat := 5
  const KEYCHAIN_MAX_COUNT: nat := 1

  datatype Range = Range(min: real, max: real)

  const SEED_RANGE := Range(0.0, 100000.0)
  const FLOAT_RANGE := Range(0.0, 1.0)

  /** A wear band: the float interval and its short and long names. */
  datatype Wear = Wear(min: real, max: real, name: string, nameLong: string)

  const WEARS: seq<Wear> := [
    Wear(0.00, 0.07, "FN", "Factory New"),
    Wear(0.07, 0.15, "MW", "Minimum Wear"),
    Wear(0.15, 0.38, "FT", "Field-Tested"),
    Wear(0.38, 0.45, "WW", "Well-Worn"),
    Wear(0.45, 1.00, "BS", "Battle-Scarred")
  ]

  /** The wear bands tile the float range: each band ends where the next
      begins, the first starts at the float minimum and the last ends at
      the float maximum. */
  lemma WearsTileFloatRange()
    ensures |WEARS| == 5
    ensures forall i :: 0 <= i < |WEARS| - 1 ==> WEARS[i].max == WEARS[i + 1].min
    ensures forall i :: 0 <= i < |WEARS| ==> WEARS[i].min < WEARS[i].max
    ensures WEARS[0].min == FLOAT_RANGE.min && WEARS[|WEARS| - 1].max == FLOAT_RANGE.max
  {
  }

  /** A name-to-number table, as an association list in source order. */
  function Lookup(table: seq<(string, int)>, name: string): (r: Option<int>)
    ensures r.Some? ==> exists i :: 0 <= i < |table| && table[i] == (name, r.value)
    ensures r.None? ==> forall i :: 0 <= i < |table| ==> table[i].0 != name
  {
    if |table| == 0 then None
    else if table[0].0 == name then Some(table[0].1)
    else
      var r := Lookup(table[1..], name);
      assert r.Some? ==> exists i :: 0 <= i < |table| && table[i] == (name, r.value) by {
        if r.Some? {
          var i :| 0 <= i < |table| - 1 && table[1..][i] == (name, r.value);
          assert table[i + 1] == (name, r.value);
        }
      }
      r
  }

  /** The first entry with the name decides the lookup. */
  lemma {:induction false} LookupAt(table: seq<(string, int)>, name: string, i: nat)
    requires i < |table| && table[i].0 == name
    requires forall j :: 0 <= j < i ==> table[j].0 != name
    ensures Lookup(table, name) == Some(table[i].1)
    decreases i
  {
    if i > 0 {
      LookupAt(table[1..], name, i - 1);
    }
  }

  const QUALITIES: seq<(string, int)> := [
    ("normal", 0), ("genuine", 1), ("vintage", 2), ("unusual", 3),
    ("unique", 4), ("community", 5), ("developer", 6), ("selfmade", 7),
    ("customized", 8), ("strange", 9), ("completed", 10), ("haunted", 11),
    ("tournament", 12), ("highlight", 13), ("volatile", 14)
  ]

  /** The quality numbers are distinct and cover 0 through 14: the i-th
      listed quality has number i. */
  lemma QualitiesNumbered()
    ensures |QUALITIES| == 15
    ensures forall i :: 0 <= i < |QUALITIES| ==> QUALITIES[i].1 == i
  {
  }

  /** The base rarity names, in order of their numbers 0 through 7. */
  const BASE_RARITIES: seq<string> := [
    "Rarity_Default", "Rarity_Common", "Rarity_Uncommon", "Rarity_Rare",
    "Rarity_Mythical", "Rarity_Legendary", "Rarity_Ancient", "Rarity_Contraband"
  ]

  const RARITIES: seq<(string, int)> := [
    ("Rarity_Default", 0), ("Rarity_Default_Weapon", 0), ("Rarity_Default_Character", 0),
    ("Rarity_Common", 1), ("Rarity_Common_Weapon", 1), ("Rarity_Common_Character", 1),
    ("Rarity_Uncommon", 2), ("Rarity_Uncommon_Weapon", 2), ("Rarity_Uncommon_Character", 2),
    ("Rarity_Rare", 3), ("Rarity_Rare_Weapon", 3), ("Rarity_Rare_Character", 3),
    ("Rarity_Mythical", 4), ("Rarity_Mythical_Weapon", 4), ("Rarity_Mythical_Character", 4),
    ("Rarity_Legendary", 5), ("Rarity_Legendary_Weapon", 5), ("Rarity_Legendary_Character", 5),
    ("Rarity_Ancient", 6), ("Rarity_Ancient_Weapon", 6), ("Rarity_Ancient_Character", 6),
    ("Rarity_Contraband", 7), ("Rarity_Contraband_Weapon", 7), ("Rarity_Contraband_Character", 7),
    ("Unusual", 99), ("Rarity_Unusual", 99)
  ]

  /** The rarity table lists each base rarity, with its number, followed
      by its two variants. */
  lemma RarityBases(i: nat)
    requires i < |BASE_RARITIES|
    ensures RARITIES[3 * i] == (BASE_RARITIES[i], i)
    ensures RARITIES[3 * i + 1].1 == RARITIES[3 * i + 2].1 == i
  {
  }

  /** The `_Weapon` variant of each base rarity has the base's number. */
  lemma RarityWeaponVariants(i: nat)
    requires i < |BASE_RARITIES|
    ensures RARITIES[3 * i + 1] == (BASE_RARITIES[i] + "_Weapon", i)
  {
    if i < 4 {
      WeaponVariantsLow(i);
    } else {
      WeaponVariantsHigh(i);
    }
  }

  lemma WeaponVariantsLow(i: nat)
    requires i < 4
    ensures RARITIES[3 * i + 1] == (BASE_RARITIES[i] + "_Weapon", i)
  {
    if i == 0 {
      assert BASE_RARITIES[0] + "_Weapon" == "Rarity_Default_Weapon";
    } else if i == 1 {
      assert BASE_RARITIES[1] + "_Weapon" == "Rarity_Common_Weapon";
    } else if i == 2 {
      assert BASE_RARITIES[2] + "_Weapon" == "Rarity_Uncommon_Weapon";
    } else {
      assert BASE_RARITIES[3] + "_Weapon" == "Rarity_Rare_Weapon";
    }
  }

  lemma WeaponVariantsHigh(i: nat)
    requires 4 <= i < 8
    ensures RARITIES[3 * i + 1] == (BASE_RARITIES[i] + "_Weapon", i)
  {
    if i == 4 {
      assert BASE_RARITIES[4] + "_Weapon" == "Rarity_Mythical_Weapon";
    } else if i == 5 {
      assert BASE_RARITIES[5] + "_Weapon" == "Rarity_Legendary_Weapon";
    } else if i == 6 {
      assert BASE_RARITIES[6] + "_Weapon" == "Rarity_Ancient_Weapon";
    } else {
      assert BASE_RARITIES[7] + "_Weapon" == "Rarity_Contraband_Weapon";
    }
  }

  /** The `_Character` variant of each base rarity has the base's number. */
  lemma RarityCharacterVariants(i: nat)
    requires i < |BASE_RARITIES|
    ensures RARITIES[3 * i + 2] == (BASE_RARITIES[i] + "_Character", i)
  {
    if i < 4 {
      CharacterVariantsLow(i);
    } else {
      CharacterVariantsHigh(i);
    }
  }

  lemma CharacterVariantsLow(i: nat)
    requires i < 4
    ensures RARITIES[3 * i + 2] == (BASE_RARITIES[i] + "_Character", i)
  {
    if i == 0 {
      assert BASE_RARITIES[0] + "_Character" == "Rarity_Default_Character";
    } else if i == 1 {
      assert BASE_RARITIES[1] + "_Character" == "Rarity_Common_Character";
    } else if i == 2 {
      assert BASE_RARITIES[2] + "_Character" == "Rarity_Uncommon_Character";
    } else {
      assert BASE_RARITIES[3] + "_Character" == "Rarity_Rare_Character";
    }
  }

  lemma CharacterVariantsHigh(i: nat)
    requires 4 <= i < 8
    ensures RARITIES[3 * i + 2] == (BASE_RARITIES[i] + "_Character", i)
  {
    if i == 4 {
      assert BASE_RARITIES[4] + "_Character" == "Rarity_Mythical_Character";
    } else if i == 5 {
      assert BASE_RARITIES[5] + "_Character" == "Rarity_Legendary_Character";
    } else if i == 6 {
      assert BASE_RARITIES[6] + "_Character" == "Rarity_Ancient_Character";
    } else {
      assert BASE_RARITIES[7] + "_Character" == "Rarity_Contraband_Character";
    }
  }

  /** No rarity name is listed twice, so every listed name looks up the
      number it is listed with. */
  lemma RarityNamesDistinct()
    ensures forall j, k :: 0 <= j < k < |RARITIES| ==> RARITIES[j].0 != RARITIES[k].0
  {
  }

  /** Looking up a rarity's `_Weapon` or `_Character` variant gives the same
      number as looking up the base rarity, and that number is its rank. */
  lemma RarityVariantLookup(i: nat)
    requires i < |BASE_RARITIES|
    ensures Lookup(RARITIES, BASE_RARITIES[i]) == Some(i)
    ensures Lookup(RARITIES, BASE_RARITIES[i] + "_Weapon") == Some(i)
    ensures Lookup(RARITIES, BASE_RARITIES[i] + "_Character") == Some(i)
  {
    RarityNamesDistinct();
    RarityBases(i);
    RarityWeaponVariants(i);
    RarityCharacterVariants(i);
    LookupAt(RARITIES, BASE_RARITIES[i], 3 * i);
    LookupAt(RARITIES, BASE_RARITIES[i] + "_Weapon", 3 * i + 1);
    LookupAt(RARITIES, BASE_RARITIES[i] + "_Character", 3 * i + 2);
  }

  lemma RarityVariantsLookUpLikeBase()
    ensures forall i :: 0 <= i < |BASE_RARITIES| ==>
      Lookup(RARITIES, BASE_RARITIES[i] + "_Weapon") == Lookup(RARITIES, BASE_RARITIES[i])
    ensures forall i :: 0 <= i < |BASE_RARITIES| ==>
      Lookup(RARITIES, BASE_RARITIES[i] + "_Character") == Lookup(RARITIES, BASE_RARITIES[i])
  {
    forall i | 0 <= i < |BASE_RARITIES|
      ensures Lookup(RARITIES, BASE_RARITIES[i] + "_Weapon") == Lookup(RARITIES, BASE_RARITIES[i])
      ensures Lookup(RARITIES, BASE_RARITIES[i] + "_Character") == Lookup(RARITIES, BASE_RARITIES[i])
    {
      RarityVariantLookup(i);
    }
  }

  const TOURNAMENT_MAPS: map<int, string> := map[
    2 := "Dust II", 3 := "Train", 5 := "Inferno", 6 := "Nuke", 7 := "Vertigo",
    23 := "Mirage", 32 := "Overpass", 91 := "Anubis", 101 := "Ancient"
  ]
}

=== FILE: helpers.dfy ===
/** The pure helpers of utils/helpers.js: version comparison and the
    memoising wrapper of an asynchronous function. */
module Helpers {
  import opened Wrappers
  import Strings

  // ---- CompareVersions ----

  /** `Number(part) || 0` for a component of a dotted version: a string of
      decimal digits is its value; the empty string and anything that does
      not parse count as zero. */
  function Component(part: string): nat {
    if |part| > 0 && Strings.AllDigits(part) then Strings.DigitsValue(part) else 0
  }

  function Components(parts: seq<string>): (r: seq<nat>)
    ensures |r| == |parts|
    ensures forall k :: 0 <= k < |r| ==> r[k] == Component(parts[k])
  {
    if |parts| == 0 then [] else [Component(parts[0])] + Components(parts[1..])
  }

  function Parts(v: string): seq<nat> {
    Components(Strings.Split(v, '.'))
  }

  /** `parts[i] || 0`: a missing component counts as zero. */
  function PartAt(p: seq<nat>, i: nat): nat {
    if i < |p| then p[i] else 0
  }

  function MaxLen(p: seq<nat>, q: seq<nat>): nat {
    if |p| < |q| then |q| else |p|
  }

  /** The reference order: compare the zero-padded components from `i` on;
      the first that differs decides. */
  function CompareFrom(p: seq<nat>, q: seq<nat>, i: nat): (r: int)
    ensures -1 <= r <= 1
    decreases MaxLen(p, q) - i
  {
    if i >= MaxLen(p, q) then 0
    else if PartAt(p, i) > PartAt(q, i) then 1
    else if PartAt(p, i) < PartAt(q, i) then -1
    else CompareFrom(p, q, i + 1)
  }

  function CompareParts(p: seq<nat>, q: seq<nat>): int {
    CompareFrom(p, q, 0)
  }

  /** `CompareVersions(v1, v2)`: the loop over the longer component list. */
  method CompareVersions(v1: string, v2: string) returns (r: int)
    ensures r == CompareParts(Parts(v1), Parts(v2))
    ensures r in {-1, 0, 1}
  {
    var parts1 := Parts(v1);
    var parts2 := Parts(v2);
    var length := MaxLen(parts1, parts2);
    var i := 0;
    while i < length
      invariant 0 <= i <= length
      invariant CompareFrom(parts1, parts2, 0) == CompareFrom(parts1, parts2, i)
    {
      var num1 := PartAt(parts1, i);
      var num2 := PartAt(parts2, i);
      if num1 > num2 {
        return 1;
      }
      if num1 < num2 {
        return -1;
      }
      i := i + 1;
    }
    return 0;
  }

  /** Every version equals itself. */
  lemma {:induction false} CompareFromReflexive(p: seq<nat>, i: nat)
    ensures CompareFrom(p, p, i) == 0
    decreases MaxLen(p, p) - i
  {
    if i < MaxLen(p, p) {
      CompareFromReflexive(p, i + 1);
    }
  }

  lemma CompareReflexive(v: string)
    ensures CompareParts(Parts(v), Parts(v)) == 0
  {
    CompareFromReflexive(Parts(v), 0);
  }

  /** Swapping the versions negates the result. */
  lemma {:induction false} CompareFromAntisymmetric(p: seq<nat>, q: seq<nat>, i: nat)
    ensures CompareFrom(p, q, i) == -CompareFrom(q, p, i)
    decreases MaxLen(p, q) - i
  {
    assert MaxLen(p, q) == MaxLen(q, p);
    if i < MaxLen(p, q) && PartAt(p, i) == PartAt(q, i) {
      CompareFromAntisymmetric(p, q, i + 1);
    }
  }

  lemma CompareAntisymmetric(v1: string, v2: string)
    ensures CompareParts(Parts(v1), Parts(v2)) == -CompareParts(Parts(v2), Parts(v1))
  {
    CompareFromAntisymmetric(Parts(v1), Parts(v2), 0);
  }

  /** The comparison is lexicographic on the zero-padded components: when
      the components agree before `i` and differ at `i`, component `i`
      decides; when they agree everywhere the versions are equal. */
  lemma {:induction false} FirstDifferenceDecides(p: seq<nat>, q: seq<nat>, i: nat, from: nat)
    requires from <= i < MaxLen(p, q)
    requires forall j :: from <= j < i ==> PartAt(p, j) == PartAt(q, j)
    requires PartAt(p, i) != PartAt(q, i)
    ensures CompareFrom(p, q, from) == if PartAt(p, i) > PartAt(q, i) then 1 else -1
    decreases i - from
  {
    if from < i {
      assert PartAt(p, from) == PartAt(q, from);
      FirstDifferenceDecides(p, q, i, from + 1);
    }
  }

  lemma {:induction false} AgreeingPartsAreEqual(p: seq<nat>, q: seq<nat>, from: nat)
    requires forall j :: from <= j < MaxLen(p, q) ==> PartAt(p, j) == PartAt(q, j)
    ensures CompareFrom(p, q, from) == 0
    decreases MaxLen(p, q) - from
  {
    if from < MaxLen(p, q) {
      AgreeingPartsAreEqual(p, q, from + 1);
    }
  }

  function Zeros(k: nat): (r: seq<nat>)
    ensures |r| == k && forall j :: 0 <= j < k ==> r[j] == 0
  {
    seq(k, j => 0)
  }

  /** Trailing zero components do not matter: "1.2" equals "1.2.0.0". */
  lemma TrailingZerosIgnored(p: seq<nat>, k: nat)
    ensures CompareParts(p, p + Zeros(k)) == 0
  {
    var q := p + Zeros(k);
    forall j | 0 <= j < MaxLen(p, q) ensures PartAt(p, j) == PartAt(q, j) {
      if j >= |p| {
        assert q[j] == Zeros(k)[j - |p|];
      }
    }
    AgreeingPartsAreEqual(p, q, 0);
  }

  // ---- CreateCachedAsyncFunction ----

  /** The wrapper's closure: the cached result (`null` is no result), whether
      an invocation was started, and how many times the wrapped function
      was invoked. A rejected invocation leaves the cache empty and the
      rejected promise in place. */
  datatype Cached<R> = Cached(cache: Option<R>, inProgress: bool, invocations: nat)

  datatype CallOutcome = FromCache | Joined | Started

  function Initial<R>(): Cached<R> { Cached(None, false, 0) }

  /** A call of the wrapper: the cached result when there is one, else the
      pending invocation when there is one, else a new invocation. */
  function Call<R>(c: Cached<R>): (r: (Cached<R>, CallOutcome))
    ensures r.1 == Started <==> c.cache.None? && !c.inProgress
    ensures r.1 == Started ==> r.0 == c.(inProgress := true, invocations := c.invocations + 1)
    ensures r.1 != Started ==> r.0 == c
  {
    if c.cache.Some? then (c, FromCache)
    else if c.inProgress then (c, Joined)
    else (c.(inProgress := true, invocations := c.invocations + 1), Started)
  }

  /** The invocation settles: a non-null result is cached; `None` stands
      for a null result or a rejection. */
  function Settle<R>(c: Cached<R>, result: Option<R>): (r: Cached<R>)
    ensures r.cache == result && r.inProgress == c.inProgress && r.invocations == c.invocations
  {
    c.(cache := result)
  }

  /** `wrapped.willReturnImmediately()`. */
  predicate WillReturnImmediately<R>(c: Cached<R>) {
    c.cache != None
  }

  /** The wrapper answers immediately exactly when a call would be served
      from the cache. */
  lemma ImmediateIffFromCache<R>(c: Cached<R>)
    ensures WillReturnImmediately(c) <==> Call(c).1 == FromCache
  {
  }

  datatype CacheEvent<R> = CallEvent | SettleEvent(result: Option<R>)

  /** A run of calls and settlements; settling before any invocation was
      started is not an event of a real run and yields `None`. */
  function Run<R>(c: Cached<R>, events: seq<CacheEvent<R>>): Option<Cached<R>>
    decreases |events|
  {
    if |events| == 0 then Some(c)
    else match events[0]
      case CallEvent => Run(Call(c).0, events[1..])
      case SettleEvent(result) => if c.inProgress then Run(Settle(c, result), events[1..]) else None
  }

  /** Whatever the calls and settlements, the wrapped function runs at
      most once, and has run exactly when an invocation is recorded. */
  lemma {:induction false} AtMostOneInvocation<R>(c: Cached<R>, events: seq<CacheEvent<R>>)
    requires c.invocations <= 1 && (c.invocations == 1 <==> c.inProgress)
    requires c.cache.Some? ==> c.inProgress
    ensures Run(c, events).Some? ==>
      && Run(c, events).value.invocations <= 1
      && (Run(c, events).value.invocations == 1 <==> Run(c, events).value.inProgress)
    decreases |events|
  {
    if |events| > 0 {
      match events[0]
      case CallEvent => AtMostOneInvocation(Call(c).0, events[1..]);
      case SettleEvent(result) =>
        if c.inProgress {
          AtMostOneInvocation(Settle(c, result), events[1..]);
        }
    }
  }

  lemma FromInitialAtMostOnce<R>(events: seq<CacheEvent<R>>)
    ensures Run(Initial<R>(), events).Some? ==> Run(Initial<R>(), events).value.invocations <= 1
  {
    AtMostOneInvocation(Initial<R>(), events);
  }
}

=== FILE: icons.dfy ===
/** The icon registry of cs2/items/icons.js: the map from market hash name
    to icon id (`null` marks an item known to have none), URL building, the
    batching of icon requests and the bookkeeping of the store-icon lookup
    that goes from definition index to class id to icon. */
module Icons {
  import opened Wrappers
  import Sequences
  import Strings

  /** `Icons.URLs`: hash name to icon id, `None` for a stored `null`. */
  type Urls = map<string, Option<string>>

  const CDN := "https://community.fastly.steamstatic.com/economy/image/"

  /** The store's placeholder icon, never recorded. */
  const BLANK_STORE_ICON := "i0CoZ81Ui0m-9KwlBY1L_18myuGuq1wfhWSaZgMttyVfPaERSR0Wqmu7LAocGIa5zlu_XrnbxcykJzXFvQUm9dGsu1yxRxj1zMC2qHQIv6CqbPFrJfXDXzSWwu936LRtGHvh2w0ptHt7bgdE"

  /** `LoadCachedIcons`: the cached map replaces the registry only while
      the registry is empty. */
  function LoadCachedIcons(urls: Urls, cached: Urls): (r: Urls)
    ensures |urls| != 0 ==> r == urls
    ensures |urls| == 0 ==> r == cached
  {
    if |urls| != 0 then urls else cached
  }

  /** Loading twice loads once. */
  lemma LoadCachedIconsIdempotent(urls: Urls, cached: Urls)
    ensures LoadCachedIcons(LoadCachedIcons(urls, cached), cached) == LoadCachedIcons(urls, cached)
  {
  }

  /** `SetIcon(hash, icon_url)`: only the given hash changes. */
  function SetIcon(urls: Urls, hash: string, icon: Option<string>): (r: Urls)
    ensures hash in r && r[hash] == icon
    ensures forall k :: k != hash ==> (k in r <==> k in urls)
    ensures forall k :: k in urls && k != hash ==> r[k] == urls[k]
  {
    urls[hash := icon]
  }

  /** `GetIconURL(hash, size)`: none without a non-empty icon id, else the
      CDN address of the icon at that size. */
  function GetIconURL(urls: Urls, hash: string, size: string): (r: Option<string>)
    ensures r.None? <==> hash !in urls || urls[hash].None? || urls[hash].value == ""
    ensures r.Some? ==> CDN <= r.value && Strings.EndsWith(r.value, "/" + size)
  {
    if hash !in urls || urls[hash].None? || urls[hash].value == "" then None
    else
      var url := CDN + urls[hash].value + "/" + size;
      assert url[..|CDN|] == CDN;
      assert url[|url| - |"/" + size|..] == "/" + size;
      Some(url)
  }

  /** The icon id read back from an icon address of a known size. */
  function IconOf(url: string, size: string): Option<string> {
    if CDN <= url && |CDN| + 1 + |size| <= |url| && Strings.EndsWith(url, "/" + size)
    then Some(url[|CDN|..|url| - |size| - 1])
    else None
  }

  /** A recorded icon is served, and its address gives the icon back; no
      other hash's address changes. */
  lemma SetThenGet(urls: Urls, hash: string, icon: string, size: string, other: string)
    requires icon != "" && other != hash
    ensures GetIconURL(SetIcon(urls, hash, Some(icon)), hash, size).Some?
    ensures IconOf(GetIconURL(SetIcon(urls, hash, Some(icon)), hash, size).value, size) == Some(icon)
    ensures GetIconURL(SetIcon(urls, hash, Some(icon)), other, size) == GetIconURL(urls, other, size)
  {
    var url := CDN + icon + "/" + size;
    assert url[|CDN|..|url| - |size| - 1] == icon;
  }

  /** Recording `null` hides the icon. */
  lemma SetNullHides(urls: Urls, hash: string, size: string)
    ensures GetIconURL(SetIcon(urls, hash, None), hash, size).None?
  {
  }

  // ---- batching ----

  const COMMODITY_BATCH: nat := 25
  const CLASS_ID_BATCH: nat := 100

  /** The commodity names in batches of at most 25 that concatenate back to
      the names in order. */
  function CommodityBatches(hashes: seq<string>): (r: seq<seq<string>>)
    ensures |r| == Sequences.CeilDiv(|hashes|, COMMODITY_BATCH)
    ensures Sequences.Flatten(r) == hashes
    ensures forall i :: 0 <= i < |r| ==> 0 < |r[i]| <= COMMODITY_BATCH
  {
    Sequences.ChunkProperties(hashes, COMMODITY_BATCH);
    Sequences.Chunk(hashes, COMMODITY_BATCH)
  }

  /** The class ids in batches of at most 100 that concatenate back to the
      ids in order. */
  function ClassIdBatches(ids: seq<string>): (r: seq<seq<string>>)
    ensures |r| == Sequences.CeilDiv(|ids|, CLASS_ID_BATCH)
    ensures Sequences.Flatten(r) == ids
    ensures forall i :: 0 <= i < |r| ==> 0 < |r[i]| <= CLASS_ID_BATCH
  {
    Sequences.ChunkProperties(ids, CLASS_ID_BATCH);
    Sequences.Chunk(ids, CLASS_ID_BATCH)
  }

  // ---- FetchStoreIcons bookkeeping ----

  /** The `def_index` entry of an asset's class description. */
  datatype DefIndexField = NoDefIndex | NotANumber | DefIndex(n: int)

  datatype PricedAsset = PricedAsset(classid: string, defIndex: DefIndexField)

  /** What a class id is looked up for. */
  datatype Target = Target(defIndex: int, hash: string)

  /** The lookup's state: the registry and the definition indexes still
      waiting for an icon (`hashes`, definition index to hash name). */
  datatype Lookup = Lookup(urls: Urls, pending: map<int, string>)

  /** A definition index that asks for an icon. */
  predicate Requested(pending: map<int, string>, d: int) {
    d != 0 && d in pending && pending[d] != ""
  }

  /** The asset at `k` belongs to class `c` and asks for an icon. */
  predicate Asks(pending: map<int, string>, assets: seq<PricedAsset>, k: int, c: string)
    requires 0 <= k < |assets|
  {
    assets[k].classid == c && assets[k].defIndex.DefIndex? && Requested(pending, assets[k].defIndex.n)
  }

  /** The class ids to ask for: every priced asset whose definition index
      is requested, a later asset of the same class replacing an earlier
      one. An asset without a `def_index` entry makes the lookup throw. */
  function Targets(pending: map<int, string>, assets: seq<PricedAsset>): (r: Result<map<string, Target>, string>)
    ensures r.Failure? <==> exists k :: 0 <= k < |assets| && assets[k].defIndex == NoDefIndex
    ensures r.Success? ==> forall c :: c in r.value ==>
      Requested(pending, r.value[c].defIndex) && r.value[c].hash == pending[r.value[c].defIndex]
    ensures r.Success? ==> forall c :: c in r.value ==> exists k :: 0 <= k < |assets| && assets[k].classid == c
    ensures r.Success? ==> forall k :: 0 <= k < |assets| && Asks(pending, assets, k, assets[k].classid) ==>
      assets[k].classid in r.value
    decreases |assets|
  {
    if |assets| == 0 then Success(map[])
    else
      var last := assets[|assets| - 1];
      match Targets(pending, assets[..|assets| - 1])
      case Failure(e) => Failure(e)
      case Success(earlier) =>
        if last.defIndex == NoDefIndex then Failure("def_index missing")
        else if last.defIndex.NotANumber? || !Requested(pending, last.defIndex.n) then Success(earlier)
        else Success(earlier[last.classid := Target(last.defIndex.n, pending[last.defIndex.n])])
  }

  /** The target of a class id is that of the last asset of the class
      that asks for an icon. */
  lemma {:induction false} TargetsLastWins(pending: map<int, string>, assets: seq<PricedAsset>, c: string)
    requires Targets(pending, assets).Success? && c in Targets(pending, assets).value
    ensures exists k :: (0 <= k < |assets| && Asks(pending, assets, k, c)
      && assets[k].defIndex.n == Targets(pending, assets).value[c].defIndex
      && forall j :: k < j < |assets| ==> !Asks(pending, assets, j, c))
    decreases |assets|
  {
    var n := |assets| - 1;
    var init := assets[..n];
    var r := Targets(pending, assets).value;
    var earlier := Targets(pending, init);
    if Asks(pending, assets, n, c) {
      assert assets[n].defIndex.n == r[c].defIndex;
    } else {
      assert earlier.Success? && c in earlier.value && r[c] == earlier.value[c];
      TargetsLastWins(pending, init, c);
      var k :| 0 <= k < |init| && Asks(pending, init, k, c)
        && init[k].defIndex.n == earlier.value[c].defIndex
        && forall j :: k < j < |init| ==> !Asks(pending, init, j, c);
      assert forall j :: k < j < |assets| ==> !Asks(pending, assets, j, c) by {
        forall j | k < j < |assets| ensures !Asks(pending, assets, j, c) {
          if j < n {
            assert !Asks(pending, init, j, c);
          }
        }
      }
      assert Asks(pending, assets, k, c);
    }
  }

  /** The class-info reply for one batch: whether it reported full success
      and the icon id of each class it knows. */
  datatype ClassInfo = ClassInfo(success: bool, icons: map<string, string>)

  /** An icon the lookup records. */
  predicate Usable(icon: string) {
    icon != "" && icon != BLANK_STORE_ICON
  }

  /** The per-class step: a usable icon is recorded under the class's hash
      name and its definition index stops waiting. */
  function Record(l: Lookup, targets: map<string, Target>, icons: map<string, string>, classId: string): (r: Lookup)
    requires classId in targets
    ensures classId in icons && Usable(icons[classId]) ==>
      r.urls == SetIcon(l.urls, targets[classId].hash, Some(icons[classId]))
      && r.pending == l.pending - {targets[classId].defIndex}
    ensures !(classId in icons && Usable(icons[classId])) ==> r == l
  {
    if classId in icons && Usable(icons[classId]) then
      var t := targets[classId];
      Lookup(SetIcon(l.urls, t.hash, Some(icons[classId])), l.pending - {t.defIndex})
    else l
  }

  /** The hash name has a usable icon recorded. */
  predicate Stored(urls: Urls, h: string) {
    h in urls && urls[h].Some? && Usable(urls[h].value)
  }

  /** The loop over one batch's class ids. */
  function RecordAll(l: Lookup, targets: map<string, Target>, icons: map<string, string>, chunk: seq<string>): (r: Lookup)
    requires forall k :: 0 <= k < |chunk| ==> chunk[k] in targets
    ensures r.pending.Keys <= l.pending.Keys
    ensures forall h :: h in l.urls && Stored(l.urls, h) ==> h in r.urls && Stored(r.urls, h)
    ensures forall k :: 0 <= k < |chunk| && chunk[k] in icons && Usable(icons[chunk[k]]) ==>
      targets[chunk[k]].defIndex !in r.pending && Stored(r.urls, targets[chunk[k]].hash)
    decreases |chunk|
  {
    if |chunk| == 0 then l
    else RecordAll(Record(l, targets, icons, chunk[0]), targets, icons, chunk[1..])
  }

  /** One batch as written: a reply reporting partial success reads a
      property of a variable that is still undefined, the throw is caught,
      and the batch is skipped. A failed request (`None`) skips it too. */
  function BatchAsWritten(l: Lookup, targets: map<string, Target>, chunk: seq<string>, reply: Option<ClassInfo>): (r: Lookup)
    requires forall k :: 0 <= k < |chunk| ==> chunk[k] in targets
    ensures reply.None? || !reply.value.success ==> r == l
    ensures r.pending.Keys <= l.pending.Keys
  {
    if reply.None? || !reply.value.success then l
    else RecordAll(l, targets, reply.value.icons, chunk)
  }

  /** One batch as the comment above the check intends: a partial reply is
      still processed. */
  function Batch(l: Lookup, targets: map<string, Target>, chunk: seq<string>, reply: Option<ClassInfo>): (r: Lookup)
    requires forall k :: 0 <= k < |chunk| ==> chunk[k] in targets
    ensures reply.None? ==> r == l
    ensures reply.Some? ==> r == RecordAll(l, targets, reply.value.icons, chunk)
    ensures r.pending.Keys <= l.pending.Keys
  {
    if reply.None? then l else RecordAll(l, targets, reply.value.icons, chunk)
  }

  /** The two agree whenever the reply reports full success. */
  lemma BatchAgreesOnSuccess(l: Lookup, targets: map<string, Target>, chunk: seq<string>, reply: Option<ClassInfo>)
    requires forall k :: 0 <= k < |chunk| ==> chunk[k] in targets
    requires reply.None? || reply.value.success
    ensures BatchAsWritten(l, targets, chunk, reply) == Batch(l, targets, chunk, reply)
  {
  }

  /** A partial reply that carries a usable icon is lost as written and
      recorded by the corrected batch. */
  lemma PartialReplyLost(hash: string, icon: string)
    requires Usable(icon)
    ensures var l := Lookup(map[], map[7 := hash]);
      var targets := map["42" := Target(7, hash)];
      var reply := Some(ClassInfo(false, map["42" := icon]));
      && BatchAsWritten(l, targets, ["42"], reply) == l
      && Batch(l, targets, ["42"], reply).urls == map[hash := Some(icon)]
      && Batch(l, targets, ["42"], reply).pending == map[]
  {
    var l := Lookup(map[], map[7 := hash]);
    var targets := map["42" := Target(7, hash)];
    assert RecordAll(Record(l, targets, map["42" := icon], "42"), targets, map["42" := icon], []) ==
      Record(l, targets, map["42" := icon], "42");
    assert map[7 := hash] - {7} == map[];
  }

  /** What the lookup keeps true: every icon it has recorded is usable and
      belongs to a target's hash name, and every definition index that
      stopped waiting has its icon recorded. */
  predicate Faithful(before: Lookup, after: Lookup, targets: map<string, Target>) {
    && (forall h :: h in after.urls && (h !in before.urls || after.urls[h] != before.urls[h]) ==>
          after.urls[h].Some? && Usable(after.urls[h].value)
          && exists c :: c in targets && targets[c].hash == h)
    && (forall d :: d in before.pending && d !in after.pending ==>
          exists c :: c in targets && targets[c].defIndex == d && targets[c].hash in after.urls
            && after.urls[targets[c].hash].Some? && Usable(after.urls[targets[c].hash].value))
    && after.pending.Keys <= before.pending.Keys
    && (forall d :: d in after.pending ==> after.pending[d] == before.pending[d])
    && before.urls.Keys <= after.urls.Keys
  }

  /** Each target's hash name has a single definition index, so a hash
      name recorded for one index is recorded for the others too. */
  predicate OneIndexPerHash(targets: map<string, Target>) {
    forall c1, c2 :: c1 in targets && c2 in targets && targets[c1].hash == targets[c2].hash ==>
      targets[c1].defIndex == targets[c2].defIndex
  }

  lemma {:induction false} RecordAllFaithful(l: Lookup, targets: map<string, Target>, icons: map<string, string>, chunk: seq<string>)
    requires forall k :: 0 <= k < |chunk| ==> chunk[k] in targets
    requires OneIndexPerHash(targets)
    ensures Faithful(l, RecordAll(l, targets, icons, chunk), targets)
    decreases |chunk|
  {
    if |chunk| > 0 {
      var mid := Record(l, targets, icons, chunk[0]);
      RecordAllFaithful(mid, targets, icons, chunk[1..]);
      FaithfulStep(l, mid, RecordAll(mid, targets, icons, chunk[1..]), targets, icons, chunk[0]);
    } else {
      assert RecordAll(l, targets, icons, chunk) == l;
    }
  }

  /** `Faithful` composes with one more recorded class. */
  lemma FaithfulStep(l: Lookup, mid: Lookup, last: Lookup, targets: map<string, Target>, icons: map<string, string>, c: string)
    requires c in targets && OneIndexPerHash(targets)
    requires mid == Record(l, targets, icons, c)
    requires Faithful(mid, last, targets)
    ensures Faithful(l, last, targets)
  {
    var t := targets[c];
    if c in icons && Usable(icons[c]) {
      forall d | d in l.pending && d !in last.pending
        ensures exists c' :: (c' in targets && targets[c'].defIndex == d && targets[c'].hash in last.urls
          && last.urls[targets[c'].hash].Some? && Usable(last.urls[targets[c'].hash].value))
      {
        if d == t.defIndex && d !in mid.pending {
          if t.hash in last.urls && last.urls[t.hash] == mid.urls[t.hash] {
            assert c in targets && targets[c].defIndex == d;
          } else {
            assert t.hash in last.urls && last.urls[t.hash].Some? && Usable(last.urls[t.hash].value);
          }
        }
      }
    }
  }
}

=== FILE: inventory.dfy ===
/** The inventory model of cs2/items/inventory.js: the display fields
    derived for every item and stored item, the freshness rule of the
    storage-unit cache and the cache bookkeeping after moving an item into
    or out of a storage unit. Items are rows keyed by their asset id (`iteminfo.id`). */
module Inventory {
  import opened Wrappers
  import opened Rows
  import Sequences
  import Sorting
  import Strings

  // ---- derived display fields ----

  /** `s.slice(0, -m)` for a positive `m`. */
  function DropLast(s: string, m: nat): (r: string)
    ensures |r| == if |s| >= m then |s| - m else 0
    ensures r <= s
  {
    if |s| >= m then s[..|s| - m] else []
  }

  /** `name`: the full name without its " (wear)" suffix when the item has a
      wear name that occurs in the full name. */
  function DisplayName(fullName: string, wearName: Option<string>): (r: string)
    ensures r <= fullName
    ensures wearName.None? || wearName.value == "" || !Strings.Contains(fullName, wearName.value) ==> r == fullName
  {
    if wearName.Some? && wearName.value != "" && Strings.Contains(fullName, wearName.value)
    then DropLast(fullName, |wearName.value| + 3)
    else fullName
  }

  /** A full name ending in " (wear)" loses exactly that suffix. */
  lemma DisplayNameStripsWear(base: string, wear: string)
    requires wear != ""
    ensures DisplayName(base + " (" + wear + ")", Some(wear)) == base
  {
    var full := base + " (" + wear + ")";
    Strings.ContainsInfix(base + " (", wear, ")");
    assert full == (base + " (") + wear + ")";
    assert full[..|full| - (|wear| + 3)] == base;
  }

  /** `collection_name`: the set name, else the crate name with a final
      " Autograph Capsule" turned into " Autographs" and then a final
      " Capsule" removed. */
  function CollectionName(setName: Option<string>, crateName: Option<string>): (r: Option<string>)
    ensures setName.Some? ==> r == setName
    ensures setName.None? ==> (r.Some? <==> crateName.Some?)
  {
    if setName.Some? then setName
    else if crateName.None? then None
    else
      var c := crateName.value;
      var c1 := if Strings.EndsWith(c, " Autograph Capsule") then Strings.StripSuffix(c, " Autograph Capsule") + " Autographs" else c;
      Some(Strings.StripSuffix(c1, " Capsule"))
  }

  lemma EndsWithAppended(x: string, suffix: string)
    ensures Strings.EndsWith(x + suffix, suffix)
    ensures Strings.StripSuffix(x + suffix, suffix) == x
  {
    assert (x + suffix)[|x + suffix| - |suffix|..] == suffix;
    assert (x + suffix)[..|x + suffix| - |suffix|] == x;
  }

  /** An autograph capsule's collection is its autographs. */
  lemma AutographCapsuleCollection(x: string)
    ensures CollectionName(None, Some(x + " Autograph Capsule")) == Some(x + " Autographs")
  {
    EndsWithAppended(x, " Autograph Capsule");
    var y := x + " Autographs";
    assert !Strings.EndsWith(y, " Capsule") by {
      assert y[|y| - 1] == 's';
    }
  }

  /** Any other capsule's collection is its name without " Capsule". */
  lemma CapsuleCollection(x: string)
    requires !Strings.EndsWith(x, " Autograph")
    ensures CollectionName(None, Some(x + " Capsule")) == Some(x)
  {
    EndsWithAppended(x, " Capsule");
  }

  /** `collection`: the collection name without a leading "The ", a final
      " Collection", a leading "Operation " and a final " Autographs". */
  function Collection(collectionName: Option<string>): (r: Option<string>)
    ensures r.Some? <==> collectionName.Some?
    ensures r.Some? ==> |r.value| <= |collectionName.value|
  {
    match collectionName
    case None => None
    case Some(c) =>
      var c1 := Strings.StripPrefix(c, "The ");
      var c2 := Strings.StripSuffix(c1, " Collection");
      var c3 := Strings.StripPrefix(c2, "Operation ");
      Some(Strings.StripSuffix(c3, " Autographs"))
  }

  /** "The X Collection" is collection X. */
  lemma CollectionOfSet(x: string)
    requires !("Operation " <= x) && !Strings.EndsWith(x, " Autographs")
    ensures Collection(Some("The " + x + " Collection")) == Some(x)
  {
    var c := "The " + x + " Collection";
    assert "The " <= c;
    assert Strings.StripPrefix(c, "The ") == x + " Collection" by {
      assert "The " + (x + " Collection") == c;
    }
    EndsWithAppended(x, " Collection");
  }

  /** `rarity`: kept when the item belongs to a collection or its rarity is
      above 1 (so cases and other containers have none). */
  function Rarity(collection: Option<string>, rarity: Option<int>): (r: Option<int>)
    ensures r.Some? <==> rarity.Some? && ((collection.Some? && collection.value != "") || rarity.value > 1)
    ensures r.Some? ==> r == rarity
  {
    if (collection.Some? && collection.value != "") || (rarity.Some? && rarity.value > 1) then rarity else None
  }

  /** `seed`: the floor of a non-zero texture seed, else the seed of the
      charm in keychain slot 0. */
  function Seed(textureSeed: Option<real>, keychainSeed: Option<int>): (r: Option<int>)
    ensures textureSeed.Some? && textureSeed.value != 0.0 ==>
      r.Some? && r.value as real <= textureSeed.value < r.value as real + 1.0
    ensures textureSeed.None? || textureSeed.value == 0.0 ==> r == keychainSeed
  {
    if textureSeed.Some? && textureSeed.value != 0.0 then Some(textureSeed.value.Floor) else keychainSeed
  }

  /** `quality`: the game's quality numbers remapped into a sortable
      0..5: normal, souvenir, StatTrak, highlight, star, star StatTrak. */
  function Quality(quality: int, stattrak: Option<bool>): (r: int)
    ensures 0 <= r <= 5
    ensures r >= 4 <==> quality == 3
    ensures r == 1 <==> quality == 12
    ensures r == 3 <==> quality == 13
    ensures quality != 12 && quality != 13 ==> (r == 2 || r == 5 <==> stattrak == Some(true))
  {
    var st := if stattrak == Some(true) then 1 else 0;
    if quality == 3 then 4 + st
    else if quality == 12 then 1
    else if quality == 13 then 3
    else st * 2
  }

  /** `casket_name` of an item in a storage unit: the unit's custom name
      when the unit is among the inventory items and named, else the
      unit's id. */
  function CasketName(items: seq<Row>, casketId: Option<int>): (r: Option<Value>)
    ensures casketId.None? || casketId.value == 0 ==> r.None?
    ensures casketId.Some? && casketId.value != 0 ==> r.Some?
    ensures casketId.Some? && casketId.value != 0 && (forall j :: 0 <= j < |items| ==> items[j].key != casketId.value)
      ==> r == Some(Num(casketId.value as real))
    ensures casketId.Some? && casketId.value != 0 ==>
      forall k :: 0 <= k < |items| && items[k].key == casketId.value
        && (forall j :: 0 <= j < k ==> items[j].key != casketId.value)
        ==> r == Some(Get(items[k], "attributes.custom name attr").GetOr(Num(casketId.value as real)))
  {
    if casketId.None? || casketId.value == 0 then None
    else match Sequences.First(items, (x: Row) => x.key == casketId.value)
      case None => Some(Num(casketId.value as real))
      case Some(unit) => Some(Get(unit, "attributes.custom name attr").GetOr(Num(casketId.value as real)))
  }

  // ---- storage-unit cache freshness ----

  /** The attributes of a storage unit that date its contents. */
  datatype CrateStamp = CrateStamp(modified: int, count: int)
  datatype CrateCache = CrateCache(stamp: CrateStamp, items: seq<Row>)

  datatype CrateSource = FromCache(items: seq<Row>) | InterfaceNotConnected | FromInterface

  /** `#OpenCrate` before the request: cached contents are used when the
      inventory itself came from the cache, or when they are at least as
      recent as the unit and hold as many items; an inventory from the
      cache with nothing usable is an error; otherwise the contents are
      requested. */
  function OpenCrate(cache: Option<CrateCache>, loadedFromCache: bool, current: CrateStamp): (r: CrateSource)
    ensures r.FromCache? <==> (cache.Some? && (loadedFromCache ||
      (cache.value.stamp.modified >= current.modified && cache.value.stamp.count == current.count)))
    ensures r.FromCache? ==> r.items == cache.value.items
    ensures r == InterfaceNotConnected <==> loadedFromCache && cache.None?
  {
    if cache.Some? && (loadedFromCache ||
        (cache.value.stamp.modified >= current.modified && cache.value.stamp.count == current.count))
    then FromCache(cache.value.items)
    else if loadedFromCache then InterfaceNotConnected
    else FromInterface
  }

  /** A cache written for the unit's current stamp is used. */
  lemma FreshCacheUsed(items: seq<Row>, loadedFromCache: bool, current: CrateStamp)
    ensures OpenCrate(Some(CrateCache(current, items)), loadedFromCache, current) == FromCache(items)
  {
  }

  // ---- storing and retrieving ----

  /** `(a, b) => b.iteminfo.id - a.iteminfo.id`. */
  function IdDesc(): (Row, Row) -> int {
    (a: Row, b: Row) => if a.key > b.key then -1 else if a.key < b.key then 1 else 0
  }

  lemma IdDescIsTotalPreorder()
    ensures Sorting.TotalPreorder(IdDesc())
  {
    var cmp := IdDesc();
    forall a: Row, b: Row ensures cmp(a, b) > 0 <==> cmp(b, a) < 0 {}
    forall a: Row, b: Row, c: Row | cmp(a, b) <= 0 && cmp(b, c) <= 0 ensures cmp(a, c) <= 0 {
      assert a.key >= b.key >= c.key;
    }
  }

  function SortByIdDesc(rows: seq<Row>): (r: seq<Row>)
    ensures multiset(r) == multiset(rows)
    ensures forall i, j :: 0 <= i < j < |r| ==> r[i].key >= r[j].key
  {
    IdDescIsTotalPreorder();
    Sorting.SortSorted(rows, IdDesc());
    var r := Sorting.SortBy(rows, IdDesc());
    assert forall i, j :: 0 <= i < j < |r| ==> IdDesc()(r[i], r[j]) <= 0;
    r
  }

  datatype Casket = Casket(stamp: CrateStamp, items: seq<Row>)

  /** The two caches the move updates: the storage unit's contents and the
      inventory. */
  datatype Caches = Caches(casket: Option<Casket>, inventory: Option<seq<Row>>)

  function IndexOfId(rows: seq<Row>, id: int): (r: int)
    ensures -1 <= r < |rows|
    ensures r >= 0 ==> rows[r].key == id
    ensures r == -1 <==> forall j :: 0 <= j < |rows| ==> rows[j].key != id
  {
    Sequences.FindIndex(rows, (x: Row) => x.key == id)
  }

  function WithCasket(asset: Row, casketId: int): Row {
    Row(asset.key, asset.fields["casket_id" := Num(casketId as real)])
  }

  function WithoutCasket(asset: Row): Row {
    Row(asset.key, asset.fields - {"casket_id"})
  }

  /** `StoreItem` after the call: with both caches present, the asset,
      marked with the unit's id, joins the unit's contents (kept newest
      first), the unit's count goes up and its modification time is now;
      the inventory loses the entry found by `findIndex` (as written, the
      last entry when the asset is missing). */
  function StoreItem(success: bool, c: Caches, asset: Row, casketId: int, nowSeconds: int): (r: Caches)
    ensures !success || c.casket.None? || c.inventory.None? ==> r == c
    ensures success && c.casket.Some? && c.inventory.Some? ==>
      && r.casket.Some? && r.inventory.Some?
      && multiset(r.casket.value.items) == multiset(c.casket.value.items) + multiset{WithCasket(asset, casketId)}
      && (forall i, j :: 0 <= i < j < |r.casket.value.items| ==> r.casket.value.items[i].key >= r.casket.value.items[j].key)
      && r.casket.value.stamp == CrateStamp(nowSeconds, c.casket.value.stamp.count + 1)
      && r.inventory.value == Sequences.Splice1(c.inventory.value, IndexOfId(c.inventory.value, asset.key))
  {
    if !success || c.casket.None? || c.inventory.None? then c
    else
      var items := SortByIdDesc(c.casket.value.items + [WithCasket(asset, casketId)]);
      var casket := Casket(CrateStamp(nowSeconds, c.casket.value.stamp.count + 1), items);
      var inventory := Sequences.Splice1(c.inventory.value, IndexOfId(c.inventory.value, asset.key));
      Caches(Some(casket), Some(inventory))
  }

  /** `RetrieveItem` after the call: the inverse bookkeeping; the unit loses
      the entry found by `findIndex`, its count goes down, and the asset,
      without its unit id, joins the inventory (kept newest first). */
  function RetrieveItem(success: bool, c: Caches, asset: Row, nowSeconds: int): (r: Caches)
    ensures !success || c.casket.None? || c.inventory.None? ==> r == c
    ensures success && c.casket.Some? && c.inventory.Some? ==>
      && r.casket.Some? && r.inventory.Some?
      && r.casket.value.items == Sequences.Splice1(c.casket.value.items, IndexOfId(c.casket.value.items, asset.key))
      && r.casket.value.stamp == CrateStamp(nowSeconds, c.casket.value.stamp.count - 1)
      && multiset(r.inventory.value) == multiset(c.inventory.value) + multiset{WithoutCasket(asset)}
      && (forall i, j :: 0 <= i < j < |r.inventory.value| ==> r.inventory.value[i].key >= r.inventory.value[j].key)
  {
    if !success || c.casket.None? || c.inventory.None? then c
    else
      var items := Sequences.Splice1(c.casket.value.items, IndexOfId(c.casket.value.items, asset.key));
      var casket := Casket(CrateStamp(nowSeconds, c.casket.value.stamp.count - 1), items);
      var inventory := SortByIdDesc(c.inventory.value + [WithoutCasket(asset)]);
      Caches(Some(casket), Some(inventory))
  }

  /** A stored asset present once in the inventory leaves it exactly once. */
  lemma StoreRemovesFromInventory(success: bool, c: Caches, asset: Row, casketId: int, nowSeconds: int)
    requires success && c.casket.Some? && c.inventory.Some?
    requires asset in c.inventory.value
    requires forall j :: 0 <= j < |c.inventory.value| && c.inventory.value[j].key == asset.key ==> c.inventory.value[j] == asset
    ensures multiset(StoreItem(success, c, asset, casketId, nowSeconds).inventory.value) == multiset(c.inventory.value) - multiset{asset}
  {
    RemoveFoundEntry(c.inventory.value, asset);
  }

  /** Splicing out the entry found by id removes that entry. */
  lemma RemoveFoundEntry(items: seq<Row>, asset: Row)
    requires asset in items
    requires forall j :: 0 <= j < |items| && items[j].key == asset.key ==> items[j] == asset
    ensures multiset(Sequences.Splice1(items, IndexOfId(items, asset.key))) == multiset(items) - multiset{asset}
  {
    FoundById(items, asset);
    SpliceOut(items, IndexOfId(items, asset.key));
  }

  /** An entry present in the items is found by its id. */
  lemma FoundById(items: seq<Row>, asset: Row)
    requires asset in items
    requires forall j :: 0 <= j < |items| && items[j].key == asset.key ==> items[j] == asset
    ensures 0 <= IndexOfId(items, asset.key) < |items| && items[IndexOfId(items, asset.key)] == asset
  {
    var j :| 0 <= j < |items| && items[j] == asset;
    assert items[j].key == asset.key;
  }

  /** Splicing out one entry takes it out of the multiset. */
  lemma SpliceOut(items: seq<Row>, i: int)
    requires 0 <= i < |items|
    ensures multiset(Sequences.Splice1(items, i)) == multiset(items) - multiset{items[i]}
  {
    Sequences.RemoveAtMultiset(items, i);
  }

  /** As written, storing an asset missing from the inventory cache drops
      the inventory's last entry instead. */
  lemma StoreMissingDropsLast(c: Caches, asset: Row, casketId: int, nowSeconds: int)
    requires c.casket.Some? && c.inventory.Some? && |c.inventory.value| > 0
    requires forall j :: 0 <= j < |c.inventory.value| ==> c.inventory.value[j].key != asset.key
    ensures StoreItem(true, c, asset, casketId, nowSeconds).inventory.value == c.inventory.value[..|c.inventory.value| - 1]
  {
  }

  /** Removing the unit id undoes adding it. */
  lemma CasketMarkUndone(asset: Row, casketId: int)
    requires "casket_id" !in asset.fields
    ensures WithoutCasket(WithCasket(asset, casketId)) == asset
  {
    assert WithoutCasket(WithCasket(asset, casketId)).fields == asset.fields;
  }

  /** Taking out the one entry with a given id from contents that hold
      it once leaves the rest. */
  lemma RemoveOnlyEntry(items: seq<Row>, rest: multiset<Row>, entry: Row)
    requires multiset(items) == rest + multiset{entry}
    requires forall x :: x in rest ==> x.key != entry.key
    ensures multiset(Sequences.Splice1(items, IndexOfId(items, entry.key))) == rest
  {
    OnlyEntryFound(items, rest, entry);
    SpliceOut(items, IndexOfId(items, entry.key));
  }

  lemma OnlyEntryFound(items: seq<Row>, rest: multiset<Row>, entry: Row)
    requires multiset(items) == rest + multiset{entry}
    requires forall x :: x in rest ==> x.key != entry.key
    ensures forall j :: 0 <= j < |items| && items[j].key == entry.key ==> items[j] == entry
    ensures entry in items
  {
    forall j | 0 <= j < |items| && items[j].key == entry.key
      ensures items[j] == entry
    {
      assert items[j] in multiset(items);
    }
    assert entry in multiset(items);
  }

  /** Storing an asset and retrieving it again restores the unit's count and
      both caches' contents, up to order. */
  lemma StoreThenRetrieve(c: Caches, asset: Row, casketId: int, t1: int, t2: int)
    requires c.casket.Some? && c.inventory.Some?
    requires asset in c.inventory.value && "casket_id" !in asset.fields
    requires forall j :: 0 <= j < |c.inventory.value| && c.inventory.value[j].key == asset.key ==> c.inventory.value[j] == asset
    requires forall j :: 0 <= j < |c.casket.value.items| ==> c.casket.value.items[j].key != asset.key
    ensures var r := RetrieveItem(true, StoreItem(true, c, asset, casketId, t1), WithCasket(asset, casketId), t2);
      && r.casket.value.stamp.count == c.casket.value.stamp.count
      && multiset(r.casket.value.items) == multiset(c.casket.value.items)
      && multiset(r.inventory.value) == multiset(c.inventory.value)
  {
    var s := StoreItem(true, c, asset, casketId, t1);
    StoreRemovesFromInventory(true, c, asset, casketId, t1);
    RetrieveRestoresCasket(c, s, asset, casketId, t2);
    RetrieveRestoresInventory(c, s, asset, casketId, t2);
  }

  lemma RetrieveRestoresCasket(c: Caches, s: Caches, asset: Row, casketId: int, t2: int)
    requires c.casket.Some? && s.casket.Some? && s.inventory.Some?
    requires multiset(s.casket.value.items) == multiset(c.casket.value.items) + multiset{WithCasket(asset, casketId)}
    requires forall j :: 0 <= j < |c.casket.value.items| ==> c.casket.value.items[j].key != asset.key
    ensures var r := RetrieveItem(true, s, WithCasket(asset, casketId), t2);
      && r.casket.value.stamp.count == s.casket.value.stamp.count - 1
      && multiset(r.casket.value.items) == multiset(c.casket.value.items)
  {
    var stored := WithCasket(asset, casketId);
    forall x | x in multiset(c.casket.value.items) ensures x.key != stored.key {
      var j :| 0 <= j < |c.casket.value.items| && c.casket.value.items[j] == x;
    }
    RemoveOnlyEntry(s.casket.value.items, multiset(c.casket.value.items), stored);
  }

  lemma RetrieveRestoresInventory(c: Caches, s: Caches, asset: Row, casketId: int, t2: int)
    requires c.inventory.Some? && s.casket.Some? && s.inventory.Some?
    requires asset in c.inventory.value && "casket_id" !in asset.fields
    requires multiset(s.inventory.value) == multiset(c.inventory.value) - multiset{asset}
    ensures multiset(RetrieveItem(true, s, WithCasket(asset, casketId), t2).inventory.value) == multiset(c.inventory.value)
  {
    var r := RetrieveItem(true, s, WithCasket(asset, casketId), t2);
    CasketMarkUndone(asset, casketId);
    assert multiset(r.inventory.value) == multiset(s.inventory.value) + multiset{asset};
    PutBack(multiset(c.inventory.value), asset);
  }

  lemma PutBack(m: multiset<Row>, x: Row)
    requires x in m
    ensures (m - multiset{x}) + multiset{x} == m
  {
  }
}

=== FILE: inventory_asset.dfy ===
/** An inventory asset (cs2/items/assets/inventory_asset.js): its
    classification, inspect link, trade protection, quality flags and the
    description, property and tag lookups. */
module InventoryAsset {
  import opened Wrappers
  import Sequences
  import Strings
  import Constants
  import Asset

  datatype Tag = Tag(category: string, internalName: string)
  datatype Action = Action(link: string)
  datatype Description = Description(name: string, value: string)
  datatype Property = Property(propertyid: int, value: string)

  /** The parts of an inventory asset record the class reads. */
  datatype AssetRecord = AssetRecord(
    assetid: string, contextid: int, marketHashName: string,
    tags: Option<seq<Tag>>, actions: seq<Action>,
    descriptions: Option<seq<Description>>, properties: Option<seq<Property>>)

  predicate WearableTag(t: Tag) {
    t.category == "Weapon" || t.internalName == "Type_Hands"
  }

  predicate KeychainTag(t: Tag) {
    t.internalName == "CSGO_Tool_Keychain"
  }

  /** A tag that ends the classification loop. */
  predicate Decisive(t: Tag) {
    WearableTag(t) || KeychainTag(t)
  }

  /** The constructor's classification: a storage unit by name; otherwise
      the first decisive tag makes it wearable or a keychain; otherwise the
      type stays unset. */
  function Classify(a: AssetRecord): (r: Option<Asset.AssetType>)
    ensures a.marketHashName == "Storage Unit" ==> r == Some(Asset.StorageUnit)
    ensures a.marketHashName != "Storage Unit" ==>
      var tags := a.tags.GetOr([]);
      && (r.None? <==> forall j :: 0 <= j < |tags| ==> !Decisive(tags[j]))
      && (r.Some? ==> exists i :: (0 <= i < |tags| && (forall j :: 0 <= j < i ==> !Decisive(tags[j]))
            && (if WearableTag(tags[i]) then r == Some(Asset.Wearable) else r == Some(Asset.Keychain))))
  {
    if a.marketHashName == "Storage Unit" then Some(Asset.StorageUnit)
    else
      var tags := a.tags.GetOr([]);
      var i := Sequences.FindIndex(tags, Decisive);
      if i == -1 then None
      else if WearableTag(tags[i]) then Some(Asset.Wearable)
      else Some(Asset.Keychain)
  }

  /** A tag list naming a weapon first is wearable, whatever follows. */
  lemma WeaponFirstIsWearable(a: AssetRecord, rest: seq<Tag>)
    requires a.marketHashName != "Storage Unit"
    requires a.tags == Some([Tag("Weapon", "")] + rest)
    ensures Classify(a) == Some(Asset.Wearable)
  {
    assert a.tags.value[0] == Tag("Weapon", "");
  }

  predicate InspectAction(x: Action) {
    Strings.Contains(x.link, "steam://rungame")
  }

  /** The inspect link of a wearable: the first action linking into the
      game, with the first `%owner_steamid%` and the first `%assetid%`
      replaced by the viewer's id and the asset id. */
  function InspectLink(t: Option<Asset.AssetType>, actions: seq<Action>, steamId: string, assetid: string): (r: Option<string>)
    ensures t != Some(Asset.Wearable) ==> r.None?
    ensures t == Some(Asset.Wearable) ==>
      (r.None? <==> forall j :: 0 <= j < |actions| ==> !InspectAction(actions[j]))
    ensures r.Some? ==> exists i :: (0 <= i < |actions| && InspectAction(actions[i])
      && (forall j :: 0 <= j < i ==> !InspectAction(actions[j]))
      && r.value == Strings.ReplaceFirst(Strings.ReplaceFirst(actions[i].link, "%owner_steamid%", steamId), "%assetid%", assetid))
  {
    if t != Some(Asset.Wearable) then None
    else match Sequences.First(actions, InspectAction)
      case None => None
      case Some(x) => Some(Strings.ReplaceFirst(Strings.ReplaceFirst(x.link, "%owner_steamid%", steamId), "%assetid%", assetid))
  }

  /** A link without placeholders is used as is. */
  lemma LinkWithoutPlaceholders(link: string, steamId: string, assetid: string)
    requires !Strings.Contains(link, "%owner_steamid%") && !Strings.Contains(link, "%assetid%")
    ensures Strings.ReplaceFirst(Strings.ReplaceFirst(link, "%owner_steamid%", steamId), "%assetid%", assetid) == link
  {
  }

  /** The quality numbers of the asset's quality tags. */
  function QualityNumbers(names: seq<string>): (r: seq<Option<int>>)
    ensures |r| == |names|
    ensures forall k :: 0 <= k < |r| ==> r[k] == Constants.Lookup(Constants.QUALITIES, names[k])
  {
    seq(|names|, k requires 0 <= k < |names| => Constants.Lookup(Constants.QUALITIES, names[k]))
  }

  datatype QualityFlags = QualityFlags(unusual: bool, stattrak: bool, souvenir: bool)

  /** The unusual, StatTrak and souvenir flags: qualities 3, 9 and 12. */
  function Flags(names: seq<string>): QualityFlags {
    var q := QualityNumbers(names);
    QualityFlags(Some(3) in q, Some(9) in q, Some(12) in q)
  }

  /** The quality number of a name is 3, 9 or 12 exactly for the names
      "unusual", "strange" and "tournament". */
  lemma QualityNumberNames(name: string)
    ensures Constants.Lookup(Constants.QUALITIES, name) == Some(3) <==> name == "unusual"
    ensures Constants.Lookup(Constants.QUALITIES, name) == Some(9) <==> name == "strange"
    ensures Constants.Lookup(Constants.QUALITIES, name) == Some(12) <==> name == "tournament"
  {
    Unusual();
    Strange();
    Tournament();
    QualityNamed(name, 3, "unusual");
    QualityNamed(name, 9, "strange");
    QualityNamed(name, 12, "tournament");
  }

  lemma Unusual()
    ensures Constants.QUALITIES[3].0 == "unusual"
    ensures forall j :: 0 <= j < 3 ==> Constants.QUALITIES[j].0 != "unusual"
  {
  }

  lemma Strange()
    ensures Constants.QUALITIES[9].0 == "strange"
    ensures forall j :: 0 <= j < 9 ==> Constants.QUALITIES[j].0 != "strange"
  {
  }

  lemma Tournament()
    ensures Constants.QUALITIES[12].0 == "tournament"
    ensures forall j :: 0 <= j < 12 ==> Constants.QUALITIES[j].0 != "tournament"
  {
  }

  /** The quality numbered `n` is looked up exactly from its own name. */
  lemma QualityNamed(name: string, n: nat, expected: string)
    requires n < |Constants.QUALITIES| && Constants.QUALITIES[n].0 == expected
    requires forall j :: 0 <= j < n ==> Constants.QUALITIES[j].0 != expected
    ensures Constants.Lookup(Constants.QUALITIES, name) == Some(n) <==> name == expected
  {
    Constants.QualitiesNumbered();
    var r := Constants.Lookup(Constants.QUALITIES, name);
    if r == Some(n) {
      var i :| 0 <= i < |Constants.QUALITIES| && Constants.QUALITIES[i] == (name, n);
      assert i == n;
    }
    if name == expected {
      Constants.LookupAt(Constants.QUALITIES, expected, n);
    }
  }

  /** A flag is set exactly when the name of its quality is among the
      tags. */
  lemma FlagByName(names: seq<string>, n: int, expected: string)
    requires forall name :: Constants.Lookup(Constants.QUALITIES, name) == Some(n) <==> name == expected
    ensures Some(n) in QualityNumbers(names) <==> expected in names
  {
    var q := QualityNumbers(names);
    if expected in names {
      var k :| 0 <= k < |names| && names[k] == expected;
      assert q[k] == Some(n);
    }
    if Some(n) in q {
      var k :| 0 <= k < |q| && q[k] == Some(n);
      assert names[k] == expected;
    }
  }

  /** The flags are set exactly by the matching tag names. */
  lemma FlagsByName(names: seq<string>)
    ensures Flags(names).unusual <==> "unusual" in names
    ensures Flags(names).stattrak <==> "strange" in names
    ensures Flags(names).souvenir <==> "tournament" in names
  {
    forall name {
      QualityNumberNames(name);
    }
    FlagByName(names, 3, "unusual");
    FlagByName(names, 9, "strange");
    FlagByName(names, 12, "tournament");
  }

  /** `GetDescription(name)`: nothing without descriptions, otherwise the
      value of the first description with that name. */
  function GetDescription(a: AssetRecord, name: string): (r: Option<string>)
    ensures a.descriptions.None? ==> r.None?
    ensures a.descriptions.Some? ==>
      var ds := a.descriptions.value;
      && (r.None? <==> forall j :: 0 <= j < |ds| ==> ds[j].name != name)
      && (r.Some? ==> exists i :: (0 <= i < |ds| && ds[i].name == name && ds[i].value == r.value
            && forall j :: 0 <= j < i ==> ds[j].name != name))
  {
    if a.descriptions.None? then None
    else match Sequences.First(a.descriptions.value, (d: Description) => d.name == name)
      case None => None
      case Some(d) => Some(d.value)
  }

  /** `GetProperty(id)`: the first property with that id. */
  function GetProperty(props: Option<seq<Property>>, id: int): (r: Option<Property>)
    ensures props.None? ==> r.None?
    ensures props.Some? ==>
      && (r.None? <==> forall j :: 0 <= j < |props.value| ==> props.value[j].propertyid != id)
      && (r.Some? ==> r.value.propertyid == id && exists i :: (0 <= i < |props.value| && props.value[i] == r.value
            && forall j :: 0 <= j < i ==> props.value[j].propertyid != id))
  {
    if props.None? then None
    else Sequences.First(props.value, (p: Property) => p.propertyid == id)
  }

  /** The tags of one category. */
  function InCategory(category: string): Tag -> bool {
    (t: Tag) => t.category == category
  }

  /** `GetTags(category)`: nothing without tags, otherwise the tags of that
      category in their original order. */
  function GetTags(a: AssetRecord, category: string): (r: Option<seq<Tag>>)
    ensures a.tags.None? <==> r.None?
    ensures r.Some? ==> forall t :: t in r.value <==> t in a.tags.value && t.category == category
    ensures r.Some? ==> r.value == Sequences.Filter(a.tags.value, InCategory(category))
    ensures r.Some? ==> forall t :: multiset(r.value)[t] == if t.category == category then multiset(a.tags.value)[t] else 0
  {
    if a.tags.None? then None
    else
      var keep := InCategory(category);
      Sequences.FilterMembers(a.tags.value, keep);
      assert forall t :: multiset(Sequences.Filter(a.tags.value, keep))[t] == if t.category == category then multiset(a.tags.value)[t] else 0 by {
        forall t ensures multiset(Sequences.Filter(a.tags.value, keep))[t] == if t.category == category then multiset(a.tags.value)[t] else 0 {
          Sequences.FilterMultiset(a.tags.value, keep, t);
        }
      }
      Some(Sequences.Filter(a.tags.value, keep))
  }

}

=== FILE: item_filter.dfy ===
/** The item table's row filter (`_FilterRow` in components/item_table.js),
    the filter specification its form builds on submit, and the facet
    bucketing that offers the form's choices (`#ShowFilters`).
    Nested item properties are flattened into dotted field names:
    `iteminfo.rarity` is the raw rarity of the item. */
module ItemFilter {
  import opened Wrappers
  import opened Rows
  import Strings
  import Sequences

  /** An inclusive range; a `None` bound is unbounded. */
  datatype Bounds = Bounds(min: Option<real>, max: Option<real>)

  /** A select option: the bucket key it was listed under and its value. */
  datatype Choice<T> = Choice(key: string, value: T)

  /** The filter object built on submit; `None` is JavaScript `null`. */
  datatype Spec = Spec(
    itemType: Option<Choice<string>>,
    quality: Option<real>,
    rarity: Option<Choice<real>>,
    wear: Option<string>,
    float: Option<Bounds>,
    seed: Option<Bounds>,
    cosmetics: Option<Bounds>,
    collection: Option<string>,
    selected: Option<bool>)

  predicate Is(item: Row, field: string, s: string) {
    Get(item, field) == Some(Str(s))
  }

  predicate Defined(item: Row, field: string) {
    Get(item, field).Some?
  }

  /** The search target; every loaded item carries it. */
  function NameNormalized(item: Row): string {
    match Get(item, "name_normalized")
    case Some(Str(s)) => s
    case _ => ""
  }

  /** `inRange`: an undefined (or non-numeric) value fails, otherwise each
      present bound is checked with `<` / `>`. */
  predicate InRange(v: Option<Value>, b: Bounds) {
    !(|| !(v.Some? && v.value.Num?)
      || (b.min.Some? && v.value.n < b.min.value)
      || (b.max.Some? && v.value.n > b.max.value))
  }

  /** The range test is inclusive at both ends and unbounded where a bound
      is missing. */
  lemma InRangeMeaning(x: real, b: Bounds)
    ensures InRange(Some(Num(x)), b) <==>
      (forall lo :: b.min == Some(lo) ==> lo <= x) && (forall hi :: b.max == Some(hi) ==> x <= hi)
    ensures !InRange(None, b)
  {
  }

  /** The three rarity facet buckets. */
  datatype Bucket = WeaponsBucket | AgentsBucket | OtherBucket

  function BucketKey(b: Bucket): string {
    match b
    case WeaponsBucket => "weapons"
    case AgentsBucket => "agents"
    case OtherBucket => "other"
  }

  /** `#ShowFilters`: wear-bearing non-gloves are weapons, then agents,
      then everything else. */
  function RarityBucket(item: Row): Bucket {
    if Defined(item, "wear") && !Is(item, "type_name", "Gloves") then WeaponsBucket
    else if Is(item, "type_name", "Agent") then AgentsBucket
    else OtherBucket
  }

  /** The bucket test of the rarity filter for key `key`; unknown keys test
      nothing. */
  predicate PassesBucket(item: Row, key: string) {
    if key == "weapons" then Defined(item, "wear") && !Is(item, "type_name", "Gloves")
    else if key == "agents" then Is(item, "type_name", "Agent")
    else if key == "other" then
      !((Defined(item, "wear") && !Is(item, "type_name", "Gloves")) || Is(item, "type_name", "Agent"))
    else true
  }

  /** An item passes the bucket test of the bucket its rarity was listed
      under. Of the other two buckets it can pass only the agents test,
      and only when it is a wear-bearing agent listed under weapons. */
  lemma BucketPasses(item: Row, b: Bucket)
    ensures PassesBucket(item, BucketKey(RarityBucket(item)))
    ensures PassesBucket(item, BucketKey(b)) ==>
      b == RarityBucket(item) || (b == AgentsBucket && RarityBucket(item) == WeaponsBucket)
  {
  }

  predicate PassesType(item: Row, c: Choice<string>) {
    if c.key == "weapons" then Is(item, "weapon_name", c.value)
    else if c.key == "other" then Is(item, "type_name", c.value)
    else true
  }

  /** `_FilterRow` for filter `spec`, the selection snapshot `saved` taken
      at submit, and the search box text `query`. */
  predicate FilterRow(spec: Option<Spec>, saved: set<int>, query: Option<string>, item: Row): (r: bool)
    ensures spec.None? && (query.None? || query.value == "") ==> r
    ensures r && spec.Some? && spec.value.selected == Some(true) ==> item.key in saved
  {
    && (spec.Some? ==> PassesSpec(spec.value, saved, item))
    && (query.Some? && query.value != "" ==> Strings.MatchesAllTokens(NameNormalized(item), query.value))
  }

  predicate PassesSpec(s: Spec, saved: set<int>, item: Row) {
    && (s.selected == Some(true) ==> item.key in saved)
    && (s.float.Some? ==> InRange(Get(item, "wear"), s.float.value))
    && (s.seed.Some? ==> InRange(Get(item, "seed"), s.seed.value))
    && (s.cosmetics.Some? ==> InRange(Get(item, "cosmetics"), s.cosmetics.value))
    && (s.quality.Some? ==> Get(item, "quality") == Some(Num(s.quality.value)))
    && (s.rarity.Some? ==>
          PassesBucket(item, s.rarity.value.key)
          && Get(item, "iteminfo.rarity") == Some(Num(s.rarity.value.value)))
    && (s.itemType.Some? ==> PassesType(item, s.itemType.value))
    && (s.collection.Some? && s.collection.value != "" ==>
          Is(item, "collection_name", s.collection.value))
  }

  /** `spec` constrains no more than `t`: each of its fields is unset or
      equal to `t`'s. */
  predicate Weaker(s: Spec, t: Spec) {
    && (s.itemType.None? || s.itemType == t.itemType)
    && (s.quality.None? || s.quality == t.quality)
    && (s.rarity.None? || s.rarity == t.rarity)
    && (s.float.None? || s.float == t.float)
    && (s.seed.None? || s.seed == t.seed)
    && (s.cosmetics.None? || s.cosmetics == t.cosmetics)
    && (s.collection.None? || s.collection == t.collection)
    && (s.selected.None? || s.selected == t.selected)
  }

  /** The filter is a conjunction: clearing any of its fields can only let
      more rows through, and no filter at all lets through every row that
      matches the search. */
  lemma WeakerSpecPassesMore(s: Spec, t: Spec, saved: set<int>, query: Option<string>, item: Row)
    requires Weaker(s, t)
    ensures FilterRow(Some(t), saved, query, item) ==> FilterRow(Some(s), saved, query, item)
    ensures FilterRow(Some(s), saved, query, item) ==> FilterRow(None, saved, query, item)
  {
  }

  /** The form after submit; `None` for an empty input, an unselected or
      disabled select, or an unchecked box. */
  datatype Form = Form(
    itemType: Option<Choice<string>>,
    quality: Option<real>,
    rarity: Option<Choice<real>>,
    wear: Option<string>,
    floatMin: Option<real>, floatMax: Option<real>,
    seedMin: Option<real>, seedMax: Option<real>,
    cosmeticsMin: Option<real>, cosmeticsMax: Option<real>,
    collection: Option<string>,
    selected: bool)

  function BoundsOf(min: Option<real>, max: Option<real>): (r: Option<Bounds>)
    ensures r.None? <==> min.None? && max.None?
    ensures r.Some? ==> r.value.min == min && r.value.max == max
  {
    if min.None? && max.None? then None else Some(Bounds(min, max))
  }

  /** The submit handler: a range with both ends empty is `null`, an
      unchecked box is `null`, and a spec whose every field is `null`
      becomes no filter. */
  function Build(f: Form): (r: Option<Spec>)
    ensures r.Some? ==> r.value.selected == (if f.selected then Some(true) else None)
    ensures r.Some? ==> r.value.float == BoundsOf(f.floatMin, f.floatMax)
  {
    var s := Spec(f.itemType, f.quality, f.rarity, f.wear,
                  BoundsOf(f.floatMin, f.floatMax), BoundsOf(f.seedMin, f.seedMax),
                  BoundsOf(f.cosmeticsMin, f.cosmeticsMax), f.collection,
                  if f.selected then Some(true) else None);
    if s == Spec(None, None, None, None, None, None, None, None, None) then None else Some(s)
  }

  /** The form yields no filter exactly when every input is empty. */
  lemma BuildNoneIffEmpty(f: Form)
    ensures Build(f).None? <==>
      f == Form(None, None, None, None, None, None, None, None, None, None, None, false)
  {
  }

  /** The wear select is stored in the filter specification but never consulted, so a form
      with only a wear chosen filters nothing out. */
  lemma WearOnlyFilterKeepsAll(w: string, saved: set<int>, query: Option<string>, item: Row)
    ensures var f := Form(None, None, None, Some(w), None, None, None, None, None, None, None, false);
      Build(f).Some? && (FilterRow(Build(f), saved, query, item) <==> FilterRow(None, saved, query, item))
  {
  }

  /** The facets offered by the form, gathered once from all rows. */
  datatype Facets = Facets(
    weaponTypes: set<string>,
    otherTypes: set<string>,
    qualities: map<string, Option<Value>>,
    rarities: map<Bucket, map<string, Option<Value>>>,
    collections: map<CollectionBucket, set<string>>,
    emptyCollectionExists: bool)

  datatype CollectionBucket = WeaponCollections | Stickers | Charms | Agents | Patches | Graffiti | OtherCollections

  /** The collection facet bucket: wear-bearing items, then by type name. */
  function CollectionBucketOf(item: Row): CollectionBucket {
    if Defined(item, "wear") then WeaponCollections
    else if Is(item, "type_name", "Sticker") then Stickers
    else if Is(item, "type_name", "Charm") then Charms
    else if Is(item, "type_name", "Agent") then Agents
    else if Is(item, "type_name", "Patch") then Patches
    else if Is(item, "type_name", "Graffiti") then Graffiti
    else OtherCollections
  }

  /** A truthy string field. */
  function TruthyStr(item: Row, field: string): Option<string> {
    match Get(item, field)
    case Some(Str(s)) => if s != "" then Some(s) else None
    case _ => None
  }

  function NoFacets(): Facets {
    Facets({}, {}, map[],
           map[WeaponsBucket := map[], AgentsBucket := map[], OtherBucket := map[]],
           map[WeaponCollections := {}, Stickers := {}, Charms := {}, Agents := {},
               Patches := {}, Graffiti := {}, OtherCollections := {}],
           false)
  }

  function RaritiesOf(f: Facets, b: Bucket): map<string, Option<Value>> {
    if b in f.rarities then f.rarities[b] else map[]
  }

  function CollectionsOf(f: Facets, b: CollectionBucket): set<string> {
    if b in f.collections then f.collections[b] else {}
  }

  /** One iteration of the facet loop: type and weapon names, quality,
      rarity, then collection. */
  function AddItem(f: Facets, item: Row): Facets {
    AddCollection(AddRarity(AddQuality(AddNames(f, item), item), item), item)
  }

  function AddNames(f: Facets, item: Row): Facets {
    var f1 := if TruthyStr(item, "type_name").Some? then f.(otherTypes := f.otherTypes + {TruthyStr(item, "type_name").value}) else f;
    if TruthyStr(item, "weapon_name").Some? then f1.(weaponTypes := f1.weaponTypes + {TruthyStr(item, "weapon_name").value}) else f1
  }

  function AddQuality(f: Facets, item: Row): Facets {
    if TruthyStr(item, "quality_name").Some? then f.(qualities := f.qualities[TruthyStr(item, "quality_name").value := Get(item, "quality")]) else f
  }

  function AddRarity(f: Facets, item: Row): Facets {
    if TruthyStr(item, "rarity_name").Some? then
      var b := RarityBucket(item);
      f.(rarities := f.rarities[b := RaritiesOf(f, b)[TruthyStr(item, "rarity_name").value := Get(item, "iteminfo.rarity")]])
    else f
  }

  function AddCollection(f: Facets, item: Row): Facets {
    if TruthyStr(item, "collection_name").Some? then
      var c := CollectionBucketOf(item);
      f.(collections := f.collections[c := CollectionsOf(f, c) + {TruthyStr(item, "collection_name").value}])
    else f.(emptyCollectionExists := true)
  }

  /** A rarity name is listed for bucket `b` when the row has it and is in `b`. */
  predicate RarityIn(item: Row, b: Bucket, name: string) {
    TruthyStr(item, "rarity_name") == Some(name) && RarityBucket(item) == b
  }

  /** A collection name is listed for bucket `c` when the row has it and is in `c`. */
  predicate CollectionIn(item: Row, c: CollectionBucket, name: string) {
    TruthyStr(item, "collection_name") == Some(name) && CollectionBucketOf(item) == c
  }

  /** Adding a row lists its rarity name under its own bucket only. */
  lemma AddItemRarities(f: Facets, item: Row, b: Bucket, name: string)
    ensures name in RaritiesOf(AddItem(f, item), b) <==> name in RaritiesOf(f, b) || RarityIn(item, b, name)
  {
    var g := AddQuality(AddNames(f, item), item);
    EarlyStepsKeepRarities(f, item);
    CollectionStepKeepsRarities(AddRarity(g, item), item, b);
    AddRarityLists(g, item, b, name);
  }

  lemma EarlyStepsKeepRarities(f: Facets, item: Row)
    ensures AddQuality(AddNames(f, item), item).rarities == f.rarities
  {
    NamesKeepBuckets(f, item);
    QualityKeepsBuckets(AddNames(f, item), item);
  }

  lemma NamesKeepBuckets(f: Facets, item: Row)
    ensures AddNames(f, item).rarities == f.rarities
    ensures AddNames(f, item).collections == f.collections
  {
  }

  lemma QualityKeepsBuckets(f: Facets, item: Row)
    ensures AddQuality(f, item).rarities == f.rarities
    ensures AddQuality(f, item).collections == f.collections
  {
  }

  lemma RarityKeepsCollections(f: Facets, item: Row)
    ensures AddRarity(f, item).collections == f.collections
  {
  }

  lemma CollectionStepKeepsRarities(f: Facets, item: Row, b: Bucket)
    ensures RaritiesOf(AddCollection(f, item), b) == RaritiesOf(f, b)
  {
  }

  lemma AddRarityLists(f: Facets, item: Row, b: Bucket, name: string)
    ensures name in RaritiesOf(AddRarity(f, item), b) <==> name in RaritiesOf(f, b) || RarityIn(item, b, name)
  {
  }

  /** Adding a row lists its collection under its own bucket only. */
  lemma AddItemCollections(f: Facets, item: Row, c: CollectionBucket, name: string)
    ensures name in CollectionsOf(AddItem(f, item), c) <==> name in CollectionsOf(f, c) || CollectionIn(item, c, name)
  {
    EarlyStepsKeepCollections(f, item);
    AddCollectionLists(AddRarity(AddQuality(AddNames(f, item), item), item), item, c, name);
  }

  lemma EarlyStepsKeepCollections(f: Facets, item: Row)
    ensures AddRarity(AddQuality(AddNames(f, item), item), item).collections == f.collections
  {
    NamesKeepBuckets(f, item);
    QualityKeepsBuckets(AddNames(f, item), item);
    RarityKeepsCollections(AddQuality(AddNames(f, item), item), item);
  }

  lemma AddCollectionLists(f: Facets, item: Row, c: CollectionBucket, name: string)
    ensures name in CollectionsOf(AddCollection(f, item), c) <==> name in CollectionsOf(f, c) || CollectionIn(item, c, name)
  {
  }

  function Gather(data: seq<Row>): Facets {
    if |data| == 0 then NoFacets()
    else AddItem(Gather(data[..|data| - 1]), data[|data| - 1])
  }

  /** `#ShowFilters`: the facets are gathered on the first opening only. */
  function ShowFilters(cached: Option<Facets>, data: seq<Row>): (r: Facets)
    ensures cached.Some? ==> r == cached.value
  {
    if cached.Some? then cached.value else Gather(data)
  }

  /** A rarity name is listed under bucket `b` exactly when some row with
      that rarity name belongs to `b`: every row lands in one bucket. */
  lemma {:induction false} RarityFacetBuckets(data: seq<Row>, b: Bucket, name: string)
    ensures name in RaritiesOf(Gather(data), b) <==> exists i :: 0 <= i < |data| && RarityIn(data[i], b, name)
  {
    if |data| > 0 {
      var init := data[..|data| - 1];
      RarityFacetBuckets(init, b, name);
      AddItemRarities(Gather(init), data[|data| - 1], b, name);
      Sequences.ExistsSnoc(data, init, item => RarityIn(item, b, name));
    }
  }

  /** Likewise a collection name is listed under bucket `c` exactly when
      some row of that collection belongs to `c`. */
  lemma {:induction false} CollectionFacetBuckets(data: seq<Row>, c: CollectionBucket, name: string)
    ensures name in CollectionsOf(Gather(data), c) <==> exists i :: 0 <= i < |data| && CollectionIn(data[i], c, name)
  {
    if |data| > 0 {
      var init := data[..|data| - 1];
      CollectionFacetBuckets(init, c, name);
      AddItemCollections(Gather(init), data[|data| - 1], c, name);
      Sequences.ExistsSnoc(data, init, item => CollectionIn(item, c, name));
    }
  }
}

=== FILE: item_table.dfy ===
/** The item table of components/item_table.js: the table engine with the
    default sort by storage unit then id (newest first), the selection,
    the filter form and the per-item task of a batch transfer. */
module ItemTable {
  import opened Wrappers
  import opened Rows
  import Sequences
  import Table
  import Selection
  import ItemFilter
  import VirtualList

  const DEFAULT_SORT := Table.SortSpec(["casket_id", "id"], Desc)

  datatype ItemTable = ItemTable(
    table: Table.Table,
    selection: Selection.Selection,
    limit: int,
    filter: Option<ItemFilter.Spec>,
    saved: set<int>,
    query: Option<string>,
    changed: bool)

  /** The constructor: every item passes, the default sort is by storage
      unit then id, newest first, and nothing is selected, filtered or
      searched yet. The selection limit is computed by the caller for the
      table's mode. */
  function Create(items: seq<Row>, visibleRows: nat, limit: int): (t: ItemTable)
    ensures t.table.data == items && t.table.filtered == items
    ensures t.table.defaultSort == Some(DEFAULT_SORT) && t.table.sortColumns.None?
    ensures t.selection.selected == {} && t.limit == limit
    ensures t.filter.None? && t.query.None? && !t.changed
  {
    ItemTable(Table.Create(items, Some(DEFAULT_SORT), visibleRows),
      Selection.Selection({}, None, None), limit, None, {}, None, false)
  }

  /** The rows passing the current filter and search. */
  function Keep(t: ItemTable): Row -> bool {
    (x: Row) => ItemFilter.FilterRow(t.filter, t.saved, t.query, x)
  }

  /** The form's submit handler: snapshot the selection for the "selected
      only" option, store the spec built from the form, refilter. */
  function SubmitFilter(t: ItemTable, f: ItemFilter.Form): (r: ItemTable)
    ensures r.filter == ItemFilter.Build(f) && r.saved == t.selection.selected
    ensures r.selection == t.selection && r.table.data == t.table.data
    ensures |t.table.data| > 0 ==>
      forall x :: x in r.table.filtered <==>
        x in t.table.data && ItemFilter.FilterRow(ItemFilter.Build(f), t.selection.selected, t.query, x)
  {
    var t1 := t.(filter := ItemFilter.Build(f), saved := t.selection.selected);
    var r := t1.(table := Table.FilterRows(t1.table, Keep(t1)));
    assert |t.table.data| > 0 ==> forall x :: x in r.table.filtered <==> x in t.table.data && Keep(t1)(x) by {
      if |t.table.data| > 0 {
        forall x ensures x in r.table.filtered <==> x in t.table.data && Keep(t1)(x) {
          assert x in r.table.filtered <==> multiset(r.table.filtered)[x] > 0;
          assert x in t.table.data <==> multiset(t.table.data)[x] > 0;
        }
      }
    }
    r
  }

  /** The ids of a sequence of rows are distinct. */
  predicate UniqueKeys(rows: seq<Row>) {
    forall i, j :: 0 <= i < j < |rows| ==> rows[i].key != rows[j].key
  }

  function KeyIndex(rows: seq<Row>, id: int): (r: int)
    ensures -1 <= r < |rows|
    ensures r >= 0 ==> rows[r].key == id
    ensures r == -1 <==> id !in Selection.Keys(rows)
  {
    Sequences.FindIndex(rows, (x: Row) => x.key == id)
  }

  /** The success bookkeeping of a transfer: splice the row out of the data
      (at `findIndex`, so a missing id would splice out the last row), out
      of the filtered rows when present, drop the id from the selection,
      lower the limit and rebuild the window. */
  function CompleteTransfer(t: ItemTable, id: int): (r: ItemTable)
    ensures r.limit == t.limit - 1 && r.changed
    ensures r.selection.selected == t.selection.selected - {id}
    ensures r.table.sortColumns == t.table.sortColumns && r.table.sortDirection == t.table.sortDirection
    ensures VirtualList.Consistent(r.table.view, r.table.filtered, Table.WindowOf(r.table))
  {
    var di := KeyIndex(t.table.data, id);
    var fi := KeyIndex(t.table.filtered, id);
    var data := Sequences.Splice1(t.table.data, di);
    var filtered := if fi != -1 then Sequences.Splice1(t.table.filtered, fi) else t.table.filtered;
    t.(table := Table.Refresh(t.table.(data := data, filtered := filtered)),
       selection := t.selection.(selected := t.selection.selected - {id}),
       limit := t.limit - 1,
       changed := true)
  }

  lemma RemoveUnique(rows: seq<Row>, i: nat)
    requires UniqueKeys(rows) && i < |rows|
    ensures UniqueKeys(rows[..i] + rows[i + 1..])
    ensures Selection.Keys(rows[..i] + rows[i + 1..]) == Selection.Keys(rows) - {rows[i].key}
  {
    var r := rows[..i] + rows[i + 1..];
    forall k | k in Selection.Keys(rows) - {rows[i].key} ensures k in Selection.Keys(r) {
      var j :| 0 <= j < |rows| && rows[j].key == k;
      if j < i { assert r[j] == rows[j]; } else { assert r[j - 1] == rows[j]; }
    }
    forall k | k in Selection.Keys(r) ensures k in Selection.Keys(rows) - {rows[i].key} {
      var j :| 0 <= j < |r| && r[j].key == k;
      if j < i { assert r[j] == rows[j]; } else { assert r[j] == rows[j + 1]; }
    }
  }

  /** A transferred row leaves the data, the filtered rows and the selection
      exactly once: every other row stays, in order. */
  lemma TransferRemovesRowOnce(t: ItemTable, id: int)
    requires UniqueKeys(t.table.data) && UniqueKeys(t.table.filtered)
    requires id in Selection.Keys(t.table.data)
    ensures var r := CompleteTransfer(t, id);
      && Selection.Keys(r.table.data) == Selection.Keys(t.table.data) - {id}
      && Selection.Keys(r.table.filtered) == Selection.Keys(t.table.filtered) - {id}
      && |r.table.data| == |t.table.data| - 1
      && UniqueKeys(r.table.data) && UniqueKeys(r.table.filtered)
      && id !in r.selection.selected
  {
    TransferRows(t, id);
    RemoveKey(t.table.data, id);
    RemoveKey(t.table.filtered, id);
  }

  /** The rows a transfer leaves, as splices of the old ones. */
  lemma TransferRows(t: ItemTable, id: int)
    ensures var r := CompleteTransfer(t, id);
      var fi := KeyIndex(t.table.filtered, id);
      && r.table.data == Sequences.Splice1(t.table.data, KeyIndex(t.table.data, id))
      && r.table.filtered == (if fi != -1 then Sequences.Splice1(t.table.filtered, fi) else t.table.filtered)
      && id !in r.selection.selected
  {
  }

  /** Splicing out the row with a present id, when there is one, removes
      exactly that id. */
  lemma RemoveKey(rows: seq<Row>, id: int)
    requires UniqueKeys(rows)
    ensures var i := KeyIndex(rows, id);
      var r := if i != -1 then Sequences.Splice1(rows, i) else rows;
      && Selection.Keys(r) == Selection.Keys(rows) - {id}
      && UniqueKeys(r)
      && (i != -1 ==> |r| == |rows| - 1)
  {
    var i := KeyIndex(rows, id);
    if i != -1 {
      RemoveUnique(rows, i);
    }
  }

  /** As written, completing an id absent from the data splices out the
      data's last row (`splice(-1, 1)`); the task only completes ids it
      found in the data, so this path is not taken. */
  lemma MissingIdDropsLastRow(t: ItemTable, id: int)
    requires id !in Selection.Keys(t.table.data) && |t.table.data| > 0
    ensures CompleteTransfer(t, id).table.data == t.table.data[..|t.table.data| - 1]
  {
  }

  /** What one attempt of the storage call observed: whether the worker was
      cancelled at the top of the loop, the call's outcome, and whether the
      worker was cancelled when the error was caught. */
  datatype CallResult = Moved | Threw(code: int)
  datatype Attempt = Attempt(cancelledBefore: bool, result: CallResult, cancelledInCatch: bool)

  /** Abandoned: returned without changes. Failed: cancelled the worker and
      reported the error. Transferred: ran the success bookkeeping. */
  datatype Outcome = Abandoned | Failed | Transferred
  datatype TaskRun = TaskRun(outcome: Outcome, calls: nat)

  const MAX_ATTEMPTS: nat := 3

  /** A caught error is retried when the worker is cancelled, or on a
      timeout (504) before the last attempt. */
  predicate Retries(a: Attempt, attempt: nat) {
    a.result.Threw? && (a.cancelledInCatch || (a.result.code == 504 && attempt < MAX_ATTEMPTS))
  }

  /** The attempt loop of a transfer task as written: leaving the loop by
      exhausting the attempts falls through to the success bookkeeping. */
  function TaskAsWritten(env: nat -> Attempt, attempt: nat): (r: TaskRun)
    requires 1 <= attempt <= MAX_ATTEMPTS + 1
    ensures r.calls <= MAX_ATTEMPTS + 1 - attempt
    decreases MAX_ATTEMPTS + 1 - attempt
  {
    if attempt > MAX_ATTEMPTS then TaskRun(Transferred, 0)
    else if env(attempt).cancelledBefore then TaskRun(Abandoned, 0)
    else if env(attempt).result.Moved? then TaskRun(Transferred, 1)
    else if Retries(env(attempt), attempt) then
      var rest := TaskAsWritten(env, attempt + 1);
      TaskRun(rest.outcome, rest.calls + 1)
    else TaskRun(Failed, 1)
  }

  /** The worker is cancelled while the third attempt is in flight, and the
      third call fails: the task reports the row as transferred. */
  lemma CancelledLastAttemptCountsAsTransfer()
    ensures var env := (i: nat) => Attempt(false, Threw(504), i == 3);
      && TaskAsWritten(env, 1) == TaskRun(Transferred, 3)
      && (forall i :: 1 <= i <= 3 ==> env(i).result.Threw?)
  {
  }

  /** The attempt loop with the fall-through treated as abandonment. */
  function Task(env: nat -> Attempt, attempt: nat): (r: TaskRun)
    requires 1 <= attempt <= MAX_ATTEMPTS + 1
    ensures r.calls <= MAX_ATTEMPTS + 1 - attempt
    decreases MAX_ATTEMPTS + 1 - attempt
  {
    if attempt > MAX_ATTEMPTS then TaskRun(Abandoned, 0)
    else if env(attempt).cancelledBefore then TaskRun(Abandoned, 0)
    else if env(attempt).result.Moved? then TaskRun(Transferred, 1)
    else if Retries(env(attempt), attempt) then
      var rest := Task(env, attempt + 1);
      TaskRun(rest.outcome, rest.calls + 1)
    else TaskRun(Failed, 1)
  }

  /** The retry policy: at most three calls; every call before the last
      one threw and was retried; a transfer is counted only when the last
      call moved the item; a failure is an error that was not retried. */
  lemma {:induction false} TaskPolicy(env: nat -> Attempt, attempt: nat)
    requires 1 <= attempt <= MAX_ATTEMPTS + 1
    ensures var r := Task(env, attempt);
      && r.calls <= MAX_ATTEMPTS + 1 - attempt
      && (forall j :: attempt <= j < attempt + r.calls - 1 ==> Retries(env(j), j))
      && (r.outcome == Transferred ==> r.calls >= 1 && env(attempt + r.calls - 1).result == Moved)
      && (r.outcome == Failed ==>
            r.calls >= 1 && env(attempt + r.calls - 1).result.Threw?
            && !Retries(env(attempt + r.calls - 1), attempt + r.calls - 1))
    decreases MAX_ATTEMPTS + 1 - attempt
  {
    if attempt <= MAX_ATTEMPTS && !env(attempt).cancelledBefore && !env(attempt).result.Moved?
       && Retries(env(attempt), attempt) {
      TaskPolicy(env, attempt + 1);
    }
  }
}

=== FILE: market_asset.dfy ===
/** A market listing's asset (cs2/items/assets/market_asset.js): its
    classification, inspect link, property lookup and the once-per-page
    guard of the item page's wear panel. */
module MarketAsset {
  import opened Wrappers
  import Sequences
  import Strings
  import Asset
  import InventoryAsset

  /** The parts of a market asset record the class reads. */
  datatype MarketRecord = MarketRecord(
    id: string, descriptions: seq<InventoryAsset.Description>,
    marketActions: seq<InventoryAsset.Action>, properties: Option<seq<InventoryAsset.Property>>)

  /** Wearable exactly when some description is the exterior wear;
      otherwise the type stays unset. */
  function Classify(a: MarketRecord): (r: Option<Asset.AssetType>)
    ensures r == Some(Asset.Wearable) <==> exists j :: 0 <= j < |a.descriptions| && a.descriptions[j].name == "exterior_wear"
    ensures r.None? || r == Some(Asset.Wearable)
  {
    if Sequences.First(a.descriptions, (d: InventoryAsset.Description) => d.name == "exterior_wear").Some?
    then Some(Asset.Wearable) else None
  }

  /** The inspect link of a wearable: the first action linking into the
      game, with the first `%assetid%` replaced by the asset id. */
  function InspectLink(t: Option<Asset.AssetType>, a: MarketRecord): (r: Option<string>)
    ensures t != Some(Asset.Wearable) ==> r.None?
    ensures t == Some(Asset.Wearable) ==>
      (r.None? <==> forall j :: 0 <= j < |a.marketActions| ==> !InventoryAsset.InspectAction(a.marketActions[j]))
    ensures r.Some? ==> exists i :: (0 <= i < |a.marketActions| && InventoryAsset.InspectAction(a.marketActions[i])
      && (forall j :: 0 <= j < i ==> !InventoryAsset.InspectAction(a.marketActions[j]))
      && r.value == Strings.ReplaceFirst(a.marketActions[i].link, "%assetid%", a.id))
  {
    if t != Some(Asset.Wearable) then None
    else match Sequences.First(a.marketActions, InventoryAsset.InspectAction)
      case None => None
      case Some(x) => Some(Strings.ReplaceFirst(x.link, "%assetid%", a.id))
  }

  /** `GetProperty(id)`: the same lookup as the inventory asset's. */
  function GetProperty(a: MarketRecord, id: int): (r: Option<InventoryAsset.Property>)
    ensures a.properties.None? ==> r.None?
    ensures r.Some? ==> r.value.propertyid == id && r.value in a.properties.value
    ensures a.properties.Some? && r.None? ==> forall j :: 0 <= j < |a.properties.value| ==> a.properties.value[j].propertyid != id
    ensures r.Some? ==> exists i :: (0 <= i < |a.properties.value| && a.properties.value[i] == r.value
      && forall j :: 0 <= j < i ==> a.properties.value[j].propertyid != id)
  {
    InventoryAsset.GetProperty(a.properties, id)
  }

  /** One call of `#BuildItemPageUI`: whether the item has wear and a
      paint seed, and whether the page has the description element. */
  datatype PageCall = PageCall(hasWearAndSeed: bool, found: bool)

  /** `#BuildItemPageUI`: the page-wide flag turns every call after the
      first away; the first call sets it whatever happens next, and adds
      the wear range only for an item with wear and a seed on a page with
      the description element. Returns the new flag and whether this call
      built the panel. */
  function BuildItemPage(built: bool, call: PageCall): (r: (bool, bool))
    ensures r.0
    ensures r.1 <==> !built && call.hasWearAndSeed && call.found
  {
    if built then (true, false)
    else if call.hasWearAndSeed && call.found then (true, true)
    else (true, false)
  }

  /** The number of calls, out of `calls` in a row, that build the panel. */
  function BuildsOver(built: bool, calls: seq<PageCall>): nat
    decreases |calls|
  {
    if |calls| == 0 then 0
    else
      var (next, builds) := BuildItemPage(built, calls[0]);
      (if builds then 1 else 0) + BuildsOver(next, calls[1..])
  }

  /** However often it is called, the panel is built at most once per
      page, and only by the page's first call: a first call without wear
      and seed, or without the element, leaves the page without a panel
      for good. */
  lemma {:induction false} BuiltAtMostOnce(built: bool, calls: seq<PageCall>)
    ensures BuildsOver(built, calls) <= 1
    ensures BuildsOver(built, calls) == 1 <==> !built && |calls| > 0 && calls[0].hasWearAndSeed && calls[0].found
    decreases |calls|
  {
    if |calls| > 0 {
      BuiltAtMostOnce(true, calls[1..]);
    }
  }
}

=== FILE: rows.dfy ===
/** Table rows and the multi-column comparator of the sort engine
    (components/table.js `_SortRows` and its copy in store_table.js).
    A row is a JavaScript object: a map from field name to value, where a
    missing field is `undefined`. */
module Rows {
  import opened Wrappers
  import Strings
  import Sorting
  import Sequences

  datatype Value = Num(n: real) | Str(s: string) | Bool(b: bool)

  /** `key` is the row's identity (the asset id of an inventory row, the
      position in the default order of a store row). */
  datatype Row = Row(key: int, fields: map<string, Value>)

  datatype Direction = Asc | Desc

  /** `row[column]`, with `None` for `undefined`. */
  function Get(r: Row, column: string): Option<Value> {
    if column in r.fields then Some(r.fields[column]) else None
  }

  /** JavaScript truthiness of a possibly-undefined value. */
  predicate Truthy(v: Option<Value>) {
    match v
    case None => false
    case Some(Num(n)) => n != 0.0
    case Some(Str(s)) => s != ""
    case Some(Bool(b)) => b
  }

  function Sign(x: real): int {
    if x < 0.0 then -1 else if x > 0.0 then 1 else 0
  }

  function KindRank(v: Value): int {
    match v
    case Num(_) => 0
    case Str(_) => 1
    case Bool(_) => 2
  }

  /** Three-way order of two present values: numbers by subtraction, strings
      by the code-unit order standing for `localeCompare`, `false` before
      `true`; values of different kinds are ordered by kind. */
  function ValueCmp(a: Value, b: Value): (r: int)
    ensures -1 <= r <= 1
    ensures r == 0 <==> a == b
  {
    match (a, b)
    case (Num(x), Num(y)) => Sign(x - y)
    case (Str(x), Str(y)) => Strings.Cmp(x, y)
    case (Bool(x), Bool(y)) => if x == y then 0 else if !x then -1 else 1
    case _ => if KindRank(a) < KindRank(b) then -1 else 1
  }

  lemma ValueCmpAntisymmetric(a: Value, b: Value)
    ensures ValueCmp(a, b) == -ValueCmp(b, a)
  {
    if a.Str? && b.Str? {
      Strings.CmpAntisymmetric(a.s, b.s);
    }
  }

  lemma ValueCmpTransitive(a: Value, b: Value, c: Value)
    requires ValueCmp(a, b) < 0 && ValueCmp(b, c) < 0
    ensures ValueCmp(a, c) < 0
  {
    if a.Str? && b.Str? && c.Str? {
      Strings.CmpTransitive(a.s, b.s, c.s);
    }
  }

  /** One column of the comparator: equal cells tie, an undefined cell
      sorts after a defined one whatever the direction, and a descending
      comparison is the ascending one with its operands swapped. */
  function CellCmp(a: Option<Value>, b: Option<Value>, dir: Direction): (r: int)
    ensures -1 <= r <= 1
    ensures r == 0 <==> a == b
  {
    if a == b then 0
    else if a.None? then 1
    else if b.None? then -1
    else if dir == Asc then ValueCmp(a.value, b.value)
    else ValueCmp(b.value, a.value)
  }

  lemma CellCmpAntisymmetric(a: Option<Value>, b: Option<Value>, dir: Direction)
    ensures CellCmp(a, b, dir) == -CellCmp(b, a, dir)
  {
    if a.Some? && b.Some? {
      ValueCmpAntisymmetric(a.value, b.value);
    }
  }

  lemma CellCmpTransitive(a: Option<Value>, b: Option<Value>, c: Option<Value>, dir: Direction)
    requires CellCmp(a, b, dir) < 0 && CellCmp(b, c, dir) < 0
    ensures CellCmp(a, c, dir) < 0
  {
    if a.Some? && b.Some? && c.Some? {
      if dir == Asc {
        ValueCmpTransitive(a.value, b.value, c.value);
      } else {
        ValueCmpTransitive(c.value, b.value, a.value);
      }
      if a == c {
        ValueCmpAntisymmetric(a.value, b.value);
      }
    }
  }

  /** The row comparator: the first column whose cells differ decides;
      rows equal on every column compare as 0. */
  function Compare(a: Row, b: Row, columns: seq<string>, dir: Direction): (r: int)
    ensures -1 <= r <= 1
  {
    if |columns| == 0 then 0
    else
      var c := CellCmp(Get(a, columns[0]), Get(b, columns[0]), dir);
      if c != 0 then c else Compare(a, b, columns[1..], dir)
  }

  /** Two rows agree on the first `i` columns. */
  predicate AgreeUpTo(a: Row, b: Row, columns: seq<string>, i: nat)
    requires i <= |columns|
  {
    forall k :: 0 <= k < i ==> Get(a, columns[k]) == Get(b, columns[k])
  }

  /** Rows tie exactly when they agree on every column. */
  lemma {:induction false} CompareZeroIff(a: Row, b: Row, columns: seq<string>, dir: Direction)
    ensures Compare(a, b, columns, dir) == 0 <==> AgreeUpTo(a, b, columns, |columns|)
  {
    if |columns| > 0 {
      CompareZeroIff(a, b, columns[1..], dir);
      assert AgreeUpTo(a, b, columns, |columns|) <==>
        Get(a, columns[0]) == Get(b, columns[0]) && AgreeUpTo(a, b, columns[1..], |columns| - 1);
    }
  }

  /** When the rows agree before column `i` and differ at it, column `i`
      alone decides the comparison. */
  lemma {:induction false} FirstDifferenceDecides(a: Row, b: Row, columns: seq<string>, dir: Direction, i: nat)
    requires i < |columns| && AgreeUpTo(a, b, columns, i)
    requires Get(a, columns[i]) != Get(b, columns[i])
    ensures Compare(a, b, columns, dir) == CellCmp(Get(a, columns[i]), Get(b, columns[i]), dir)
  {
    if i > 0 {
      assert Get(a, columns[0]) == Get(b, columns[0]);
      assert AgreeUpTo(a, b, columns[1..], i - 1);
      FirstDifferenceDecides(a, b, columns[1..], dir, i - 1);
    }
  }

  /** An undefined cell in the deciding column puts its row last, in both
      directions. */
  lemma UndefinedSortsLast(a: Row, b: Row, columns: seq<string>, dir: Direction, i: nat)
    requires i < |columns| && AgreeUpTo(a, b, columns, i)
    requires Get(a, columns[i]).None? && Get(b, columns[i]).Some?
    ensures Compare(a, b, columns, dir) == 1
    ensures Compare(b, a, columns, dir) == -1
  {
    FirstDifferenceDecides(a, b, columns, dir, i);
    assert AgreeUpTo(b, a, columns, i);
    FirstDifferenceDecides(b, a, columns, dir, i);
  }

  /** Rows that define every sort column: descending is ascending with the
      operands swapped. */
  lemma {:induction false} DescendingIsSwappedAscending(a: Row, b: Row, columns: seq<string>)
    requires forall k :: 0 <= k < |columns| ==> Get(a, columns[k]).Some? && Get(b, columns[k]).Some?
    ensures Compare(a, b, columns, Desc) == Compare(b, a, columns, Asc)
  {
    if |columns| > 0 {
      DescendingIsSwappedAscending(a, b, columns[1..]);
    }
  }

  lemma {:induction false} CompareAntisymmetric(a: Row, b: Row, columns: seq<string>, dir: Direction)
    ensures Compare(a, b, columns, dir) == -Compare(b, a, columns, dir)
  {
    if |columns| > 0 {
      CellCmpAntisymmetric(Get(a, columns[0]), Get(b, columns[0]), dir);
      CompareAntisymmetric(a, b, columns[1..], dir);
    }
  }

  lemma {:induction false} CompareTransitive(a: Row, b: Row, c: Row, columns: seq<string>, dir: Direction)
    requires Compare(a, b, columns, dir) <= 0 && Compare(b, c, columns, dir) <= 0
    ensures Compare(a, c, columns, dir) <= 0
  {
    if |columns| > 0 {
      var x, y, z := Get(a, columns[0]), Get(b, columns[0]), Get(c, columns[0]);
      if x == y && y == z {
        CompareTransitive(a, b, c, columns[1..], dir);
      } else if x != y && y != z {
        CellCmpTransitive(x, y, z, dir);
      }
    }
  }

  /** The comparator handed to the sort, for fixed columns and direction. */
  function Order(columns: seq<string>, dir: Direction): (Row, Row) -> int {
    (a: Row, b: Row) => Compare(a, b, columns, dir)
  }

  lemma OrderIsTotalPreorder(columns: seq<string>, dir: Direction)
    ensures Sorting.TotalPreorder(Order(columns, dir))
  {
    var cmp := Order(columns, dir);
    forall a, b
      ensures cmp(a, b) > 0 <==> cmp(b, a) < 0
    {
      CompareAntisymmetric(a, b, columns, dir);
    }
    forall a, b, c | cmp(a, b) <= 0 && cmp(b, c) <= 0
      ensures cmp(a, c) <= 0
    {
      CompareTransitive(a, b, c, columns, dir);
    }
  }

  /** `rows.sort(comparator)`: a permutation of the rows in comparator order. */
  function SortRows(rows: seq<Row>, columns: seq<string>, dir: Direction): (r: seq<Row>)
    ensures multiset(r) == multiset(rows)
    ensures Sorting.Sorted(r, Order(columns, dir))
  {
    OrderIsTotalPreorder(columns, dir);
    Sorting.SortSorted(rows, Order(columns, dir));
    Sorting.SortBy(rows, Order(columns, dir))
  }

  /** The sort is stable: rows that tie with `y` on every sort column keep
      their relative order. */
  lemma SortRowsStable(rows: seq<Row>, columns: seq<string>, dir: Direction, y: Row)
    ensures Sequences.Filter(SortRows(rows, columns, dir), Sorting.Ties(Order(columns, dir), y))
      == Sequences.Filter(rows, Sorting.Ties(Order(columns, dir), y))
  {
    OrderIsTotalPreorder(columns, dir);
    Sorting.SortStable(rows, Order(columns, dir), y);
  }

  /** The comparator of one derived cell: the first-column case of
      `Compare`, for a key computed from the row. */
  function KeyOrder(key: Row -> Option<Value>, dir: Direction): (Row, Row) -> int {
    (a: Row, b: Row) => CellCmp(key(a), key(b), dir)
  }

  lemma KeyOrderIsTotalPreorder(key: Row -> Option<Value>, dir: Direction)
    ensures Sorting.TotalPreorder(KeyOrder(key, dir))
  {
    var cmp := KeyOrder(key, dir);
    forall a, b
      ensures cmp(a, b) > 0 <==> cmp(b, a) < 0
    {
      CellCmpAntisymmetric(key(a), key(b), dir);
    }
    forall a, b, c | cmp(a, b) <= 0 && cmp(b, c) <= 0
      ensures cmp(a, c) <= 0
    {
      var x, y, z := key(a), key(b), key(c);
      assert cmp(a, b) == CellCmp(x, y, dir) && cmp(b, c) == CellCmp(y, z, dir);
      assert cmp(a, c) == CellCmp(x, z, dir);
      if CellCmp(x, y, dir) < 0 && CellCmp(y, z, dir) < 0 {
        CellCmpTransitive(x, y, z, dir);
      }
    }
  }
}

=== FILE: selection.dfy ===
/** The item table's selection (components/item_table.js `#SelectItem`,
    `#SelectFirst`, `#DeselectAll`), its footer and its capacity limit.
    Rows are identified by their asset id, the row key. */
module Selection {
  import opened Wrappers
  import opened Rows
  import Sequences
  import Constants

  /** The selected ids, the anchor of shift-clicks (`#lastRowClicked`) and
      whether the last plain click added (`#lastRowSelected`). */
  datatype Selection = Selection(selected: set<int>, anchor: Option<Row>, lastAdded: Option<bool>)

  function Keys(rows: seq<Row>): set<int> {
    set r | r in rows :: r.key
  }

  /** `rows.indexOf(item)`. */
  function IndexOf(rows: seq<Row>, item: Row): (r: int)
    ensures -1 <= r < |rows|
    ensures r >= 0 ==> rows[r] == item
    ensures r == -1 <==> item !in rows
  {
    Sequences.FindIndex(rows, (x: Row) => x == item)
  }

  /** The ids of `rows[lo..hi]`, both ends included. */
  function RangeKeys(rows: seq<Row>, lo: int, hi: int): set<int>
    requires 0 <= lo && hi < |rows|
  {
    set i | lo <= i <= hi :: rows[i].key
  }

  /** The shift-click loop from `i` to `hi`: remove present ids when the
      last action removed, add ids when it added. */
  function ApplyRange(sel: set<int>, rows: seq<Row>, i: int, hi: int, add: bool): set<int>
    requires 0 <= i && hi < |rows|
    decreases hi - i + 1
  {
    if i > hi then sel
    else
      var k := rows[i].key;
      var next := if !add && k in sel then sel - {k} else if add then sel + {k} else sel;
      ApplyRange(next, rows, i + 1, hi, add)
  }

  /** The loop adds or removes exactly the ids of the range. */
  lemma {:induction false} ApplyRangeEffect(sel: set<int>, rows: seq<Row>, i: int, hi: int, add: bool)
    requires 0 <= i && hi < |rows|
    ensures ApplyRange(sel, rows, i, hi, add) ==
      if add then sel + RangeKeys(rows, i, hi) else sel - RangeKeys(rows, i, hi)
    decreases hi - i + 1
  {
    if i <= hi {
      var k := rows[i].key;
      var next := if !add && k in sel then sel - {k} else if add then sel + {k} else sel;
      ApplyRangeEffect(next, rows, i + 1, hi, add);
      assert RangeKeys(rows, i, hi) == {k} + RangeKeys(rows, i + 1, hi);
    } else {
      assert RangeKeys(rows, i, hi) == {};
    }
  }

  /** The conditions under which a shift-click does nothing. */
  predicate ShiftIgnored(s: Selection, filtered: seq<Row>, item: Row) {
    || s.anchor.None? || s.anchor == Some(item) || s.lastAdded.None?
    || s.anchor.value !in filtered || item !in filtered
  }

  /** `#SelectItem(event, item)`: a plain click toggles the row and anchors
      it; a shift-click repeats the last action over the rows between the
      anchor and the clicked row. */
  function SelectItem(s: Selection, filtered: seq<Row>, item: Row, shift: bool): (r: Selection)
    ensures !shift ==> r.anchor == Some(item) && r.lastAdded == Some(item.key !in s.selected)
    ensures !shift ==> forall k :: k != item.key ==> (k in r.selected <==> k in s.selected)
    ensures !shift ==> (item.key in r.selected <==> item.key !in s.selected)
    ensures shift && ShiftIgnored(s, filtered, item) ==> r == s
    ensures shift && !ShiftIgnored(s, filtered, item) ==>
      var a := IndexOf(filtered, s.anchor.value);
      var b := IndexOf(filtered, item);
      && r.anchor == Some(item) && r.lastAdded == s.lastAdded
      && r.selected == if s.lastAdded.value then s.selected + RangeKeys(filtered, Sequences.Min(a, b), Sequences.Max(a, b))
                       else s.selected - RangeKeys(filtered, Sequences.Min(a, b), Sequences.Max(a, b))
  {
    if shift then
      if s.anchor.None? || s.anchor == Some(item) || s.lastAdded.None? then s
      else
        var a := IndexOf(filtered, s.anchor.value);
        var b := IndexOf(filtered, item);
        if a < 0 || b < 0 then s
        else
          var lo := Sequences.Min(a, b);
          var hi := Sequences.Max(a, b);
          ApplyRangeEffect(s.selected, filtered, lo, hi, s.lastAdded.value);
          s.(selected := ApplyRange(s.selected, filtered, lo, hi, s.lastAdded.value), anchor := Some(item))
    else if item.key in s.selected then Selection(s.selected - {item.key}, Some(item), Some(false))
    else Selection(s.selected + {item.key}, Some(item), Some(true))
  }

  /** A shift-click leaves the ids outside its range alone, and includes
      both ends of the range whatever their order. */
  lemma ShiftClickRange(s: Selection, filtered: seq<Row>, item: Row, k: int)
    requires !ShiftIgnored(s, filtered, item)
    ensures var r := SelectItem(s, filtered, item, true);
      var a := IndexOf(filtered, s.anchor.value);
      var b := IndexOf(filtered, item);
      && (k !in RangeKeys(filtered, Sequences.Min(a, b), Sequences.Max(a, b)) ==> (k in r.selected <==> k in s.selected))
      && (s.lastAdded == Some(true) ==> item.key in r.selected && s.anchor.value.key in r.selected)
      && (s.lastAdded == Some(false) ==> item.key !in r.selected && s.anchor.value.key !in r.selected)
  {
    var a := IndexOf(filtered, s.anchor.value);
    var b := IndexOf(filtered, item);
    assert filtered[a].key in RangeKeys(filtered, Sequences.Min(a, b), Sequences.Max(a, b));
    assert filtered[b].key in RangeKeys(filtered, Sequences.Min(a, b), Sequences.Max(a, b));
  }

  /** Two plain clicks on the same row restore the selected set. */
  lemma PlainClickTwiceRestores(s: Selection, filtered: seq<Row>, item: Row)
    ensures SelectItem(SelectItem(s, filtered, item, false), filtered, item, false).selected == s.selected
  {
  }

  /** `#SelectFirst(count)`: add the ids of the first `count` filtered rows
      and forget the anchor. */
  method SelectFirst(s: Selection, filtered: seq<Row>, count: nat) returns (r: Selection)
    ensures r.selected == s.selected + (set i | 0 <= i < Sequences.Min(count, |filtered|) :: filtered[i].key)
    ensures r.anchor.None? && r.lastAdded == s.lastAdded
  {
    var selected := s.selected;
    var i := 0;
    while i < count && i < |filtered|
      invariant 0 <= i <= Sequences.Min(count, |filtered|)
      invariant selected == s.selected + (set j | 0 <= j < i :: filtered[j].key)
    {
      if filtered[i].key !in selected {
        selected := selected + {filtered[i].key};
      }
      assert (set j | 0 <= j < i + 1 :: filtered[j].key) == (set j | 0 <= j < i :: filtered[j].key) + {filtered[i].key};
      i := i + 1;
    }
    r := Selection(selected, None, s.lastAdded);
  }

  /** `#DeselectAll`: remove the id of every row of the table's data and
      forget the anchor; ids of rows no longer in the data stay. */
  method DeselectAll(s: Selection, data: seq<Row>) returns (r: Selection)
    ensures r.selected == s.selected - Keys(data)
    ensures r.anchor.None? && r.lastAdded == s.lastAdded
  {
    var selected := s.selected;
    var i := 0;
    while i < |data|
      invariant 0 <= i <= |data|
      invariant selected == s.selected - Keys(data[..i])
    {
      if data[i].key in selected {
        selected := selected - {data[i].key};
      }
      assert Keys(data[..i + 1]) == Keys(data[..i]) + {data[i].key} by {
        assert data[..i + 1] == data[..i] + [data[i]];
      }
      i := i + 1;
    }
    assert data[..|data|] == data;
    r := Selection(selected, None, s.lastAdded);
  }

  /** The footer's proceed button and the visibility of the clear button. */
  datatype Footer = Footer(disabled: bool, tooltip: Option<string>, clearShown: bool)

  /** `_UpdateFooter`: the selection size is compared with the limit but
      never trimmed to it. */
  function UpdateFooter(size: nat, limit: int): (f: Footer)
    ensures f.disabled <==> size == 0 || size > limit
    ensures f.disabled <==> f.tooltip.Some?
    ensures f.clearShown <==> size > 0
  {
    if size <= 0 then Footer(true, Some("No items selected"), false)
    else if size > limit then Footer(true, Some("Too many items selected"), true)
    else Footer(false, None, true)
  }

  datatype Mode = Store | Retrieve

  /** Retrieving: room in the inventory, counting only items without a
      trade-protection escrow date. */
  function RetrieveLimit(inventory: seq<Row>): (limit: int)
    ensures limit <= Constants.INVENTORY_ITEM_LIMIT
  {
    Constants.INVENTORY_ITEM_LIMIT - |Sequences.Filter(inventory, Unprotected())|
  }

  /** The items without a trade-protection escrow date. */
  function Unprotected(): Row -> bool {
    (x: Row) => Get(x, "attributes.trade protected escrow date").None?
  }

  /** The retrieve limit and the number of inventory positions holding an
      unprotected item add up to the inventory limit. */
  lemma RetrieveLimitCounts(inventory: seq<Row>)
    ensures RetrieveLimit(inventory)
      + |set i | 0 <= i < |inventory| && Get(inventory[i], "attributes.trade protected escrow date").None?|
      == Constants.INVENTORY_ITEM_LIMIT
  {
    Sequences.FilterCounts(inventory, Unprotected());
    assert Sequences.Positions(inventory, Unprotected())
      == set i | 0 <= i < |inventory| && Get(inventory[i], "attributes.trade protected escrow date").None?;
  }

  /** Storing: room in the storage unit `casket`. */
  function StoreLimit(stored: seq<Row>, casket: Value): (limit: int)
    ensures limit <= Constants.STORAGE_UNIT_ITEM_LIMIT
  {
    Constants.STORAGE_UNIT_ITEM_LIMIT - |Sequences.Filter(stored, InCasket(casket))|
  }

  /** The stored items already in the storage unit `casket`. */
  function InCasket(casket: Value): Row -> bool {
    (x: Row) => Get(x, "casket_id") == Some(casket)
  }

  /** The store limit and the number of stored positions holding an item
      of this storage unit add up to the storage-unit limit. */
  lemma StoreLimitCounts(stored: seq<Row>, casket: Value)
    ensures StoreLimit(stored, casket)
      + |set i | 0 <= i < |stored| && Get(stored[i], "casket_id") == Some(casket)|
      == Constants.STORAGE_UNIT_ITEM_LIMIT
  {
    Sequences.FilterCounts(stored, InCasket(casket));
    assert Sequences.Positions(stored, InCasket(casket))
      == set i | 0 <= i < |stored| && Get(stored[i], "casket_id") == Some(casket);
  }

  /** The status callback: in retrieve mode with a reported unprotected
      inventory size the limit becomes the room left; otherwise unchanged. */
  function OnStatusUpdate(mode: Mode, limit: int, unprotectedSize: Option<int>): (r: int)
    ensures mode == Store || unprotectedSize.None? ==> r == limit
    ensures mode == Retrieve && unprotectedSize.Some? ==> r + unprotectedSize.value == Constants.INVENTORY_ITEM_LIMIT
  {
    if mode != Retrieve || unprotectedSize.None? then limit
    else Constants.INVENTORY_ITEM_LIMIT - unprotectedSize.value
  }
}

=== FILE: sequences.dfy ===
/** Sequence operations with the semantics of the JavaScript array methods
    the source uses: `filter`, `findIndex`, `splice(i, 1)` and the
    `Array.from({ length: ceil(n / k) }, ...)` chunking idiom. */
module Sequences {
  import opened Wrappers

  /** `s.filter(keep)`: the order-preserving subsequence of passing elements. */
  function Filter<T(!new)>(s: seq<T>, keep: T -> bool): (r: seq<T>)
    ensures |r| <= |s|
    ensures forall k :: 0 <= k < |r| ==> keep(r[k])
  {
    if |s| == 0 then []
    else if keep(s[0]) then [s[0]] + Filter(s[1..], keep)
    else Filter(s[1..], keep)
  }

  /** The filtered sequence holds exactly the passing elements. */
  lemma {:induction false} FilterMembers<T(!new)>(s: seq<T>, keep: T -> bool)
    ensures forall x :: x in Filter(s, keep) <==> x in s && keep(x)
  {
    if |s| > 0 {
      FilterMembers(s[1..], keep);
      assert s == [s[0]] + s[1..];
    }
  }

  /** Filtering a sequence with a first element `a`. */
  lemma FilterCons<T(!new)>(a: T, s: seq<T>, keep: T -> bool)
    ensures Filter([a] + s, keep) == (if keep(a) then [a] else []) + Filter(s, keep)
  {
    assert ([a] + s)[1..] == s;
  }

  /** Some element satisfies `p` exactly when some element of `init`, the
      sequence without its last element, does, or the last one does. */
  lemma ExistsSnoc<T>(s: seq<T>, init: seq<T>, p: T -> bool)
    requires |s| > 0 && init == s[..|s| - 1]
    ensures (exists i :: 0 <= i < |s| && p(s[i])) <==>
      (exists i :: 0 <= i < |init| && p(init[i])) || p(s[|s| - 1])
  {
    if exists i :: 0 <= i < |s| && p(s[i]) {
      var i :| 0 <= i < |s| && p(s[i]);
      if i < |init| {
        assert init[i] == s[i];
      }
    }
    if exists i :: 0 <= i < |init| && p(init[i]) {
      var i :| 0 <= i < |init| && p(init[i]);
      assert s[i] == init[i];
    }
  }

  /** Filtering twice with the same predicate is filtering once. */
  lemma {:induction false} FilterIdempotent<T(!new)>(s: seq<T>, keep: T -> bool)
    ensures Filter(Filter(s, keep), keep) == Filter(s, keep)
  {
    if |s| > 0 {
      FilterIdempotent(s[1..], keep);
      if keep(s[0]) {
        assert Filter(s, keep)[1..] == Filter(s[1..], keep);
      }
    }
  }

  /** Filtering keeps the elements' multiset restricted to passing ones. */
  lemma {:induction false} FilterMultiset<T(!new)>(s: seq<T>, keep: T -> bool, x: T)
    ensures multiset(Filter(s, keep))[x] == if keep(x) then multiset(s)[x] else 0
  {
    if |s| > 0 {
      FilterMultiset(s[1..], keep, x);
      assert s == [s[0]] + s[1..];
    }
  }

  /** Filtering a concatenation filters each part. */
  lemma {:induction false} FilterConcat<T(!new)>(a: seq<T>, b: seq<T>, keep: T -> bool)
    ensures Filter(a + b, keep) == Filter(a, keep) + Filter(b, keep)
  {
    if |a| > 0 {
      FilterConcat(a[1..], b, keep);
      var ab := a + b;
      assert ab[0] == a[0] && ab[1..] == a[1..] + b;
      if keep(a[0]) {
        calc {
          Filter(ab, keep);
          [a[0]] + Filter(a[1..] + b, keep);
          [a[0]] + (Filter(a[1..], keep) + Filter(b, keep));
          ([a[0]] + Filter(a[1..], keep)) + Filter(b, keep);
        }
      }
    } else {
      assert a + b == b;
    }
  }

  /** The length of a filtered prefix is the number of passing positions in it. */
  lemma {:induction false} FilterCountsPositions<T(!new)>(s: seq<T>, keep: T -> bool, n: nat)
    requires n <= |s|
    ensures |Filter(s[..n], keep)| == |set i | 0 <= i < n && keep(s[i])|
  {
    if n > 0 {
      FilterCountsPositions(s, keep, n - 1);
      assert s[..n] == s[..n - 1] + [s[n - 1]];
      FilterConcat(s[..n - 1], [s[n - 1]], keep);
      var before := set i | 0 <= i < n - 1 && keep(s[i]);
      var after := set i | 0 <= i < n && keep(s[i]);
      assert n - 1 !in before;
      assert after == before + (if keep(s[n - 1]) then {n - 1} else {});
    }
  }

  /** The positions of `s` whose element passes `keep`. */
  function Positions<T>(s: seq<T>, keep: T -> bool): set<int> {
    set i | 0 <= i < |s| && keep(s[i])
  }

  /** The length of a filtered sequence is the number of passing positions. */
  lemma FilterCounts<T(!new)>(s: seq<T>, keep: T -> bool)
    ensures |Filter(s, keep)| == |Positions(s, keep)|
  {
    FilterCountsPositions(s, keep, |s|);
    assert s[..|s|] == s;
    assert Positions(s, keep) == set i | 0 <= i < |s| && keep(s[i]);
  }

  /** Predicates that agree on the elements filter alike. */
  lemma {:induction false} FilterCongruent<T(!new)>(s: seq<T>, p: T -> bool, q: T -> bool)
    requires forall k :: 0 <= k < |s| ==> p(s[k]) == q(s[k])
    ensures Filter(s, p) == Filter(s, q)
  {
    if |s| > 0 {
      FilterCongruent(s[1..], p, q);
      assert p(s[0]) == q(s[0]);
    }
  }

  /** The measure `f` strictly increases along `s`. */
  predicate Increasing<T>(s: seq<T>, f: T -> real) {
    forall i, j :: 0 <= i < j < |s| ==> f(s[i]) < f(s[j])
  }

  /** In an increasing sequence, the head is below every later element
      that survives the filter. */
  lemma HeadBelowRest<T(!new)>(s: seq<T>, keep: T -> bool, f: T -> real, x: T)
    requires |s| > 0 && Increasing(s, f) && x in Filter(s[1..], keep)
    ensures f(s[0]) < f(x)
  {
    FilterMembers(s[1..], keep);
    var q :| 0 <= q < |s[1..]| && s[1..][q] == x;
    assert s[q + 1] == x;
  }

  /** Filtering keeps a strictly increasing measure strictly increasing. */
  lemma {:induction false} FilterKeepsIncreasing<T(!new)>(s: seq<T>, keep: T -> bool, f: T -> real)
    requires Increasing(s, f)
    ensures Increasing(Filter(s, keep), f)
  {
    if |s| > 0 {
      assert Increasing(s[1..], f);
      FilterKeepsIncreasing(s[1..], keep, f);
      var rest := Filter(s[1..], keep);
      if keep(s[0]) {
        var r := Filter(s, keep);
        assert r == [s[0]] + rest;
        forall j | 0 <= j < |rest| ensures f(s[0]) < f(rest[j]) {
          HeadBelowRest(s, keep, f, rest[j]);
        }
        forall i, j | 0 <= i < j < |r| ensures f(r[i]) < f(r[j]) {
          assert r[j] == rest[j - 1];
          if i > 0 {
            assert r[i] == rest[i - 1];
          }
        }
      } else {
        assert Filter(s, keep) == rest;
      }
    }
  }

  /** `s.findIndex(p)`: the first index satisfying `p`, or -1. */
  function FindIndex<T>(s: seq<T>, p: T -> bool): (r: int)
    ensures -1 <= r < |s|
    ensures r >= 0 ==> p(s[r]) && forall j :: 0 <= j < r ==> !p(s[j])
    ensures r == -1 <==> forall j :: 0 <= j < |s| ==> !p(s[j])
  {
    if |s| == 0 then -1
    else if p(s[0]) then 0
    else var k := FindIndex(s[1..], p); if k == -1 then -1 else k + 1
  }

  /** `for (const x of s) if (p(x)) return x;`: the first element
      satisfying `p`, or nothing. */
  function First<T>(s: seq<T>, p: T -> bool): (r: Option<T>)
    ensures r.None? <==> forall j :: 0 <= j < |s| ==> !p(s[j])
    ensures r.Some? ==> exists i :: 0 <= i < |s| && s[i] == r.value && p(s[i]) && forall j :: 0 <= j < i ==> !p(s[j])
  {
    var i := FindIndex(s, p);
    if i == -1 then None else Some(s[i])
  }

  /** `s.splice(i, 1)`: a negative index counts from the end (so -1 drops
      the last element) and an index past the end removes nothing. */
  function Splice1<T>(s: seq<T>, i: int): (r: seq<T>)
    ensures 0 <= i < |s| ==> r == s[..i] + s[i + 1..]
    ensures i == -1 && |s| > 0 ==> r == s[..|s| - 1]
  {
    var start := if i < 0 then (if |s| + i < 0 then 0 else |s| + i) else i;
    if start < |s| then s[..start] + s[start + 1..] else s
  }

  lemma RemoveAtMultiset<T>(s: seq<T>, i: nat)
    requires i < |s|
    ensures multiset(s[..i] + s[i + 1..]) == multiset(s) - multiset{s[i]}
  {
    assert s == s[..i] + [s[i]] + s[i + 1..];
  }

  // ---- chunking ----

  function CeilDiv(n: nat, k: nat): nat
    requires k > 0
  {
    (n + k - 1) / k
  }

  function Min(a: int, b: int): int { if a < b then a else b }
  function Max(a: int, b: int): int { if a > b then a else b }

  /** `Array.from({ length: ceil(|s| / k) }, (_, i) => s.slice(i * k, (i + 1) * k))`. */
  function Chunk<T>(s: seq<T>, k: nat): (r: seq<seq<T>>)
    requires k > 0
    ensures |r| == CeilDiv(|s|, k)
  {
    seq(CeilDiv(|s|, k), i requires 0 <= i => s[Min(i * k, |s|)..Min((i + 1) * k, |s|)])
  }

  function Flatten<T>(cs: seq<seq<T>>): seq<T> {
    if |cs| == 0 then [] else Flatten(cs[..|cs| - 1]) + cs[|cs| - 1]
  }

  lemma CeilDivBounds(n: nat, k: nat)
    requires k > 0
    ensures CeilDiv(n, k) * k >= n
    ensures CeilDiv(n, k) > 0 ==> (CeilDiv(n, k) - 1) * k < n
  {
    var m := CeilDiv(n, k);
    assert (n + k - 1) == m * k + (n + k - 1) % k;
  }

  lemma MulMono(a: nat, b: nat, k: nat)
    requires a <= b
    ensures a * k <= b * k
  {
  }

  lemma {:induction false} FlattenPrefix<T>(s: seq<T>, k: nat, m: nat)
    requires k > 0 && m <= CeilDiv(|s|, k)
    ensures Flatten(Chunk(s, k)[..m]) == s[..Min(m * k, |s|)]
  {
    if m > 0 {
      FlattenPrefix(s, k, m - 1);
      MulMono(m - 1, m, k);
      FlattenStep(s, k, m, (m - 1) * k);
    }
  }

  /** Appending the `m`-th chunk, which starts at `a`, extends the flattened
      prefix by one chunk. */
  lemma FlattenStep<T>(s: seq<T>, k: nat, m: nat, a: nat)
    requires k > 0 && 0 < m <= CeilDiv(|s|, k) && a == (m - 1) * k
    requires Flatten(Chunk(s, k)[..m - 1]) == s[..Min(a, |s|)]
    ensures Flatten(Chunk(s, k)[..m]) == s[..Min(a + k, |s|)]
  {
    FlattenSnoc(Chunk(s, k), m);
    ChunkLast(s, k, m);
    assert a + k == m * k;
    PrefixConcat(s, a, Min(a + k, |s|));
  }

  lemma FlattenSnoc<T>(cs: seq<seq<T>>, m: nat)
    requires 0 < m <= |cs|
    ensures Flatten(cs[..m]) == Flatten(cs[..m - 1]) + cs[m - 1]
  {
    assert cs[..m][..m - 1] == cs[..m - 1];
  }

  /** The `m`-th chunk starts at `(m - 1) * k`, inside the sequence. */
  lemma ChunkLast<T>(s: seq<T>, k: nat, m: nat)
    requires k > 0 && 0 < m <= CeilDiv(|s|, k)
    ensures Min((m - 1) * k, |s|) == (m - 1) * k <= Min(m * k, |s|)
    ensures Chunk(s, k)[m - 1] == s[(m - 1) * k..Min(m * k, |s|)]
  {
    CeilDivBounds(|s|, k);
    MulMono(m - 1, CeilDiv(|s|, k) - 1, k);
    MulMono(m - 1, m, k);
    assert (m - 1 + 1) * k == m * k;
  }

  lemma PrefixConcat<T>(s: seq<T>, a: int, b: int)
    requires 0 <= a <= b <= |s|
    ensures s[..a] + s[a..b] == s[..b]
  {
  }

  lemma ChunkSize<T>(s: seq<T>, k: nat, i: nat)
    requires k > 0 && i < CeilDiv(|s|, k)
    ensures 0 < |Chunk(s, k)[i]| <= k
  {
    var m := CeilDiv(|s|, k);
    CeilDivBounds(|s|, k);
    MulMono(i, m - 1, k);
    assert i * k < |s|;
    assert (i + 1) * k == i * k + k;
    assert Chunk(s, k)[i] == s[i * k..Min((i + 1) * k, |s|)];
  }

  /** The chunks, in order, concatenate back to the original sequence; every
      chunk is non-empty and holds at most `k` elements. */
  lemma ChunkProperties<T>(s: seq<T>, k: nat)
    requires k > 0
    ensures Flatten(Chunk(s, k)) == s
    ensures forall i :: 0 <= i < |Chunk(s, k)| ==> 0 < |Chunk(s, k)[i]| <= k
  {
    var m := CeilDiv(|s|, k);
    FlattenPrefix(s, k, m);
    assert Chunk(s, k)[..m] == Chunk(s, k);
    CeilDivBounds(|s|, k);
    assert Min(m * k, |s|) == |s|;
    forall i | 0 <= i < m
      ensures 0 < |Chunk(s, k)[i]| <= k
    {
      ChunkSize(s, k, i);
    }
  }
}

=== FILE: sorting.dfy ===
/** A stable sort over an arbitrary three-way comparator, standing for
    JavaScript's `Array.prototype.sort` (which is stable). */
module Sorting {
  import Sequences

  /** The comparator orders consistently: its sign flips with its operands
      and "not after" is transitive. */
  ghost predicate TotalPreorder<T(!new)>(cmp: (T, T) -> int) {
    && (forall a, b :: cmp(a, b) > 0 <==> cmp(b, a) < 0)
    && (forall a, b, c :: cmp(a, b) <= 0 && cmp(b, c) <= 0 ==> cmp(a, c) <= 0)
  }

  ghost predicate Sorted<T>(s: seq<T>, cmp: (T, T) -> int) {
    forall i, j :: 0 <= i < j < |s| ==> cmp(s[i], s[j]) <= 0
  }

  /** Inserts `x` before the first element it does not sort after. */
  function Insert<T>(x: T, s: seq<T>, cmp: (T, T) -> int): (r: seq<T>)
    ensures multiset(r) == multiset(s) + multiset{x}
    ensures |r| == |s| + 1
  {
    if |s| == 0 then [x]
    else if cmp(x, s[0]) <= 0 then [x] + s
    else
      assert s == [s[0]] + s[1..];
      [s[0]] + Insert(x, s[1..], cmp)
  }

  /** Insertion sort; earlier elements stay before equal later ones. */
  function SortBy<T>(s: seq<T>, cmp: (T, T) -> int): (r: seq<T>)
    ensures multiset(r) == multiset(s)
    ensures |r| == |s|
  {
    if |s| == 0 then []
    else
      assert s == [s[0]] + s[1..];
      Insert(s[0], SortBy(s[1..], cmp), cmp)
  }

  lemma {:induction false} InsertSorted<T(!new)>(x: T, s: seq<T>, cmp: (T, T) -> int)
    requires TotalPreorder(cmp) && Sorted(s, cmp)
    ensures Sorted(Insert(x, s, cmp), cmp)
  {
    if |s| > 0 && cmp(x, s[0]) > 0 {
      InsertSorted(x, s[1..], cmp);
      var r := Insert(x, s, cmp);
      forall j | 0 < j < |r|
        ensures cmp(s[0], r[j]) <= 0
      {
        assert r[j] in multiset(Insert(x, s[1..], cmp));
        assert r[j] == x || r[j] in s[1..];
      }
    }
  }

  /** The result of `SortBy` is ordered by the comparator. */
  lemma {:induction false} SortSorted<T(!new)>(s: seq<T>, cmp: (T, T) -> int)
    requires TotalPreorder(cmp)
    ensures Sorted(SortBy(s, cmp), cmp)
  {
    if |s| > 0 {
      SortSorted(s[1..], cmp);
      InsertSorted(s[0], SortBy(s[1..], cmp), cmp);
    }
  }

  /** Sorting an already ordered sequence leaves it unchanged. */
  lemma {:induction false} SortOfSorted<T>(s: seq<T>, cmp: (T, T) -> int)
    requires Sorted(s, cmp)
    ensures SortBy(s, cmp) == s
  {
    if |s| > 0 {
      assert Sorted(s[1..], cmp);
      SortOfSorted(s[1..], cmp);
      assert s == [s[0]] + s[1..];
    }
  }

  /** The elements that compare equal to `y`. */
  function Ties<T>(cmp: (T, T) -> int, y: T): T -> bool {
    (x: T) => cmp(x, y) == 0
  }

  /** An element sorting after `z` does not tie with what `z` ties with. */
  lemma AfterBreaksTie<T(!new)>(cmp: (T, T) -> int, x: T, z: T, y: T)
    requires TotalPreorder(cmp) && cmp(x, z) > 0 && cmp(x, y) == 0
    ensures cmp(z, y) != 0
  {
    assert cmp(z, y) == 0 ==> cmp(y, z) <= 0;
  }

  /** Inserting `x` puts it in front of every element it ties with, and
      leaves the other elements' order alone. */
  lemma {:induction false} InsertTies<T(!new)>(x: T, s: seq<T>, cmp: (T, T) -> int, y: T)
    requires TotalPreorder(cmp)
    ensures Sequences.Filter(Insert(x, s, cmp), Ties(cmp, y)) ==
      (if cmp(x, y) == 0 then [x] else []) + Sequences.Filter(s, Ties(cmp, y))
  {
    var keep := Ties(cmp, y);
    if |s| == 0 {
      Sequences.FilterCons(x, s, keep);
    } else if cmp(x, s[0]) <= 0 {
      Sequences.FilterCons(x, s, keep);
    } else {
      InsertTies(x, s[1..], cmp, y);
      if cmp(x, y) == 0 {
        AfterBreaksTie(cmp, x, s[0], y);
      }
      Sequences.FilterCons(s[0], Insert(x, s[1..], cmp), keep);
      Sequences.FilterCons(s[0], s[1..], keep);
      assert s == [s[0]] + s[1..];
    }
  }

  /** The sort is stable: the elements tying with any `y` come out in the
      order they went in. */
  lemma {:induction false} SortStable<T(!new)>(s: seq<T>, cmp: (T, T) -> int, y: T)
    requires TotalPreorder(cmp)
    ensures Sequences.Filter(SortBy(s, cmp), Ties(cmp, y)) == Sequences.Filter(s, Ties(cmp, y))
  {
    if |s| > 0 {
      SortStable(s[1..], cmp, y);
      InsertTies(s[0], SortBy(s[1..], cmp), cmp, y);
      assert s == [s[0]] + s[1..];
    }
  }

  /** The lexicographic combination of two comparators: `second` breaks the
      ties of `first`. */
  function Lex<T>(first: (T, T) -> int, second: (T, T) -> int): (T, T) -> int {
    (a: T, b: T) => if first(a, b) != 0 then first(a, b) else second(a, b)
  }

  lemma LexTotalPreorder<T(!new)>(first: (T, T) -> int, second: (T, T) -> int)
    requires TotalPreorder(first) && TotalPreorder(second)
    ensures TotalPreorder(Lex(first, second))
  {
    var cmp := Lex(first, second);
    forall a, b, c | cmp(a, b) <= 0 && cmp(b, c) <= 0
      ensures cmp(a, c) <= 0
    {
      assert first(a, b) <= 0 && first(b, c) <= 0;
      if first(a, c) == 0 {
        assert first(c, a) == 0;
        assert first(a, b) == 0 && first(b, c) == 0 by {
          assert first(b, a) <= 0;
          assert first(c, b) <= 0;
        }
      }
    }
  }
}

=== FILE: store.dfy ===
/** The store model of cs2/items/store.js: currency formatting, market hash
    names, the price fields of a store entry, the owned count and the
    parameters of a purchase. Amounts are whole numbers of cents. */
module Store {
  import opened Wrappers
  import Sequences
  import Strings

  // ---- FormatCurrency ----

  /** The wallet currency's display settings. */
  datatype WalletCurrency = WalletCurrency(
    wholeUnitsOnly: bool, decimalSymbol: string, symbolIsPrefix: bool,
    symbol: string, separator: string)

  function Abs(n: int): nat { if n < 0 then -n else n }

  function Sign(n: int): string { if n < 0 then "-" else "" }

  /** `(cents / 100).toFixed(2)` for a whole number of cents. */
  function Fixed(cents: int): string {
    Sign(cents) + Strings.NatToString(Abs(cents) / 100) + "." + Strings.TwoDigits(Abs(cents) % 100)
  }

  /** The number before the symbol is placed: whole-unit currencies drop
      ".00", and the decimal point becomes the currency's symbol. */
  function NumberPart(cents: int, w: WalletCurrency): string {
    var fixed := Fixed(cents);
    var whole := if w.wholeUnitsOnly then Strings.ReplaceFirst(fixed, ".00", "") else fixed;
    if w.decimalSymbol != "." then Strings.ReplaceFirst(whole, ".", w.decimalSymbol) else whole
  }

  /** The number with the symbol before or after it. */
  function Placed(number: string, w: WalletCurrency): string {
    if w.symbolIsPrefix then w.symbol + w.separator + number else number + w.separator + w.symbol
  }

  /** A USD wallet registered outside the US. */
  predicate UsdAbroad(code: string, country: Option<string>) {
    code == "USD" && country.Some? && country.value != "US"
  }

  /** `FormatCurrency(valueInCents)`: USD abroad is marked " USD", EUR
      shows whole amounts as ",--", anything else is the placed number. */
  function FormatCurrency(cents: int, w: WalletCurrency, code: string, country: Option<string>): (r: string)
    ensures UsdAbroad(code, country) ==> r == Placed(NumberPart(cents, w), w) + " USD"
    ensures code == "EUR" ==> |r| == |Placed(NumberPart(cents, w), w)|
    ensures !UsdAbroad(code, country) && code != "EUR" ==> r == Placed(NumberPart(cents, w), w)
  {
    var placed := Placed(NumberPart(cents, w), w);
    if UsdAbroad(code, country) then placed + " USD"
    else if code == "EUR" then Strings.ReplaceFirst(placed, ",00", ",--")
    else placed
  }

  /** Whole-unit currencies drop ".00" and nothing else. */
  lemma DropZeroCents(p: string, y: string)
    requires '.' !in p && |y| == 2 && Strings.AllDigits(y)
    ensures Strings.ReplaceFirst(p + "." + y, ".00", "") == if y == "00" then p else p + "." + y
  {
    var s := p + "." + y;
    if y == "00" {
      assert ".00"[0] == '.';
      Strings.IndexOfAfter(p, ".00", ".00");
      assert p + ".00" + "" == p + ".00";
      assert s == p + ".00" + "";
      assert p + "" + "" == p;
      Strings.ReplaceFirstAfter(p, ".00", "", "");
    } else {
      forall j: nat ensures !Strings.At(s, ".00", j) {
        if j < |p| {
          assert s[j] == p[j];
        } else if j == |p| {
          assert s[j + 1..j + 3] == y;
        }
      }
      Strings.ContainsIff(s, ".00");
    }
  }

  /** The decimal point becomes the currency's decimal symbol. */
  lemma SwapPoint(p: string, y: string, d: string)
    requires '.' !in p
    ensures Strings.ReplaceFirst(p + "." + y, ".", d) == p + d + y
    ensures Strings.ReplaceFirst(p, ".", d) == p
  {
    Strings.IndexOfAfter(p, "." + y, ".");
    assert p + "." + y == p + ("." + y);
    Strings.ReplaceFirstAfter(p, ".", y, d);
    Strings.NotContainsChar(p, '.');
  }

  /** The number shows the sign, the whole units and, unless a whole-unit
      currency has nothing after the point, the decimal symbol and two
      digits of cents. */
  lemma NumberPartShape(cents: int, w: WalletCurrency)
    ensures NumberPart(cents, w) ==
      Sign(cents) + Strings.NatToString(Abs(cents) / 100) +
      (if w.wholeUnitsOnly && Abs(cents) % 100 == 0 then ""
       else w.decimalSymbol + Strings.TwoDigits(Abs(cents) % 100))
  {
    var p := Sign(cents) + Strings.NatToString(Abs(cents) / 100);
    var y := Strings.TwoDigits(Abs(cents) % 100);
    FixedParts(cents);
    if w.wholeUnitsOnly {
      DropZeroCents(p, y);
    }
    SwapPoint(p, y, w.decimalSymbol);
  }

  /** The fixed-point text is a point-free whole part, a point and two
      digits that are "00" exactly for whole amounts. */
  lemma FixedParts(cents: int)
    ensures var p := Sign(cents) + Strings.NatToString(Abs(cents) / 100);
      var y := Strings.TwoDigits(Abs(cents) % 100);
      && Fixed(cents) == p + "." + y
      && '.' !in p && |y| == 2 && Strings.AllDigits(y)
      && (y == "00" <==> Abs(cents) % 100 == 0)
  {
    var x := Strings.NatToString(Abs(cents) / 100);
    var y := Strings.TwoDigits(Abs(cents) % 100);
    Strings.NonDigitNotIn(x, '.');
    assert '.' !in Sign(cents) + x;
    assert y == "00" <==> Abs(cents) % 100 == 0 by {
      assert Strings.DigitsValue("00") == 0;
      if Abs(cents) % 100 == 0 {
        assert y == [Strings.DigitChar(0), Strings.DigitChar(0)];
      }
    }
  }

  /** Reads back a number written with the decimal character `d`. */
  function ParseUnsigned(s: string, d: char): Option<nat> {
    var pieces := Strings.Split(s, d);
    if |pieces| == 1 && |s| > 0 && Strings.AllDigits(s) then Some(100 * Strings.DigitsValue(s))
    else if |pieces| == 2 && |pieces[0]| > 0 && Strings.AllDigits(pieces[0])
         && |pieces[1]| == 2 && Strings.AllDigits(pieces[1])
    then Some(100 * Strings.DigitsValue(pieces[0]) + Strings.DigitsValue(pieces[1]))
    else None
  }

  function ParseAmount(s: string, d: char): Option<int> {
    var negative := |s| > 0 && s[0] == '-';
    var u := ParseUnsigned(if negative then s[1..] else s, d);
    if u.None? then None
    else if negative then Some(-(u.value as int))
    else Some(u.value as int)
  }

  /** Whole units, and whole units with two digits of cents, read back. */
  lemma ParseDigits(units: nat, d: char, cents: nat)
    requires cents < 100 && !Strings.IsDigit(d)
    ensures ParseUnsigned(Strings.NatToString(units), d) == Some(100 * units)
    ensures ParseUnsigned(Strings.NatToString(units) + [d] + Strings.TwoDigits(cents), d) == Some(100 * units + cents)
  {
    var x := Strings.NatToString(units);
    var y := Strings.TwoDigits(cents);
    Strings.NatToStringValue(units);
    Strings.NonDigitNotIn(x, d);
    Strings.NonDigitNotIn(y, d);
    Strings.SplitWhole(x, d);
    Strings.SplitTwo(x, d, y);
  }

  /** A sign in front of digits reads back as a negative amount. */
  lemma ParseSigned(cents: int, u: string, d: char)
    requires ParseUnsigned(u, d) == Some(Abs(cents))
    requires |u| > 0 && u[0] != '-'
    ensures ParseAmount(Sign(cents) + u, d) == Some(cents)
  {
    if cents < 0 {
      assert (Sign(cents) + u)[1..] == u;
    } else {
      assert Sign(cents) + u == u;
    }
  }

  /** A number of the shape `NumberPartShape` describes reads back. */
  lemma ShapeRoundTrip(cents: int, d: char, dropCents: bool, num: string)
    requires !Strings.IsDigit(d) && d != '-'
    requires dropCents ==> Abs(cents) % 100 == 0
    requires num == Sign(cents) + Strings.NatToString(Abs(cents) / 100) +
      (if dropCents then "" else [d] + Strings.TwoDigits(Abs(cents) % 100))
    ensures ParseAmount(num, d) == Some(cents)
  {
    var n := Abs(cents);
    var x := Strings.NatToString(n / 100);
    var y := Strings.TwoDigits(n % 100);
    ParseDigits(n / 100, d, n % 100);
    assert Strings.IsDigit(x[0]);
    assert n == 100 * (n / 100) + n % 100;
    if dropCents {
      assert num == Sign(cents) + x;
      ParseSigned(cents, x, d);
    } else {
      var u := x + [d] + y;
      assert num == Sign(cents) + u;
      assert u[0] == x[0];
      ParseSigned(cents, u, d);
    }
  }

  /** The formatted number loses nothing: with a one-character decimal
      symbol that is neither a digit nor '-', it reads back as the amount,
      in whole-unit currencies too. */
  lemma NumberPartRoundTrip(cents: int, w: WalletCurrency)
    requires |w.decimalSymbol| == 1
    requires !Strings.IsDigit(w.decimalSymbol[0]) && w.decimalSymbol[0] != '-'
    ensures ParseAmount(NumberPart(cents, w), w.decimalSymbol[0]) == Some(cents)
  {
    NumberPartShape(cents, w);
    assert w.decimalSymbol == [w.decimalSymbol[0]];
    ShapeRoundTrip(cents, w.decimalSymbol[0], w.wholeUnitsOnly && Abs(cents) % 100 == 0, NumberPart(cents, w));
  }

  /** The first ",00" after the whole units is the one shown as ",--". */
  lemma EuroDashes(x: string, rest: string)
    requires Strings.AllDigits(x)
    ensures Strings.ReplaceFirst(x + ",00" + rest, ",00", ",--") == x + ",--" + rest
  {
    Strings.NonDigitNotIn(x, ',');
    assert ",00"[0] == ',';
    Strings.IndexOfAfter(x, ",00" + rest, ",00");
    assert x + ",00" + rest == x + (",00" + rest);
    Strings.ReplaceFirstAfter(x, ",00", rest, ",--");
  }

  lemma FormatEuro(cents: int, w: WalletCurrency, country: Option<string>, x: string)
    requires !w.symbolIsPrefix && Strings.AllDigits(x)
    requires NumberPart(cents, w) == x + ",00"
    ensures FormatCurrency(cents, w, "EUR", country) == x + ",--" + (w.separator + w.symbol)
  {
    assert Placed(x + ",00", w) == x + ",00" + (w.separator + w.symbol);
    EuroDashes(x, w.separator + w.symbol);
  }

  /** A whole euro amount written before the symbol shows ",--" for its
      cents. */
  lemma EuroWholeAmounts(units: nat, w: WalletCurrency, country: Option<string>)
    requires w.decimalSymbol == "," && !w.wholeUnitsOnly && !w.symbolIsPrefix
    ensures FormatCurrency(100 * units, w, "EUR", country) ==
      Strings.NatToString(units) + ",--" + (w.separator + w.symbol)
  {
    EuroNumber(units, w);
    FormatEuro(100 * units, w, country, Strings.NatToString(units));
  }

  /** A whole amount in a comma-decimal currency ends in ",00". */
  lemma EuroNumber(units: nat, w: WalletCurrency)
    requires w.decimalSymbol == "," && !w.wholeUnitsOnly
    ensures NumberPart(100 * units, w) == Strings.NatToString(units) + ",00"
  {
    WholeCents(units);
    NumberPartShape(100 * units, w);
    ZeroCents();
    CommaZeros(Strings.NatToString(units));
  }

  lemma ZeroCents()
    ensures Strings.TwoDigits(0) == "00"
  {
  }

  lemma CommaZeros(x: string)
    ensures "" + x + ("," + "00") == x + ",00"
  {
  }

  lemma WholeCents(units: nat)
    ensures Abs(100 * units) / 100 == units && Abs(100 * units) % 100 == 0 && Sign(100 * units) == ""
  {
  }

  // ---- GetHashName ----

  /** The parts of a store price-sheet item the hash name depends on. */
  datatype SheetItem = SheetItem(
    lootFullName: Option<string>, tournamentId: Option<int>,
    requiresSupplementalData: bool, itemName: string)

  const SOUVENIR_PACKAGE := "Souvenir Package"
  const HIGHLIGHT_PACKAGE := "Souvenir Highlight Package"
  /** Everything of "Souvenir Package" but its last letter. */
  const PACKAGE_HEAD := SOUVENIR_PACKAGE[..|SOUVENIR_PACKAGE| - 1]

  predicate Truthy(s: Option<string>) { s.Some? && s.value != "" }

  /** The souvenir package name for a map: "Souvenir Package" becomes
      "<map> Souvenir Package", and then, for a highlight package,
      "Souvenir Highlight Package". */
  function SouvenirName(itemName: string, place: string, isHighlight: bool): (r: string)
    ensures !Strings.Contains(itemName, SOUVENIR_PACKAGE) ==> r == itemName
  {
    var named := MapPackage(itemName, place);
    if isHighlight then HighlightPackage(named) else named
  }

  function MapPackage(itemName: string, place: string): string {
    Strings.ReplaceFirst(itemName, SOUVENIR_PACKAGE, place + " " + SOUVENIR_PACKAGE)
  }

  function HighlightPackage(name: string): string {
    Strings.ReplaceFirst(name, SOUVENIR_PACKAGE, HIGHLIGHT_PACKAGE)
  }

  /** `#GetHashName(item, mapName, isHighlight)`: the first loot-list name,
      else the item name of a tournament item sold as is, else the
      souvenir package name for the map, else none. */
  function GetHashName(item: SheetItem, mapName: Option<string>, isHighlight: bool): (r: Option<string>)
    ensures Truthy(item.lootFullName) ==> r == item.lootFullName
    ensures (!Truthy(item.lootFullName) && item.tournamentId.Some? && item.tournamentId.value != 0
             && !item.requiresSupplementalData) ==> r == Some(item.itemName)
    ensures r.None? <==> (!Truthy(item.lootFullName)
             && !(item.tournamentId.Some? && item.tournamentId.value != 0 && !item.requiresSupplementalData)
             && !(item.requiresSupplementalData && Truthy(mapName)))
    ensures (!Truthy(item.lootFullName) && item.requiresSupplementalData && Truthy(mapName)) ==>
             r == Some(SouvenirName(item.itemName, mapName.value, isHighlight))
  {
    if Truthy(item.lootFullName) then item.lootFullName
    else if item.tournamentId.Some? && item.tournamentId.value != 0 && !item.requiresSupplementalData then Some(item.itemName)
    else if item.requiresSupplementalData && Truthy(mapName) then Some(SouvenirName(item.itemName, mapName.value, isHighlight))
    else None
  }

  /** The first "Souvenir Package" after `head` is the one replaced. */
  lemma ReplacePackage(head: string, post: string, rep: string)
    requires !Strings.Contains(head + PACKAGE_HEAD, SOUVENIR_PACKAGE)
    ensures Strings.ReplaceFirst(head + SOUVENIR_PACKAGE + post, SOUVENIR_PACKAGE, rep) == head + rep + post
  {
    Strings.IndexOfBeyond(head, SOUVENIR_PACKAGE, post);
    Strings.ReplaceFirstAfter(head, SOUVENIR_PACKAGE, post, rep);
  }

  /** A souvenir package is named after its map, when nothing before the
      package name reads as one. */
  lemma SouvenirHashName(pre: string, post: string, place: string)
    requires !Strings.Contains(pre + PACKAGE_HEAD, SOUVENIR_PACKAGE)
    ensures SouvenirName(pre + SOUVENIR_PACKAGE + post, place, false) ==
      pre + (place + " " + SOUVENIR_PACKAGE) + post
  {
    ReplacePackage(pre, post, place + " " + SOUVENIR_PACKAGE);
  }

  /** A highlight package is the map's souvenir package with "Highlight"
      inserted, when nothing before the inserted name reads as a package. */
  lemma HighlightHashName(pre: string, post: string, place: string)
    requires !Strings.Contains(pre + PACKAGE_HEAD, SOUVENIR_PACKAGE)
    requires !Strings.Contains(pre + place + " " + PACKAGE_HEAD, SOUVENIR_PACKAGE)
    ensures SouvenirName(pre + SOUVENIR_PACKAGE + post, place, true) ==
      pre + place + " " + HIGHLIGHT_PACKAGE + post
  {
    var head := pre + place + " ";
    MapPackageNamed(pre, post, place);
    ReplacePackage(head, post, HIGHLIGHT_PACKAGE);
  }

  /** The map name goes in front of the first package name. */
  lemma MapPackageNamed(pre: string, post: string, place: string)
    requires !Strings.Contains(pre + PACKAGE_HEAD, SOUVENIR_PACKAGE)
    ensures MapPackage(pre + SOUVENIR_PACKAGE + post, place) == (pre + place + " ") + SOUVENIR_PACKAGE + post
  {
    ReplacePackage(pre, post, place + " " + SOUVENIR_PACKAGE);
    assert pre + (place + " " + SOUVENIR_PACKAGE) + post == (pre + place + " ") + SOUVENIR_PACKAGE + post;
  }

  // ---- price fields ----

  datatype Discount = NoDiscount | Percent(percent: int) | NotFinite

  /** `Math.round`: halves round up. */
  function Round(x: real): (r: int)
    ensures x - 0.5 < r as real <= x + 0.5
  {
    (x + 0.5).Floor
  }

  lemma RatioBounds(sale: int, list: int)
    requires list != 0
    ensures 0 < sale <= list ==> 0.0 < sale as real / list as real <= 1.0
    ensures sale == list ==> sale as real / list as real == 1.0
  {
    var q := sale as real / list as real;
    assert q * list as real == sale as real;
  }

  /** `price`: the sale price when there is one, else the list price. */
  function Price(sale: Option<int>, list: Option<int>): (r: Option<int>)
    ensures sale.Some? ==> r == sale
    ensures sale.None? ==> r == list
  {
    if sale.Some? then sale else list
  }

  /** `discount`: none without a non-zero sale price, otherwise the rounded
      percentage taken off the list price (not finite when the list price
      is missing or zero). */
  function DiscountOf(sale: Option<int>, list: Option<int>): (r: Discount)
    ensures r == NoDiscount <==> sale.None? || sale.value == 0
    ensures r == NotFinite <==> sale.Some? && sale.value != 0 && (list.None? || list.value == 0)
    ensures list.Some? && sale.Some? && 0 < sale.value <= list.value ==> r.Percent? && 0 <= r.percent <= 100
    ensures list.Some? && sale.Some? && 0 < sale.value == list.value ==> r == Percent(0)
  {
    if sale.None? || sale.value == 0 then NoDiscount
    else if list.None? || list.value == 0 then NotFinite
    else
      var ratio := sale.value as real / list.value as real;
      RatioBounds(sale.value, list.value);
      Percent(Round((1.0 - ratio) * 100.0))
  }

  /** A sale price strictly below a positive list price never shows as a
      price increase, and a sale of a zero price shows no discount. */
  lemma SalePriceShownWithItsDiscount(sale: int, list: int)
    requires 0 < sale < list
    ensures Price(Some(sale), Some(list)) == Some(sale)
    ensures DiscountOf(Some(sale), Some(list)).Percent? && DiscountOf(Some(sale), Some(list)).percent >= 0
    ensures DiscountOf(Some(0), Some(list)) == NoDiscount && Price(Some(0), Some(list)) == Some(0)
  {
  }

  // ---- LoadInventory ----

  /** The fields of a store entry that decide ownership. */
  datatype StoreEntry = StoreEntry(
    id: int, requiresSupplementalData: bool, hashName: Option<string>,
    stageId: Option<int>, team1Id: Option<int>, team2Id: Option<int>)

  /** The fields of an inventory or stored item that decide ownership. */
  datatype OwnedItem = OwnedItem(
    defIndex: int, fullName: string,
    stageId: Option<int>, team0Id: Option<int>, team1Id: Option<int>)

  /** An item counts for an entry by definition index, by name for coupons,
      or by name, stage and both teams for souvenir packages. */
  predicate Counts(entry: StoreEntry, x: OwnedItem) {
    || x.defIndex == entry.id
    || (!entry.requiresSupplementalData && Truthy(entry.hashName) && Some(x.fullName) == entry.hashName)
    || (entry.requiresSupplementalData && Some(x.fullName) == entry.hashName
        && x.stageId == entry.stageId && x.team0Id == entry.team1Id && x.team1Id == entry.team2Id)
  }

  /** The items that count for the entry. */
  function CountsFor(entry: StoreEntry): OwnedItem -> bool {
    (x: OwnedItem) => Counts(entry, x)
  }

  /** `owned`: how many inventory and stored items count for the entry. */
  function Owned(entry: StoreEntry, items: seq<OwnedItem>, storedItems: seq<OwnedItem>): (r: nat)
    ensures r <= |items| + |storedItems|
    ensures r > 0 <==> exists x :: x in items + storedItems && Counts(entry, x)
  {
    var all := items + storedItems;
    var keep := CountsFor(entry);
    var counted := Sequences.Filter(all, keep);
    Sequences.FilterMembers(all, keep);
    assert |counted| > 0 ==> counted[0] in all;
    |counted|
  }

  /** The count is the number of positions, in the inventory followed by the
      storage units, holding an item that counts for the entry. */
  lemma OwnedCountsPositions(entry: StoreEntry, items: seq<OwnedItem>, storedItems: seq<OwnedItem>)
    ensures Owned(entry, items, storedItems)
      == |set i | 0 <= i < |items + storedItems| && Counts(entry, (items + storedItems)[i])|
  {
    var all := items + storedItems;
    var keep := CountsFor(entry);
    Sequences.FilterCounts(all, keep);
    assert Sequences.Positions(all, keep) == set i | 0 <= i < |all| && Counts(entry, all[i]);
  }

  /** The count is the inventory's count plus the storage units' count. */
  lemma OwnedSplits(entry: StoreEntry, items: seq<OwnedItem>, storedItems: seq<OwnedItem>)
    ensures Owned(entry, items, storedItems) == Owned(entry, items, []) + Owned(entry, storedItems, [])
  {
    var keep := CountsFor(entry);
    Sequences.FilterConcat(items, storedItems, keep);
    assert items + [] == items;
    assert storedItems + [] == storedItems;
  }

  /** `LoadInventory`: every entry gets its owned count. */
  function OwnedCounts(entries: seq<StoreEntry>, items: seq<OwnedItem>, storedItems: seq<OwnedItem>): (r: seq<nat>)
    ensures |r| == |entries|
    ensures forall i :: 0 <= i < |r| ==> r[i] == Owned(entries[i], items, storedItems)
  {
    seq(|entries|, i requires 0 <= i < |entries| => Owned(entries[i], items, storedItems))
  }

  // ---- InitializePurchase ----

  datatype PurchaseItem = PurchaseItem(id: int, price: Option<int>, supplementalData: Option<int>)

  datatype PurchaseParams = PurchaseParams(itemID: int, quantity: int, cost: Option<int>, supplementalData: Option<int>)

  /** The request parameters: the cost is price times quantity, and the
      supplemental data is sent only when the item has some. */
  function PurchaseParamsFor(item: PurchaseItem, quantity: int): (r: PurchaseParams)
    ensures r.itemID == item.id && r.quantity == quantity
    ensures r.cost.Some? <==> item.price.Some?
    ensures r.cost.Some? ==> r.cost.value == item.price.value * quantity
    ensures r.supplementalData.Some? <==> item.supplementalData.Some? && item.supplementalData.value != 0
    ensures r.supplementalData.Some? ==> r.supplementalData == item.supplementalData
  {
    PurchaseParams(
      item.id, quantity,
      if item.price.Some? then Some(item.price.value * quantity) else None,
      if item.supplementalData.Some? && item.supplementalData.value != 0 then item.supplementalData else None)
  }

  /** The purchase URL of the reply, or the failure when there is none. */
  function PurchaseUrl(reply: Option<string>): (r: Result<string, string>)
    ensures r.Success? <==> Truthy(reply)
    ensures r.Success? ==> r.value == reply.value
  {
    if Truthy(reply) then Success(reply.value) else Failure("Failed to get purchase URL")
  }

  /** Buying in two lots costs what buying at once does. */
  lemma CostAdds(item: PurchaseItem, a: int, b: int)
    requires item.price.Some?
    ensures PurchaseParamsFor(item, a + b).cost.value ==
      PurchaseParamsFor(item, a).cost.value + PurchaseParamsFor(item, b).cost.value
  {
    var p := item.price.value;
    assert p * (a + b) == p * a + p * b;
  }
}

=== FILE: store_table.dfy ===
/** The store table of components/store_table.js: the default ordering of
    the store's items, the tabs, the searches and the single selection.
    Its sort and filter code repeats the table engine with the fixed
    default sort `["default_sort_order"]` ascending. */
module StoreTable {
  import opened Wrappers
  import opened Rows
  import Sequences
  import Sorting
  import Strings
  import Table
  import VirtualList

  /** The constructor's comparator as written: discounted items first, then
      layout weight descending with a missing weight last, then (only when
      both items have supplemental data) the larger supplemental data
      first, then the smaller id first. */
  function DefaultCmpAsWritten(a: Row, b: Row): (r: int)
    ensures -1 <= r <= 1
  {
    var da := Truthy(Get(a, "discount"));
    var db := Truthy(Get(b, "discount"));
    if da && !db then -1
    else if !da && db then 1
    else if Get(a, "layout_weight") != Get(b, "layout_weight") then
      CellCmp(Get(a, "layout_weight"), Get(b, "layout_weight"), Desc)
    else if Truthy(Get(a, "supplemental_data")) && Truthy(Get(b, "supplemental_data"))
            && Get(a, "supplemental_data") != Get(b, "supplemental_data") then
      CellCmp(Get(a, "supplemental_data"), Get(b, "supplemental_data"), Desc)
    else CellCmp(Get(a, "id"), Get(b, "id"), Asc)
  }

  function StoreItem(id: real, supplemental: Option<real>): Row {
    Row(0, if supplemental.Some? then map["id" := Num(id), "supplemental_data" := Num(supplemental.value)]
           else map["id" := Num(id)])
  }

  /** Two souvenir entries of different packages and one item without
      supplemental data, none discounted and none weighted, are ordered in
      a cycle: the comparator is not a consistent ordering, so the order
      `sort` produces is unspecified. */
  lemma DefaultCmpAsWrittenCycles()
    ensures var a := StoreItem(3.0, Some(9.0));
      var b := StoreItem(2.0, None);
      var c := StoreItem(1.0, Some(5.0));
      && DefaultCmpAsWritten(a, c) < 0
      && DefaultCmpAsWritten(c, b) < 0
      && DefaultCmpAsWritten(b, a) < 0
      && !Sorting.TotalPreorder(DefaultCmpAsWritten)
  {
    var a := StoreItem(3.0, Some(9.0));
    var b := StoreItem(2.0, None);
    var c := StoreItem(1.0, Some(5.0));
    assert DefaultCmpAsWritten(a, c) <= 0 && DefaultCmpAsWritten(c, b) <= 0 && DefaultCmpAsWritten(a, b) > 0;
  }

  /** Sort keys of the default order. */
  function DiscountKey(r: Row): Option<Value> { Some(Bool(!Truthy(Get(r, "discount")))) }
  function WeightKey(r: Row): Option<Value> { Get(r, "layout_weight") }
  function SupplementalKey(r: Row): Option<Value> {
    if Truthy(Get(r, "supplemental_data")) then Get(r, "supplemental_data") else None
  }
  function IdKey(r: Row): Option<Value> { Get(r, "id") }

  /** The default order with supplemental data compared like the layout
      weight: present before missing, larger first. */
  function DefaultOrder(): (Row, Row) -> int {
    Sorting.Lex(KeyOrder(DiscountKey, Asc),
      Sorting.Lex(KeyOrder(WeightKey, Desc),
        Sorting.Lex(KeyOrder(SupplementalKey, Desc), KeyOrder(IdKey, Asc))))
  }

  lemma DefaultOrderIsTotalPreorder()
    ensures Sorting.TotalPreorder(DefaultOrder())
  {
    KeyOrderIsTotalPreorder(DiscountKey, Asc);
    KeyOrderIsTotalPreorder(WeightKey, Desc);
    KeyOrderIsTotalPreorder(SupplementalKey, Desc);
    KeyOrderIsTotalPreorder(IdKey, Asc);
    Sorting.LexTotalPreorder(KeyOrder(SupplementalKey, Desc), KeyOrder(IdKey, Asc));
    Sorting.LexTotalPreorder(KeyOrder(WeightKey, Desc),
      Sorting.Lex(KeyOrder(SupplementalKey, Desc), KeyOrder(IdKey, Asc)));
    Sorting.LexTotalPreorder(KeyOrder(DiscountKey, Asc),
      Sorting.Lex(KeyOrder(WeightKey, Desc), Sorting.Lex(KeyOrder(SupplementalKey, Desc), KeyOrder(IdKey, Asc))));
  }

  /** The corrected order spelled out: the first key that differs decides. */
  lemma DefaultOrderUnfolds(a: Row, b: Row)
    ensures DefaultOrder()(a, b) ==
      if DiscountKey(a) != DiscountKey(b) then CellCmp(DiscountKey(a), DiscountKey(b), Asc)
      else if WeightKey(a) != WeightKey(b) then CellCmp(WeightKey(a), WeightKey(b), Desc)
      else if SupplementalKey(a) != SupplementalKey(b) then CellCmp(SupplementalKey(a), SupplementalKey(b), Desc)
      else CellCmp(IdKey(a), IdKey(b), Asc)
  {
    var inner := Sorting.Lex(KeyOrder(SupplementalKey, Desc), KeyOrder(IdKey, Asc));
    var middle := Sorting.Lex(KeyOrder(WeightKey, Desc), inner);
    assert inner(a, b) == if SupplementalKey(a) != SupplementalKey(b) then CellCmp(SupplementalKey(a), SupplementalKey(b), Desc)
      else CellCmp(IdKey(a), IdKey(b), Asc);
    assert middle(a, b) == if WeightKey(a) != WeightKey(b) then CellCmp(WeightKey(a), WeightKey(b), Desc) else inner(a, b);
    assert DefaultOrder() == Sorting.Lex(KeyOrder(DiscountKey, Asc), middle);
    assert KeyOrder(DiscountKey, Asc)(a, b) == CellCmp(DiscountKey(a), DiscountKey(b), Asc);
    assert DefaultOrder()(a, b) == if DiscountKey(a) != DiscountKey(b) then CellCmp(DiscountKey(a), DiscountKey(b), Asc) else middle(a, b);
  }

  /** The corrected order agrees with the written one except between an
      item with supplemental data and one without. */
  lemma DefaultOrderAgrees(a: Row, b: Row)
    requires SupplementalKey(a).Some? == SupplementalKey(b).Some?
    ensures DefaultOrder()(a, b) == DefaultCmpAsWritten(a, b)
  {
    DefaultOrderUnfolds(a, b);
  }

  /** The constructor: sort the items into the default order, then record
      each item's position as `default_sort_order`. */
  function DefaultSorted(items: seq<Row>): (r: seq<Row>)
    ensures |r| == |items|
    ensures forall i :: 0 <= i < |r| ==> Get(r[i], "default_sort_order") == Some(Num(i as real))
    ensures Sorting.Sorted(r, DefaultOrder())
    ensures exists s: seq<Row> :: multiset(s) == multiset(items) && r == Number(s)
  {
    DefaultOrderIsTotalPreorder();
    Sorting.SortSorted(items, DefaultOrder());
    var sorted := Sorting.SortBy(items, DefaultOrder());
    NumberKeepsOrder(sorted);
    assert multiset(sorted) == multiset(items) && Number(sorted) == Number(sorted);
    Number(sorted)
  }

  function Numbered(x: Row, i: nat): Row {
    Row(x.key, x.fields["default_sort_order" := Num(i as real)])
  }

  function Number(rows: seq<Row>): (r: seq<Row>)
    ensures |r| == |rows|
    ensures forall i :: 0 <= i < |r| ==> r[i] == Numbered(rows[i], i)
  {
    seq(|rows|, i requires 0 <= i < |rows| => Numbered(rows[i], i))
  }

  /** Recording a position changes none of the default order's keys. */
  lemma NumberedKeys(x: Row, i: nat)
    ensures DiscountKey(Numbered(x, i)) == DiscountKey(x) && WeightKey(Numbered(x, i)) == WeightKey(x)
    ensures SupplementalKey(Numbered(x, i)) == SupplementalKey(x) && IdKey(Numbered(x, i)) == IdKey(x)
  {
  }

  /** Recording the positions does not disturb the default order. */
  lemma NumberKeepsOrder(rows: seq<Row>)
    requires Sorting.Sorted(rows, DefaultOrder())
    ensures Sorting.Sorted(Number(rows), DefaultOrder())
  {
    var r := Number(rows);
    forall i, j | 0 <= i < j < |r| ensures DefaultOrder()(r[i], r[j]) <= 0 {
      NumberedKeys(rows[i], i);
      NumberedKeys(rows[j], j);
      DefaultOrderUnfolds(r[i], r[j]);
      DefaultOrderUnfolds(rows[i], rows[j]);
    }
  }

  const RESET_COLUMNS: seq<string> := ["default_sort_order"]

  /** The recorded position of a numbered row. */
  function Position(x: Row): real {
    match Get(x, "default_sort_order")
    case Some(Num(n)) => n
    case _ => -1.0
  }

  /** The numbered items' positions increase along the sequence. */
  lemma PositionsIncrease(items: seq<Row>)
    ensures Sequences.Increasing(DefaultSorted(items), Position)
  {
    var all := DefaultSorted(items);
    forall i, j | 0 <= i < j < |all| ensures Position(all[i]) < Position(all[j]) {
      assert Get(all[i], "default_sort_order") == Some(Num(i as real));
      assert Get(all[j], "default_sort_order") == Some(Num(j as real));
    }
  }

  /** Between two numbered rows, the reset sort follows the positions. */
  lemma ResetOrderFollowsPosition(a: Row, b: Row)
    requires Get(a, "default_sort_order") == Some(Num(Position(a)))
    requires Get(b, "default_sort_order") == Some(Num(Position(b)))
    requires Position(a) < Position(b)
    ensures Order(RESET_COLUMNS, Asc)(a, b) < 0
  {
    FirstDifferenceDecides(a, b, RESET_COLUMNS, Asc, 0);
  }

  /** Every numbered row carries its position. */
  lemma NumberedHasPosition(items: seq<Row>, x: Row)
    requires x in DefaultSorted(items)
    ensures Get(x, "default_sort_order") == Some(Num(Position(x)))
  {
    var all := DefaultSorted(items);
    var p :| 0 <= p < |all| && all[p] == x;
    assert Get(all[p], "default_sort_order") == Some(Num(p as real));
  }

  /** Any order-preserving selection of the numbered items is already in
      `default_sort_order` order, so resetting the sort shows it in the
      default order. */
  lemma ResetSortRestoresDefaultOrder(items: seq<Row>, keep: Row -> bool)
    ensures var rows := Sequences.Filter(DefaultSorted(items), keep);
      Rows.SortRows(rows, RESET_COLUMNS, Asc) == rows
  {
    var all := DefaultSorted(items);
    var rows := Sequences.Filter(all, keep);
    PositionsIncrease(items);
    Sequences.FilterKeepsIncreasing(all, keep, Position);
    Sequences.FilterMembers(all, keep);
    forall i, j | 0 <= i < j < |rows|
      ensures Order(RESET_COLUMNS, Asc)(rows[i], rows[j]) <= 0
    {
      assert rows[i] in rows && rows[j] in rows;
      NumberedHasPosition(items, rows[i]);
      NumberedHasPosition(items, rows[j]);
      var f: Row -> real := Position;
      assert f(rows[i]) < f(rows[j]);
      ResetOrderFollowsPosition(rows[i], rows[j]);
    }
    Sorting.SortOfSorted(rows, Order(RESET_COLUMNS, Asc));
  }

  datatype Tab = General | Tools | TournamentCapsules | TournamentSouvenirs

  /** The tab predicate of `#FilterRows`. */
  predicate InTab(tab: Tab, item: Row) {
    match tab
    case General => Get(item, "layout_weight").Some?
    case Tools => Get(item, "layout_format") == Some(Str("single"))
    case TournamentCapsules =>
      Truthy(Get(item, "tournament_id")) && !Truthy(Get(item, "requires_supplemental_data"))
    case TournamentSouvenirs =>
      Truthy(Get(item, "tournament_id")) && Truthy(Get(item, "requires_supplemental_data"))
  }

  /** The capsule and souvenir tabs never share an item. */
  lemma CapsulesAndSouvenirsDisjoint(item: Row)
    ensures !(InTab(TournamentCapsules, item) && InTab(TournamentSouvenirs, item))
  {
  }

  function Text(item: Row, field: string): string {
    match Get(item, field)
    case Some(Str(s)) => s
    case _ => ""
  }

  /** The whole row test of `#FilterRows`: tab, name search, and the team
      search in the souvenir tab only. */
  predicate Matches(tab: Tab, query: Option<string>, teamsQuery: Option<string>, item: Row): (r: bool)
    ensures r ==> InTab(tab, item)
    ensures (query.None? || query.value == "") && (teamsQuery.None? || teamsQuery.value == "") ==> (r <==> InTab(tab, item))
  {
    && InTab(tab, item)
    && (query.Some? && query.value != "" ==> Strings.MatchesAllTokens(Text(item, "name_normalized"), query.value))
    && (teamsQuery.Some? && teamsQuery.value != "" && tab == TournamentSouvenirs ==>
          Strings.MatchesAllTokens(Text(item, "teams_normalized"), teamsQuery.value))
  }

  /** Outside the souvenir tab the team search has no effect. */
  lemma TeamSearchOnlyInSouvenirs(tab: Tab, query: Option<string>, teamsQuery: Option<string>, item: Row)
    requires tab != TournamentSouvenirs
    ensures Matches(tab, query, teamsQuery, item) == Matches(tab, query, None, item)
  {
  }

  datatype StoreTable = StoreTable(
    table: Table.Table,
    tab: Tab,
    selected: Option<Row>,
    query: Option<string>,
    teamsQuery: Option<string>)

  const DEFAULT_SORT := Table.SortSpec(RESET_COLUMNS, Asc)

  /** The constructor: default order, general tab, nothing selected. */
  function Create(items: seq<Row>, visibleRows: nat): (t: StoreTable)
    ensures t.table.data == DefaultSorted(items) && t.tab == General
    ensures |t.table.data| == |items| && Sorting.Sorted(t.table.data, DefaultOrder())
    ensures exists s: seq<Row> :: multiset(s) == multiset(items) && t.table.data == Number(s)
    ensures t.table.defaultSort == Some(DEFAULT_SORT) && t.selected.None?
  {
    StoreTable(Table.Create(DefaultSorted(items), Some(DEFAULT_SORT), visibleRows), General, None, None, None)
  }

  function Keep(t: StoreTable): Row -> bool {
    (x: Row) => Matches(t.tab, t.query, t.teamsQuery, x)
  }

  /** `#FilterRows`: the table filter with the row test of the current tab
      and searches; nothing else of the store table changes. */
  function FilterRows(t: StoreTable): (r: StoreTable)
    ensures r == t.(table := r.table)
    ensures r.table.data == t.table.data
    ensures |t.table.data| == 0 ==> r == t
    ensures |t.table.data| > 0 ==>
      forall x :: multiset(r.table.filtered)[x] == if Matches(t.tab, t.query, t.teamsQuery, x) then multiset(t.table.data)[x] else 0
  {
    t.(table := Table.FilterRows(t.table, Keep(t)))
  }

  /** `#SelectItem`: clicking the selected item clears the selection,
      clicking another replaces it. */
  function SelectItem(selected: Option<Row>, item: Row): (r: Option<Row>)
    ensures selected == Some(item) ==> r.None?
    ensures selected != Some(item) ==> r == Some(item)
  {
    if selected == Some(item) then None else Some(item)
  }

  /** Selecting the same item twice restores the selection when nothing,
      or that item, was selected. */
  lemma SelectTwiceRestores(selected: Option<Row>, item: Row)
    requires selected.None? || selected == Some(item)
    ensures SelectItem(SelectItem(selected, item), item) == selected
  {
  }

  /** `#UpdateFooter`: the purchase action is enabled iff an item is
      selected; when disabled it carries a tooltip. */
  function ActionDisabled(selected: Option<Row>): (r: (bool, Option<string>))
    ensures r.0 <==> selected.None?
    ensures r.0 <==> r.1.Some?
  {
    if selected.None? then (true, Some("No items selected")) else (false, None)
  }

  /** `#ChangeTab`: switching to the current tab does nothing; otherwise
      the sort resets to the default order without an indicator, both
      searches and the selection clear, and the rows are refiltered. */
  function ChangeTab(t: StoreTable, tab: Tab): (r: StoreTable)
    ensures t.tab == tab ==> r == t
    ensures t.tab != tab ==>
      && r.tab == tab && r.query.None? && r.teamsQuery.None? && r.selected.None?
      && r.table.marker == Table.NoMarker && r.table.data == t.table.data
      && r.table.sortColumns == Some(RESET_COLUMNS) && r.table.sortDirection == Some(Asc)
      && (|t.table.data| > 0 ==> forall x :: x in r.table.filtered <==> x in t.table.data && InTab(tab, x))
  {
    if t.tab == tab then t
    else
      var t1 := StoreTable(
        t.table.(sortColumns := Some(RESET_COLUMNS), sortDirection := Some(Asc), marker := Table.NoMarker),
        tab, None, None, None);
      var r := FilterRows(t1);
      assert |t.table.data| > 0 ==> forall x :: x in r.table.filtered <==> x in t.table.data && InTab(tab, x) by {
        if |t.table.data| > 0 {
          forall x ensures x in r.table.filtered <==> x in t.table.data && InTab(tab, x) {
            assert x in r.table.filtered <==> multiset(r.table.filtered)[x] > 0;
            assert x in t.table.data <==> multiset(t.table.data)[x] > 0;
          }
        }
      }
      r
  }

  /** After a tab change the table shows the tab's items in the default
      order: the reset sort leaves the filtered rows as they stand in the
      numbered data. */
  lemma ChangeTabShowsDefaultOrder(items: seq<Row>, t: StoreTable, tab: Tab)
    requires t.table.data == DefaultSorted(items) && |items| > 0 && t.tab != tab
    ensures ChangeTab(t, tab).table.filtered == Sequences.Filter(t.table.data, (x: Row) => InTab(tab, x))
  {
    var t1 := StoreTable(
      t.table.(sortColumns := Some(RESET_COLUMNS), sortDirection := Some(Asc), marker := Table.NoMarker),
      tab, None, None, None);
    var keep := Keep(t1);
    var inTab := (x: Row) => InTab(tab, x);
    Sequences.FilterCongruent(t.table.data, keep, inTab);
    var rows := Sequences.Filter(t.table.data, inTab);
    ResetSortRestoresDefaultOrder(items, inTab);
    assert Rows.SortRows(rows, RESET_COLUMNS, Asc) == rows;
  }
}

=== FILE: strings.dfy ===
/** String helpers with JavaScript semantics: `includes`, first-occurrence
    `replace`, `split` on one character, prefix/suffix stripping, decimal
    rendering and parsing, and the code-unit order that stands in for
    `localeCompare`. */
module Strings {
  import opened Wrappers

  /** `sub` occurs in `s` at position `i`. */
  predicate At(s: string, sub: string, i: nat) {
    i + |sub| <= |s| && s[i..i + |sub|] == sub
  }

  /** The first position at or after `from` where `sub` occurs. */
  function IndexFrom(s: string, sub: string, from: nat): (r: Option<nat>)
    ensures r.Some? ==> from <= r.value && At(s, sub, r.value)
    ensures r.Some? ==> forall j :: from <= j < r.value ==> !At(s, sub, j)
    ensures r.None? ==> forall j :: from <= j ==> !At(s, sub, j)
    decreases |s| - from
  {
    if from + |sub| > |s| then None
    else if s[from..from + |sub|] == sub then Some(from)
    else IndexFrom(s, sub, from + 1)
  }

  /** JavaScript `s.indexOf(sub)`, with `None` for -1. */
  function IndexOf(s: string, sub: string): Option<nat> {
    IndexFrom(s, sub, 0)
  }

  /** JavaScript `s.includes(sub)`. */
  predicate Contains(s: string, sub: string) {
    IndexOf(s, sub).Some?
  }

  lemma ContainsIff(s: string, sub: string)
    ensures Contains(s, sub) <==> exists i: nat :: At(s, sub, i)
  {
    if !Contains(s, sub) {
      assert forall j: nat :: !At(s, sub, j);
    }
  }

  /** A string contains each of its own infixes. */
  lemma ContainsInfix(a: string, sub: string, b: string)
    ensures Contains(a + sub + b, sub)
  {
    var s := a + sub + b;
    assert s[|a|..|a| + |sub|] == sub;
    assert At(s, sub, |a|);
    ContainsIff(s, sub);
  }

  /** JavaScript `s.replace(pat, rep)` with a string pattern: only the first
      occurrence is replaced. */
  function ReplaceFirst(s: string, pat: string, rep: string): (r: string)
    ensures !Contains(s, pat) ==> r == s
  {
    match IndexOf(s, pat)
    case None => s
    case Some(i) => s[..i] + rep + s[i + |pat|..]
  }

  lemma ReplaceFirstAt(s: string, pat: string, rep: string, i: nat)
    requires IndexOf(s, pat) == Some(i)
    ensures ReplaceFirst(s, pat, rep) == s[..i] + rep + s[i + |pat|..]
  {
  }

  /** The first occurrence is where `sub` occurs with no occurrence before. */
  lemma IndexOfFirst(s: string, sub: string, k: nat)
    requires At(s, sub, k)
    requires forall j :: 0 <= j < k ==> !At(s, sub, j)
    ensures IndexOf(s, sub) == Some(k)
  {
  }

  /** A pattern whose first character does not occur in `p` is first found
      right after `p` when it starts there. */
  lemma IndexOfAfter(p: string, rest: string, pat: string)
    requires |pat| > 0 && pat[0] !in p && pat <= rest
    ensures IndexOf(p + rest, pat) == Some(|p|)
  {
    var s := p + rest;
    assert s[|p|..|p| + |pat|] == pat;
    forall j | 0 <= j < |p| ensures !At(s, pat, j) {
      assert s[j] == p[j] != pat[0];
    }
    IndexOfFirst(s, pat, |p|);
  }

  /** A pattern is first found where it is placed when no earlier
      occurrence ends before its last character. */
  lemma IndexOfBeyond(pre: string, pat: string, post: string)
    requires |pat| > 0 && !Contains(pre + pat[..|pat| - 1], pat)
    ensures IndexOf(pre + pat + post, pat) == Some(|pre|)
  {
    var s := pre + pat + post;
    var head := pre + pat[..|pat| - 1];
    assert s[|pre|..|pre| + |pat|] == pat;
    assert s[..|head|] == head;
    forall j | 0 <= j < |pre| ensures !At(s, pat, j) {
      if At(s, pat, j) {
        assert j + |pat| <= |head|;
        assert head[j..j + |pat|] == s[j..j + |pat|];
        assert At(head, pat, j);
        ContainsIff(head, pat);
        assert false;
      }
    }
    IndexOfFirst(s, pat, |pre|);
  }

  /** Replacing a first occurrence found at the end of `pre`. */
  lemma ReplaceFirstAfter(pre: string, pat: string, post: string, rep: string)
    requires IndexOf(pre + pat + post, pat) == Some(|pre|)
    ensures ReplaceFirst(pre + pat + post, pat, rep) == pre + rep + post
  {
    var s := pre + pat + post;
    assert s[..|pre|] == pre && s[|pre| + |pat|..] == post;
  }

  /** Digits contain no other character. */
  lemma NonDigitNotIn(s: string, c: char)
    requires AllDigits(s) && !IsDigit(c)
    ensures c !in s
  {
  }

  /** A string without the character does not contain it. */
  lemma NotContainsChar(s: string, c: char)
    requires c !in s
    ensures !Contains(s, [c])
  {
    forall j: nat | j < |s| ensures !At(s, [c], j) {
      assert s[j..j + 1] == [s[j]];
    }
    ContainsIff(s, [c]);
  }

  /** Without the separator there is a single piece. */
  lemma SplitWhole(s: string, sep: char)
    requires sep !in s
    ensures Split(s, sep) == [s]
  {
    NotContainsChar(s, sep);
  }

  /** One separator gives the two pieces around it. */
  lemma SplitTwo(x: string, sep: char, y: string)
    requires sep !in x && sep !in y
    ensures Split(x + [sep] + y, sep) == [x, y]
  {
    var s := x + [sep] + y;
    IndexOfAfter(x, [sep] + y, [sep]);
    assert s == x + ([sep] + y);
    assert s[..|x|] == x && s[|x| + 1..] == y;
    SplitWhole(y, sep);
  }

  /** The first piece ends at the first separator. */
  lemma SplitCons(x: string, sep: char, y: string)
    requires sep !in x
    ensures Split(x + [sep] + y, sep) == [x] + Split(y, sep)
  {
    var s := x + [sep] + y;
    IndexOfAfter(x, [sep] + y, [sep]);
    assert s == x + ([sep] + y);
    assert s[..|x|] == x && s[|x| + 1..] == y;
  }

  /** Joining pieces free of the separator and splitting again gives the
      pieces back. */
  lemma {:induction false} SplitJoin(pieces: seq<string>, sep: char)
    requires |pieces| >= 1
    requires forall k :: 0 <= k < |pieces| ==> sep !in pieces[k]
    ensures Split(Join(pieces, sep), sep) == pieces
    decreases |pieces|
  {
    if |pieces| == 1 {
      SplitWhole(pieces[0], sep);
    } else {
      SplitJoin(pieces[1..], sep);
      SplitCons(pieces[0], sep, Join(pieces[1..], sep));
      assert pieces == [pieces[0]] + pieces[1..];
    }
  }

  /** Removes `p` when `s` starts with it (the source's `/^(p)/` replace). */
  function StripPrefix(s: string, p: string): (r: string)
    ensures p <= s ==> p + r == s
    ensures !(p <= s) ==> r == s
  {
    if p <= s then s[|p|..] else s
  }

  predicate EndsWith(s: string, x: string) {
    |x| <= |s| && s[|s| - |x|..] == x
  }

  /** Removes `x` when `s` ends with it (the source's `/(x)$/` replace). */
  function StripSuffix(s: string, x: string): (r: string)
    ensures EndsWith(s, x) ==> r + x == s
    ensures !EndsWith(s, x) ==> r == s
  {
    if EndsWith(s, x) then s[..|s| - |x|] else s
  }

  /** JavaScript `s.split(sep)` for a one-character separator: the pieces
      between separators, empty pieces included. */
  function Split(s: string, sep: char): (r: seq<string>)
    ensures |r| >= 1
    ensures forall k :: 0 <= k < |r| ==> sep !in r[k]
    decreases |s|
  {
    match IndexOf(s, [sep])
    case None =>
      assert forall j :: 0 <= j < |s| ==> !At(s, [sep], j) ==> s[j] != sep;
      [s]
    case Some(i) =>
      assert forall j :: 0 <= j < i ==> !At(s, [sep], j) ==> s[j] != sep;
      [s[..i]] + Split(s[i + 1..], sep)
  }

  /** Joins pieces with a separator (JavaScript `pieces.join(sep)`). */
  function Join(pieces: seq<string>, sep: char): string
    requires |pieces| >= 1
  {
    if |pieces| == 1 then pieces[0] else pieces[0] + [sep] + Join(pieces[1..], sep)
  }

  /** Splitting and joining again gives back the original string. */
  lemma {:induction false} JoinSplit(s: string, sep: char)
    ensures Join(Split(s, sep), sep) == s
    decreases |s|
  {
    match IndexOf(s, [sep])
    case None =>
    case Some(i) =>
      JoinSplit(s[i + 1..], sep);
      assert s[i..i + 1] == [sep];
      assert s == s[..i] + [sep] + s[i + 1..];
  }

  /** The non-empty pieces of `s` split on spaces (the search tokenizer
      `query.split(' ').filter(word => word.length > 0)`). */
  function Tokens(q: string): (r: seq<string>)
    ensures forall k :: 0 <= k < |r| ==> |r[k]| > 0 && ' ' !in r[k]
  {
    NonEmpty(Split(q, ' '))
  }

  function NonEmpty(ws: seq<string>): (r: seq<string>)
    ensures forall k :: 0 <= k < |r| ==> |r[k]| > 0 && r[k] in ws
    ensures forall w :: w in ws && |w| > 0 ==> w in r
  {
    if |ws| == 0 then []
    else if |ws[0]| > 0 then [ws[0]] + NonEmpty(ws[1..])
    else NonEmpty(ws[1..])
  }

  /** Every token of `query` is a substring of `text` (AND semantics);
      true for a query made of spaces only. */
  predicate MatchesAllTokens(text: string, query: string) {
    forall w :: w in Tokens(query) ==> Contains(text, w)
  }

  /** A query without spaces is a single token. */
  lemma SingleWordQuery(text: string, w: string)
    requires |w| > 0 && ' ' !in w
    ensures MatchesAllTokens(text, w) <==> Contains(text, w)
  {
    forall j: nat
      ensures !At(w, [' '], j)
    {
      if j + 1 <= |w| {
        assert w[j..j + 1] == [w[j]];
      }
    }
    assert Split(w, ' ') == [w];
    assert NonEmpty([w]) == [w] + NonEmpty([]);
    assert Tokens(w) == [w];
  }

  // ---- decimal digits ----

  predicate IsDigit(c: char) { '0' <= c <= '9' }

  function DigitValue(c: char): nat
    requires IsDigit(c)
  {
    (c as int - '0' as int) as nat
  }

  function DigitChar(d: nat): (c: char)
    requires d < 10
    ensures IsDigit(c) && DigitValue(c) == d
  {
    ('0' as int + d) as char
  }

  predicate AllDigits(s: string) {
    forall k :: 0 <= k < |s| ==> IsDigit(s[k])
  }

  /** The value of a run of decimal digits (the empty run is 0). */
  function DigitsValue(s: string): nat
    requires AllDigits(s)
  {
    if |s| == 0 then 0 else DigitsValue(s[..|s| - 1]) * 10 + DigitValue(s[|s| - 1])
  }

  /** Decimal rendering of a natural number, without leading zeros. */
  function NatToString(n: nat): (r: string)
    ensures |r| >= 1 && AllDigits(r)
    ensures |r| > 1 ==> r[0] != '0'
    decreases n
  {
    if n < 10 then [DigitChar(n)] else NatToString(n / 10) + [DigitChar(n % 10)]
  }

  /** Rendering then reading back a number gives the number. */
  lemma {:induction false} NatToStringValue(n: nat)
    ensures DigitsValue(NatToString(n)) == n
    decreases n
  {
    if n >= 10 {
      NatToStringValue(n / 10);
      var r := NatToString(n);
      assert r[..|r| - 1] == NatToString(n / 10);
    }
  }

  /** Decimal rendering of an integer with a leading '-' when negative. */
  function IntToString(n: int): string {
    if n < 0 then "-" + NatToString(-n) else NatToString(n)
  }

  /** Two-digit rendering of 0..99 with a leading zero. */
  function TwoDigits(n: nat): (r: string)
    requires n < 100
    ensures |r| == 2 && AllDigits(r) && DigitsValue(r) == n
  {
    var r := [DigitChar(n / 10), DigitChar(n % 10)];
    assert r[..1] == [DigitChar(n / 10)];
    assert r[..1][..0] == [];
    assert DigitsValue(r[..1]) == n / 10;
    r
  }

  // ---- the order used in place of localeCompare ----

  /** Lexicographic comparison by code unit: -1, 0 or 1. */
  function Cmp(a: string, b: string): (r: int)
    ensures r == 0 <==> a == b
    ensures -1 <= r <= 1
  {
    if |a| == 0 && |b| == 0 then 0
    else if |a| == 0 then -1
    else if |b| == 0 then 1
    else if a[0] < b[0] then -1
    else if a[0] > b[0] then 1
    else
      assert a == [a[0]] + a[1..] && b == [b[0]] + b[1..];
      Cmp(a[1..], b[1..])
  }

  lemma {:induction false} CmpAntisymmetric(a: string, b: string)
    ensures Cmp(a, b) == -Cmp(b, a)
  {
    if |a| > 0 && |b| > 0 && a[0] == b[0] {
      CmpAntisymmetric(a[1..], b[1..]);
    }
  }

  lemma {:induction false} CmpTransitive(a: string, b: string, c: string)
    requires Cmp(a, b) < 0 && Cmp(b, c) < 0
    ensures Cmp(a, c) < 0
  {
    if |a| > 0 && |b| > 0 && |c| > 0 && a[0] == b[0] && b[0] == c[0] {
      CmpTransitive(a[1..], b[1..], c[1..]);
    }
  }

  // ---- case mapping ----

  /** ASCII lower-casing (JavaScript `toLowerCase` on ASCII text). */
  function ToLower(s: string): (r: string)
    ensures |r| == |s|
    ensures forall k :: 0 <= k < |s| ==> ('A' <= s[k] <= 'Z' ==> r[k] as int == s[k] as int + 32)
    ensures forall k :: 0 <= k < |s| ==> (!('A' <= s[k] <= 'Z') ==> r[k] == s[k])
  {
    if |s| == 0 then []
    else [if 'A' <= s[0] <= 'Z' then (s[0] as int + 32) as char else s[0]] + ToLower(s[1..])
  }
}

=== FILE: table.dfy ===
/** The sortable, filterable table engine of components/table.js, whose
    sort and filter logic store_table.js repeats with a fixed default sort.
    The DOM is reduced to what the user can observe: the filtered rows in
    display order, the rendered window, the scroll offset and the sort
    indicator of the clicked column header. */
module Table {
  import opened Wrappers
  import opened Rows
  import Sequences
  import Sorting
  import VirtualList

  /** The `defaultSort` option: the ordering a third click returns to. */
  datatype SortSpec = SortSpec(columns: seq<string>, direction: Direction)

  /** The sort indicator classes on the column headers. Every click clears
      them all and then marks at most the clicked header. */
  datatype Marker = NoMarker | Marked(direction: Direction)

  /** `sortColumns` and `sortDirection` are `null` (`None`) until first set. */
  datatype Table = Table(
    data: seq<Row>,
    filtered: seq<Row>,
    sortColumns: Option<seq<string>>,
    sortDirection: Option<Direction>,
    defaultSort: Option<SortSpec>,
    visibleRows: nat,
    scrollTop: nat,
    view: VirtualList.View<Row>,
    marker: Marker)

  function WindowOf(t: Table): nat {
    VirtualList.WindowSize(t.visibleRows)
  }

  /** A sort direction is always accompanied by sort columns. */
  predicate Valid(t: Table) {
    t.sortDirection.Some? ==> t.sortColumns.Some?
  }

  /** `_CreateTable`: every row passes, nothing is sorted or rendered yet. */
  function Create(data: seq<Row>, defaultSort: Option<SortSpec>, visibleRows: nat): (t: Table)
    ensures Valid(t) && t.filtered == t.data == data
    ensures t.sortColumns.None? && t.sortDirection.None? && t.view.rendered == []
  {
    Table(data, data, None, None, defaultSort, visibleRows, 0,
          VirtualList.View([], VirtualList.Unset, 0), NoMarker)
  }

  /** `_UpdateTable`: rebuild the rendered window for the current offset. */
  function Refresh(t: Table): (r: Table)
    ensures r.data == t.data && r.filtered == t.filtered && r.scrollTop == t.scrollTop
    ensures r.sortColumns == t.sortColumns && r.sortDirection == t.sortDirection
    ensures r.marker == t.marker && r.defaultSort == t.defaultSort
    ensures VirtualList.Consistent(r.view, r.filtered, WindowOf(r))
    ensures r.view.lastStart == VirtualList.At(VirtualList.StartRow(|t.filtered|, WindowOf(t), t.scrollTop))
  {
    VirtualList.UpdateTableWindow(t.filtered, WindowOf(t), t.scrollTop);
    t.(view := VirtualList.UpdateTable(t.filtered, WindowOf(t), t.scrollTop))
  }

  /** The container's scroll handler: only the window moves. */
  function Scroll(t: Table, scrollTop: nat): (r: Table)
    ensures r.data == t.data && r.filtered == t.filtered && r.scrollTop == scrollTop
    ensures VirtualList.Consistent(t.view, t.filtered, WindowOf(t)) ==>
      VirtualList.Consistent(r.view, r.filtered, WindowOf(r))
  {
    var v := VirtualList.UpdateRows(t.view, t.filtered, WindowOf(t), scrollTop);
    assert VirtualList.Consistent(t.view, t.filtered, WindowOf(t)) ==> VirtualList.Consistent(v, t.filtered, WindowOf(t)) by {
      if VirtualList.Consistent(t.view, t.filtered, WindowOf(t)) {
        VirtualList.UpdateRowsSlides(t.view, t.filtered, WindowOf(t), scrollTop);
      }
    }
    t.(scrollTop := scrollTop, view := VirtualList.UpdateRows(t.view, t.filtered, WindowOf(t), scrollTop))
  }

  function Lead(columns: Option<seq<string>>): Option<string> {
    if columns.Some? && |columns.value| > 0 then Some(columns.value[0]) else None
  }

  /** `!sortDirection`: `ASC` is the number 0, so it is falsy like `null`. */
  predicate Falsy(d: Option<Direction>) {
    d.None? || d == Some(Asc)
  }

  /** The sort state after the `columns` option: a different lead column
      forgets the direction. */
  function WithColumns(t: Table, columns: Option<seq<string>>): (r: Table)
    ensures r == t.(sortColumns := r.sortColumns, sortDirection := r.sortDirection)
    ensures Valid(t) ==> Valid(r)
    ensures columns.Some? ==> r.sortColumns == columns
    ensures columns.Some? && Lead(t.sortColumns) != Lead(columns) ==> r.sortDirection.None?
  {
    if columns.None? then t
    else
      var dir := if t.sortDirection.Some? && Lead(t.sortColumns) != Lead(columns) then None else t.sortDirection;
      t.(sortColumns := columns, sortDirection := dir)
  }

  /** The sort state after a header click, and whether the click restored
      the default sort: DESC goes to the default (or to ASC without one),
      ASC goes to DESC, no direction stays unset. */
  function AfterClick(t: Table): (r: (Table, bool))
    ensures r.0 == t.(sortColumns := r.0.sortColumns, sortDirection := r.0.sortDirection)
    ensures Valid(t) ==> Valid(r.0)
    ensures r.1 <==> t.sortDirection == Some(Desc) && t.defaultSort.Some?
  {
    if t.sortDirection == Some(Desc) then
      if t.defaultSort.Some? then
        (t.(sortColumns := Some(t.defaultSort.value.columns), sortDirection := Some(t.defaultSort.value.direction)), true)
      else (t.(sortDirection := Some(Asc)), false)
    else if t.sortDirection == Some(Asc) then (t.(sortDirection := Some(Desc)), false)
    else (t, false)
  }

  /** `_SortRows({columns, event})`; `clicked` stands for the event. */
  function SortRows(t: Table, columns: Option<seq<string>>, clicked: bool): (r: Table)
    ensures r.data == t.data && r.defaultSort == t.defaultSort && r.visibleRows == t.visibleRows
    ensures multiset(r.filtered) == multiset(t.filtered)
    ensures Valid(t) ==> Valid(r)
    ensures |t.data| == 0 ==> r == t
    ensures |t.data| > 0 && r.sortColumns.Some? ==>
      && r.sortDirection.Some?
      && Sorting.Sorted(r.filtered, Order(r.sortColumns.value, r.sortDirection.value))
      && VirtualList.Consistent(r.view, r.filtered, WindowOf(r))
    ensures r.sortColumns.None? ==> r.filtered == t.filtered && r.view == t.view
  {
    if |t.data| == 0 then t
    else
      var t1 := WithColumns(t, columns);
      var (t2, reset) := if clicked then AfterClick(t1) else (t1, false);
      if t2.sortColumns.None? then t2
      else
        var dir := if Falsy(t2.sortDirection) then Asc else Desc;
        var marker := if !clicked then t2.marker else if reset then NoMarker else Marked(dir);
        Resort(t2, dir, marker)
  }

  /** Sort the filtered rows by the current columns in direction `dir`,
      show `marker` and rebuild the window. */
  function Resort(t: Table, dir: Direction, marker: Marker): (r: Table)
    requires t.sortColumns.Some?
    ensures r.data == t.data && r.defaultSort == t.defaultSort && r.visibleRows == t.visibleRows
    ensures r.sortColumns == t.sortColumns && r.sortDirection == Some(dir) && r.marker == marker
    ensures r.scrollTop == t.scrollTop
    ensures multiset(r.filtered) == multiset(t.filtered)
    ensures Sorting.Sorted(r.filtered, Order(t.sortColumns.value, dir))
    ensures VirtualList.Consistent(r.view, r.filtered, WindowOf(r))
  {
    Refresh(t.(filtered := Rows.SortRows(t.filtered, t.sortColumns.value, dir),
               sortDirection := Some(dir), marker := marker))
  }

  /** Re-sorting keeps rows that tie on the sort columns in the order they
      had. */
  lemma ResortStable(t: Table, dir: Direction, marker: Marker, y: Row)
    requires t.sortColumns.Some?
    ensures Sequences.Filter(Resort(t, dir, marker).filtered, Sorting.Ties(Order(t.sortColumns.value, dir), y))
      == Sequences.Filter(t.filtered, Sorting.Ties(Order(t.sortColumns.value, dir), y))
  {
    Rows.SortRowsStable(t.filtered, t.sortColumns.value, dir, y);
  }

  /** `_FilterRows`: keep the rows of `data` that pass `keep`, scroll to the
      top, re-sort without a click and rebuild the window. */
  function FilterRows(t: Table, keep: Row -> bool): (r: Table)
    ensures r.data == t.data && r.defaultSort == t.defaultSort && r.marker == t.marker
    ensures Valid(t) ==> Valid(r)
    ensures |t.data| == 0 ==> r == t
    ensures |t.data| > 0 ==>
      && r.scrollTop == 0
      && (forall x :: multiset(r.filtered)[x] == if keep(x) then multiset(t.data)[x] else 0)
      && VirtualList.Consistent(r.view, r.filtered, WindowOf(r))
      && r.view.lastStart == VirtualList.At(0)
    ensures r.sortColumns == t.sortColumns
    ensures |t.data| > 0 && t.sortColumns.None? ==> r.filtered == Sequences.Filter(t.data, keep)
    ensures |t.data| > 0 && t.sortColumns.Some? ==>
      && r.sortDirection.Some?
      && Sorting.Sorted(r.filtered, Order(r.sortColumns.value, r.sortDirection.value))
  {
    if |t.data| == 0 then t
    else
      var t1 := t.(filtered := Sequences.Filter(t.data, keep), scrollTop := 0);
      var t2 := SortRows(t1, None, false);
      assert multiset(t2.filtered) == multiset(Sequences.Filter(t.data, keep));
      assert forall x :: multiset(t2.filtered)[x] == if keep(x) then multiset(t.data)[x] else 0 by {
        forall x ensures multiset(t2.filtered)[x] == if keep(x) then multiset(t.data)[x] else 0 {
          Sequences.FilterMultiset(t.data, keep, x);
        }
      }
      Refresh(t2)
  }

  /** Filtering and re-sorting keeps rows that tie on the sort columns in
      their order in `data`. */
  lemma FilterRowsStable(t: Table, keep: Row -> bool, y: Row)
    requires |t.data| > 0 && t.sortColumns.Some?
    ensures var r := FilterRows(t, keep);
      && r.sortDirection.Some?
      && Sequences.Filter(r.filtered, Sorting.Ties(Order(r.sortColumns.value, r.sortDirection.value), y))
         == Sequences.Filter(Sequences.Filter(t.data, keep), Sorting.Ties(Order(r.sortColumns.value, r.sortDirection.value), y))
  {
    var t1 := t.(filtered := Sequences.Filter(t.data, keep), scrollTop := 0);
    var dir := if Falsy(t1.sortDirection) then Asc else Desc;
    assert SortRows(t1, None, false) == Resort(t1, dir, t1.marker);
    ResortStable(t1, dir, t1.marker, y);
  }

  /** `Show`: filter with the subclass's predicate, then rebuild. */
  function Show(t: Table, keep: Row -> bool): (r: Table)
    ensures VirtualList.Consistent(r.view, r.filtered, WindowOf(r))
    ensures r.data == t.data && r.sortColumns == t.sortColumns
    ensures |t.data| > 0 ==> forall x :: multiset(r.filtered)[x] == if keep(x) then multiset(t.data)[x] else 0
    ensures |t.data| > 0 && t.sortColumns.None? ==> r.filtered == Sequences.Filter(t.data, keep)
    ensures |t.data| == 0 ==> r.filtered == t.filtered
  {
    Refresh(FilterRows(t, keep))
  }

  /** A click on a header whose lead column differs from the current one
      (or with no direction yet) sorts ascending by that header. */
  lemma FirstClickAscends(t: Table, columns: seq<string>)
    requires |t.data| > 0 && |columns| > 0
    requires t.sortDirection.None? || Lead(t.sortColumns) != Some(columns[0])
    ensures var r := SortRows(t, Some(columns), true);
      r.sortColumns == Some(columns) && r.sortDirection == Some(Asc) && r.marker == Marked(Asc)
  {
    var t1 := WithColumns(t, Some(columns));
    assert t1.sortDirection.None?;
  }

  /** Clicking the header already sorted ascending sorts descending. */
  lemma SecondClickDescends(t: Table, columns: seq<string>)
    requires |t.data| > 0 && |columns| > 0
    requires t.sortColumns == Some(columns) && t.sortDirection == Some(Asc)
    ensures var r := SortRows(t, Some(columns), true);
      r.sortColumns == Some(columns) && r.sortDirection == Some(Desc) && r.marker == Marked(Desc)
  {
    assert WithColumns(t, Some(columns)) == t;
  }

  /** Clicking the header already sorted descending restores the default
      sort without an indicator, or sorts ascending without a default. */
  lemma ThirdClickResets(t: Table, columns: seq<string>)
    requires |t.data| > 0 && |columns| > 0
    requires t.sortColumns == Some(columns) && t.sortDirection == Some(Desc)
    ensures var r := SortRows(t, Some(columns), true);
      && (t.defaultSort.None? ==>
            r.sortColumns == Some(columns) && r.sortDirection == Some(Asc) && r.marker == Marked(Asc))
      && (t.defaultSort.Some? ==>
            && r.sortColumns == Some(t.defaultSort.value.columns)
            && r.sortDirection == Some(t.defaultSort.value.direction)
            && r.marker == NoMarker)
  {
    assert WithColumns(t, Some(columns)) == t;
    if t.defaultSort.Some? {
      var d := t.defaultSort.value.direction;
      assert AfterClick(t).0.sortDirection == Some(d);
      assert (if Falsy(Some(d)) then Asc else Desc) == d;
    }
  }

  /** Three clicks on one header cycle ascending, descending, default. */
  lemma ClickCycle(t: Table, columns: seq<string>)
    requires |t.data| > 0 && |columns| > 0
    requires t.sortDirection.None? || Lead(t.sortColumns) != Some(columns[0])
    ensures var c1 := SortRows(t, Some(columns), true);
      var c2 := SortRows(c1, Some(columns), true);
      var c3 := SortRows(c2, Some(columns), true);
      && c1.sortDirection == Some(Asc) && c2.sortDirection == Some(Desc)
      && (t.defaultSort.None? ==> c3.sortDirection == Some(Asc) && c3.marker == Marked(Asc))
      && (t.defaultSort.Some? ==>
            c3.sortColumns == Some(t.defaultSort.value.columns) && c3.marker == NoMarker)
  {
    FirstClickAscends(t, columns);
    var c1 := SortRows(t, Some(columns), true);
    SecondClickDescends(c1, columns);
    ThirdClickResets(SortRows(c1, Some(columns), true), columns);
  }

  /** After a click that sorted, the indicator is cleared exactly when the
      default sort was restored, and otherwise shows the sort direction. */
  lemma MarkerShowsDirection(t: Table, columns: Option<seq<string>>)
    requires |t.data| > 0
    ensures var r := SortRows(t, columns, true);
      r.sortColumns.Some? && r.marker.Marked? ==> r.sortDirection == Some(r.marker.direction)
  {
  }

  /** Re-sorting without a click (as filtering does) keeps the order. */
  lemma ResortKeepsOrder(t: Table, columns: Option<seq<string>>, clicked: bool)
    ensures var r := SortRows(t, columns, clicked);
      SortRows(r, None, false).filtered == r.filtered
  {
    var r := SortRows(t, columns, clicked);
    if |r.data| > 0 && r.sortColumns.Some? {
      ResortUnclicked(r);
      SortedRowsStay(r.filtered, r.sortColumns.value, r.sortDirection.value);
    }
  }

  /** Without a click and without new columns the rows are sorted again in
      the direction already shown. */
  lemma ResortUnclicked(t: Table)
    requires |t.data| > 0 && t.sortColumns.Some? && t.sortDirection.Some?
    ensures SortRows(t, None, false).filtered
      == Rows.SortRows(t.filtered, t.sortColumns.value, t.sortDirection.value)
  {
    var dir := if Falsy(t.sortDirection) then Asc else Desc;
    assert dir == t.sortDirection.value;
    assert SortRows(t, None, false) == Resort(t, dir, t.marker);
    ResortFiltered(t, dir, t.marker);
  }

  lemma ResortFiltered(t: Table, dir: Direction, marker: Marker)
    requires t.sortColumns.Some?
    ensures Resort(t, dir, marker).filtered == Rows.SortRows(t.filtered, t.sortColumns.value, dir)
  {
  }

  lemma SortedRowsStay(rows: seq<Row>, columns: seq<string>, dir: Direction)
    requires Sorting.Sorted(rows, Order(columns, dir))
    ensures Rows.SortRows(rows, columns, dir) == rows
  {
    Sorting.SortOfSorted(rows, Order(columns, dir));
  }

  /** Filtering twice with the same predicate is filtering once. */
  lemma FilterRowsIdempotent(t: Table, keep: Row -> bool)
    ensures FilterRows(FilterRows(t, keep), keep) == FilterRows(t, keep)
  {
  }
}

=== FILE: url_encoding.dfy ===
/** The `application/x-www-form-urlencoded` serializer behind
    `new URLSearchParams(data).toString()` (section 5.2 of the WHATWG URL
    Standard), which builds the query string of every GET request sent to
    ASF, together with the standard's parser as its inverse. */
module UrlEncoding {
  import opened Wrappers
  import Strings

  type Byte = b: int | 0 <= b < 256

  /** Code points a Dafny `char` can hold: the Unicode scalar values. */
  predicate IsScalar(n: int) {
    (0 <= n < 0xD800) || (0xE000 <= n < 0x110000)
  }

  predicate Continuation(b: Byte) {
    0x80 <= b < 0xC0
  }

  // ---- UTF-8 ----

  /** The UTF-8 encoding of one character. */
  function Utf8(c: char): (r: seq<Byte>)
    ensures 1 <= |r| <= 4
    ensures |r| == 1 <==> c as int < 0x80
    ensures |r| == 1 ==> r[0] == c as int
    ensures forall k :: 1 <= k < |r| ==> Continuation(r[k])
  {
    var n := c as int;
    if n < 0x80 then [n]
    else if n < 0x800 then [0xC0 + n / 64, 0x80 + n % 64]
    else if n < 0x10000 then [0xE0 + n / 4096, 0x80 + (n / 64) % 64, 0x80 + n % 64]
    else [0xF0 + n / 262144, 0x80 + (n / 4096) % 64, 0x80 + (n / 64) % 64, 0x80 + n % 64]
  }

  /** The UTF-8 encoding of a string. */
  function Utf8Of(s: string): seq<Byte>
    decreases |s|
  {
    if |s| == 0 then [] else Utf8(s[0]) + Utf8Of(s[1..])
  }

  /** The code point and length of the UTF-8 sequence at the head of `bs`,
      or a code point of -1 when the head is malformed. */
  function Lead(bs: seq<Byte>): (r: (int, nat))
    requires |bs| > 0
    ensures 1 <= r.1 <= |bs|
  {
    var b := bs[0] as int;
    if b < 0x80 then (b, 1)
    else if 0xC0 <= b < 0xE0 && |bs| >= 2 && Continuation(bs[1]) then
      ((b - 0xC0) * 64 + (bs[1] as int - 0x80), 2)
    else if 0xE0 <= b < 0xF0 && |bs| >= 3 && Continuation(bs[1]) && Continuation(bs[2]) then
      ((b - 0xE0) * 4096 + (bs[1] as int - 0x80) * 64 + (bs[2] as int - 0x80), 3)
    else if 0xF0 <= b < 0xF8 && |bs| >= 4 && Continuation(bs[1]) && Continuation(bs[2]) && Continuation(bs[3]) then
      ((b - 0xF0) * 262144 + (bs[1] as int - 0x80) * 4096 + (bs[2] as int - 0x80) * 64 + (bs[3] as int - 0x80), 4)
    else (-1, 1)
  }

  /** UTF-8 decoding; `None` for a malformed sequence. */
  function Utf8Decode(bs: seq<Byte>): Option<string>
    decreases |bs|
  {
    if |bs| == 0 then Some("")
    else
      var (n, len) := Lead(bs);
      if !IsScalar(n) then None
      else match Utf8Decode(bs[len..])
        case None => None
        case Some(rest) => Some([n as char] + rest)
  }

  /** The head of an encoded character decodes to that character. */
  lemma LeadOfUtf8(c: char, rest: seq<Byte>)
    ensures Lead(Utf8(c) + rest) == (c as int, |Utf8(c)|)
  {
    var n := c as int;
    if 0x800 <= n < 0x10000 {
      LeadOfThree(c, rest);
    } else if 0x10000 <= n {
      LeadOfFour(c, rest);
    }
  }

  lemma LeadOfThree(c: char, rest: seq<Byte>)
    requires 0x800 <= c as int < 0x10000
    ensures Lead(Utf8(c) + rest) == (c as int, 3)
  {
    var n := c as int;
    assert n / 64 == (n / 4096) * 64 + (n / 64) % 64;
  }

  lemma LeadOfFour(c: char, rest: seq<Byte>)
    requires 0x10000 <= c as int
    ensures Lead(Utf8(c) + rest) == (c as int, 4)
  {
    var n := c as int;
    assert n / 4096 == (n / 262144) * 64 + (n / 4096) % 64;
    assert n / 64 == (n / 4096) * 64 + (n / 64) % 64;
  }

  /** Decoding one encoded character in front of the rest. */
  lemma Utf8DecodeCons(c: char, rest: seq<Byte>)
    ensures Utf8Decode(Utf8(c) + rest) ==
      (match Utf8Decode(rest) case None => None case Some(t) => Some([c] + t))
  {
    LeadOfUtf8(c, rest);
    var bs := Utf8(c) + rest;
    assert bs[|Utf8(c)|..] == rest;
  }

  /** UTF-8 decoding inverts UTF-8 encoding. */
  lemma {:induction false} Utf8RoundTrip(s: string)
    ensures Utf8Decode(Utf8Of(s)) == Some(s)
    decreases |s|
  {
    if |s| > 0 {
      Utf8RoundTrip(s[1..]);
      Utf8DecodeCons(s[0], Utf8Of(s[1..]));
      assert s == [s[0]] + s[1..];
    }
  }

  // ---- percent-encoding ----

  /** The bytes the serializer leaves as they are: `*`, `-`, `.`, the
      ASCII digits, the ASCII letters and `_`. */
  predicate Unreserved(b: Byte) {
    b == 0x2A || b == 0x2D || b == 0x2E || 0x30 <= b <= 0x39
    || 0x41 <= b <= 0x5A || b == 0x5F || 0x61 <= b <= 0x7A
  }

  /** An upper-case hexadecimal digit. */
  function HexDigit(d: nat): char
    requires d < 16
  {
    if d < 10 then ('0' as int + d) as char else ('A' as int + d - 10) as char
  }

  /** The value of a hexadecimal digit of either case. */
  function HexValue(c: char): (r: Option<nat>)
    ensures r.Some? ==> r.value < 16
  {
    if '0' <= c <= '9' then Some(c as int - '0' as int)
    else if 'A' <= c <= 'F' then Some(c as int - 'A' as int + 10)
    else if 'a' <= c <= 'f' then Some(c as int - 'a' as int + 10)
    else None
  }

  lemma HexValueOfDigit(d: nat)
    requires d < 16
    ensures HexValue(HexDigit(d)) == Some(d)
  {
  }

  /** The characters the serializer can emit. */
  predicate Emitted(c: char) {
    c == '+' || c == '%' || (c as int < 256 && Unreserved(c as int))
  }

  /** One byte: unreserved bytes as themselves, the space as `+`, every
      other byte as `%` and two upper-case hex digits. */
  function EncodeByte(b: Byte): (r: string)
    ensures forall k :: 0 <= k < |r| ==> Emitted(r[k])
  {
    if Unreserved(b) then [b as char]
    else if b == 0x20 then "+"
    else ['%', HexDigit(b / 16), HexDigit(b % 16)]
  }

  function EncodeBytes(bs: seq<Byte>): (r: string)
    ensures forall k :: 0 <= k < |r| ==> Emitted(r[k])
    decreases |bs|
  {
    if |bs| == 0 then ""
    else
      var h := EncodeByte(bs[0]);
      var t := EncodeBytes(bs[1..]);
      assert forall k :: |h| <= k < |h| + |t| ==> (h + t)[k] == t[k - |h|];
      h + t
  }

  /** The serialization of one name or value: its UTF-8 bytes,
      percent-encoded. */
  function Serialize(s: string): (r: string)
    ensures forall k :: 0 <= k < |r| ==> Emitted(r[k])
  {
    EncodeBytes(Utf8Of(s))
  }

  /** The parser's byte sequence: `+` is a space, `%` with two hex digits
      is that byte, any other character stands for its UTF-8 bytes. */
  function DecodeBytes(t: string): seq<Byte>
    decreases |t|
  {
    if |t| == 0 then []
    else if t[0] == '+' then [0x20] + DecodeBytes(t[1..])
    else if t[0] == '%' && |t| >= 3 && HexValue(t[1]).Some? && HexValue(t[2]).Some? then
      [HexValue(t[1]).value * 16 + HexValue(t[2]).value] + DecodeBytes(t[3..])
    else Utf8(t[0]) + DecodeBytes(t[1..])
  }

  /** The parser's reading of one name or value; `None` where the standard
      would substitute U+FFFD for malformed UTF-8. */
  function Deserialize(t: string): Option<string> {
    Utf8Decode(DecodeBytes(t))
  }

  lemma DecodeEncodedByte(b: Byte, rest: string)
    ensures DecodeBytes(EncodeByte(b) + rest) == [b] + DecodeBytes(rest)
  {
    var t := EncodeByte(b) + rest;
    if Unreserved(b) {
      assert t[1..] == rest;
    } else if b == 0x20 {
      assert t[1..] == rest;
    } else {
      HexValueOfDigit(b / 16);
      HexValueOfDigit(b % 16);
      assert t[3..] == rest;
    }
  }

  lemma {:induction false} BytesRoundTrip(bs: seq<Byte>)
    ensures DecodeBytes(EncodeBytes(bs)) == bs
    decreases |bs|
  {
    if |bs| > 0 {
      BytesRoundTrip(bs[1..]);
      DecodeEncodedByte(bs[0], EncodeBytes(bs[1..]));
      assert bs == [bs[0]] + bs[1..];
    }
  }

  /** The parser reads back every serialized name and value. */
  lemma SerializeRoundTrip(s: string)
    ensures Deserialize(Serialize(s)) == Some(s)
  {
    BytesRoundTrip(Utf8Of(s));
    Utf8RoundTrip(s);
  }

  /** A character the serializer passes through unchanged. */
  predicate Plain(c: char) {
    c as int < 0x80 && Unreserved(c as int)
  }

  /** Names and values made of plain characters are sent as they are. */
  lemma {:induction false} SerializePlain(s: string)
    requires forall k :: 0 <= k < |s| ==> Plain(s[k])
    ensures Serialize(s) == s
    decreases |s|
  {
    if |s| > 0 {
      SerializePlain(s[1..]);
      var bs := Utf8Of(s);
      assert bs == [s[0] as int] + Utf8Of(s[1..]);
      assert bs[1..] == Utf8Of(s[1..]);
      assert s == [s[0]] + s[1..];
    }
  }

  // ---- name-value lists ----

  /** `name=value` for one entry. */
  function Entry(p: (string, string)): string {
    Serialize(p.0) + "=" + Serialize(p.1)
  }

  function Entries(data: seq<(string, string)>): (r: seq<string>)
    ensures |r| == |data|
    ensures forall k :: 0 <= k < |r| ==> r[k] == Entry(data[k])
  {
    seq(|data|, k requires 0 <= k < |data| => Entry(data[k]))
  }

  /** `URLSearchParams.toString()`: the entries in order, joined by `&`;
      empty for no entries. */
  function Query(data: seq<(string, string)>): string {
    if |data| == 0 then "" else Strings.Join(Entries(data), '&')
  }

  /** A single entry of plain characters is sent as `name=value`. */
  lemma QueryOfPlainEntry(name: string, value: string)
    requires forall k :: 0 <= k < |name| ==> Plain(name[k])
    requires forall k :: 0 <= k < |value| ==> Plain(value[k])
    ensures Query([(name, value)]) == name + "=" + value
  {
    SerializePlain(name);
    SerializePlain(value);
    assert Entries([(name, value)]) == [name + "=" + value];
  }

  /** One `name=value` piece: split at the first `=`; without one the
      value is empty. */
  function ParseEntry(piece: string): Option<(string, string)> {
    var parts := Strings.Split(piece, '=');
    var value := if |parts| == 1 then "" else Strings.Join(parts[1..], '=');
    match (Deserialize(parts[0]), Deserialize(value))
    case (Some(n), Some(v)) => Some((n, v))
    case _ => None
  }

  /** Parses the pieces between `&`s, skipping empty ones. */
  function ParseEntries(pieces: seq<string>): Option<seq<(string, string)>>
    decreases |pieces|
  {
    if |pieces| == 0 then Some([])
    else if pieces[0] == "" then ParseEntries(pieces[1..])
    else match (ParseEntry(pieces[0]), ParseEntries(pieces[1..]))
      case (Some(e), Some(es)) => Some([e] + es)
      case _ => None
  }

  /** The standard's `application/x-www-form-urlencoded` parser. */
  function ParseQuery(q: string): Option<seq<(string, string)>> {
    ParseEntries(Strings.Split(q, '&'))
  }

  lemma NotEmitted(r: string, c: char)
    requires forall k :: 0 <= k < |r| ==> Emitted(r[k])
    requires !Emitted(c)
    ensures c !in r
  {
  }

  lemma ParseOneEntry(p: (string, string))
    ensures ParseEntry(Entry(p)) == Some(p)
  {
    NotEmitted(Serialize(p.0), '=');
    NotEmitted(Serialize(p.1), '=');
    Strings.SplitTwo(Serialize(p.0), '=', Serialize(p.1));
    SerializeRoundTrip(p.0);
    SerializeRoundTrip(p.1);
  }

  lemma {:induction false} ParseAllEntries(data: seq<(string, string)>)
    ensures ParseEntries(Entries(data)) == Some(data)
    decreases |data|
  {
    if |data| > 0 {
      EntriesTail(data);
      ParseOneEntry(data[0]);
      ParseAllEntries(data[1..]);
      ParseCons(Entries(data), data[0], data[1..]);
    }
  }

  lemma EntriesTail(data: seq<(string, string)>)
    requires |data| > 0
    ensures Entries(data)[1..] == Entries(data[1..])
    ensures Entries(data)[0] == Entry(data[0]) != ""
    ensures data == [data[0]] + data[1..]
  {
  }

  /** A non-empty first piece that parses is the first entry. */
  lemma ParseCons(pieces: seq<string>, e: (string, string), es: seq<(string, string)>)
    requires |pieces| > 0 && pieces[0] != ""
    requires ParseEntry(pieces[0]) == Some(e) && ParseEntries(pieces[1..]) == Some(es)
    ensures ParseEntries(pieces) == Some([e] + es)
  {
  }

  /** Parsing a serialized list gives back its entries in order: no
      character of a name or value can break the query apart. */
  lemma QueryRoundTrip(data: seq<(string, string)>)
    ensures ParseQuery(Query(data)) == Some(data)
  {
    if |data| == 0 {
      assert Strings.Split("", '&') == [""];
    } else {
      var es := Entries(data);
      forall k | 0 <= k < |es| ensures '&' !in es[k] {
        NotEmitted(Serialize(data[k].0), '&');
        NotEmitted(Serialize(data[k].1), '&');
      }
      Strings.SplitJoin(es, '&');
      ParseAllEntries(data);
    }
  }
}

=== FILE: virtual_list.dfy ===
/** The virtual scrolling window of components/table.js (`_UpdateTable`,
    `#UpdateRows`), duplicated in store_table.js. Only a window of
    `n = visibleRows + 2 * BUFFER_ROWS` rows is materialised; scrolling
    slides the window by shifting rendered rows out at one end and
    materialising new ones at the other. A rendered row element is
    identified with the data row it shows. */
module VirtualList {
  import opened Sequences

  const ROW_HEIGHT: nat := 69
  const BUFFER_ROWS: nat := 3

  /** The number of materialised rows: the visible rows (at least one)
      plus a buffer above and below. */
  function WindowSize(visibleRows: nat): (n: nat)
    ensures n == if visibleRows < 1 then 7 else visibleRows + 6
  {
    (if visibleRows < 1 then 1 else visibleRows) + BUFFER_ROWS * 2
  }

  /** `#lastStartRow`: `Unset` is the `+Infinity` a full rebuild stores. */
  datatype Start = Unset | At(row: int)

  /** Rendered rows (`#rowElements`), last window start and the body's
      vertical translation in pixels. */
  datatype View<T> = View(rendered: seq<T>, lastStart: Start, offset: int)

  /** The first materialised row for a scroll offset:
      `max(0, min(len - n, floor(scrollTop / 69) - 3))`. */
  function StartRow(len: nat, n: nat, scrollTop: nat): (s: nat)
    ensures len <= n ==> s == 0
    ensures len > n ==> s + n <= len
    ensures n > BUFFER_ROWS && scrollTop / ROW_HEIGHT < len ==> s <= scrollTop / ROW_HEIGHT < s + n
    ensures n >= BUFFER_ROWS ==> Min(len, scrollTop / ROW_HEIGHT + n - 2 * BUFFER_ROWS) <= s + n
  {
    Max(0, Min(len - n, scrollTop / ROW_HEIGHT - BUFFER_ROWS))
  }

  /** The shift of the window, clamped to `[-n, n]`; from `Unset` it is `-n`. */
  function Diff(last: Start, s: int, n: nat): (d: int)
    ensures -(n as int) <= d <= n
    ensures last.At? && -(n as int) <= s - last.row <= n ==> d == s - last.row
    ensures last.Unset? ==> d == -(n as int)
  {
    match last
    case Unset => -(n as int)
    case At(p) => Max(-(n as int), Min(n, s - p))
  }

  /** `rowElements.shift()`; the correctness lemmas show it is never applied
      to an empty list. */
  function Shift<T>(r: seq<T>): seq<T> { if |r| == 0 then [] else r[1..] }

  /** `rowElements.pop()`, likewise never applied to an empty list. */
  function Pop<T>(r: seq<T>): seq<T> { if |r| == 0 then [] else r[..|r| - 1] }

  /** One step of the downward loop: drop the top row and append the row
      at `idx`, or do nothing when `idx` is outside the data. */
  function DownStep<T>(r: seq<T>, data: seq<T>, idx: int): seq<T> {
    if idx >= |data| || idx < 0 then r else Shift(r) + [data[idx]]
  }

  /** Scrolling down: for each `i < diff`, a step at row `s + n - diff + i`. */
  function DownLoop<T>(r: seq<T>, data: seq<T>, s: int, n: int, diff: int, i: int): seq<T>
    decreases diff - i
  {
    if i >= diff then r
    else DownLoop(DownStep(r, data, s + n - diff + i), data, s, n, diff, i + 1)
  }

  /** One step of the upward loop: drop the bottom row and prepend the row
      at `idx`, or do nothing when `idx` is outside the data. */
  function UpStep<T>(r: seq<T>, data: seq<T>, idx: int): seq<T> {
    if idx >= |data| || idx < 0 then r else [data[idx]] + Pop(r)
  }

  /** Scrolling up: for each `i < m`, a step at row `s + m - 1 - i`. */
  function UpLoop<T>(r: seq<T>, data: seq<T>, s: int, m: int, i: int): seq<T>
    decreases m - i
  {
    if i >= m then r
    else UpLoop(UpStep(r, data, s + m - 1 - i), data, s, m, i + 1)
  }

  /** `#UpdateRows`: recompute the start row; if it moved, slide the window
      and translate the body to `start * ROW_HEIGHT`. */
  function UpdateRows<T>(v: View<T>, data: seq<T>, n: nat, scrollTop: nat): (r: View<T>)
    ensures r.lastStart == At(StartRow(|data|, n, scrollTop))
    ensures v.lastStart == At(StartRow(|data|, n, scrollTop)) ==> r == v
    ensures v.lastStart != At(StartRow(|data|, n, scrollTop)) ==> r.offset == StartRow(|data|, n, scrollTop) * ROW_HEIGHT
  {
    var s := StartRow(|data|, n, scrollTop);
    if v.lastStart == At(s) then v
    else
      View(Slid(v, data, n, s), At(s), s * ROW_HEIGHT)
  }

  /** The rendered rows after sliding the window to start row `s`: scroll
      down by a positive shift, up otherwise. */
  function Slid<T>(v: View<T>, data: seq<T>, n: nat, s: int): seq<T> {
    var diff := Diff(v.lastStart, s, n);
    if diff > 0 then DownLoop(v.rendered, data, s, n, diff, 0)
    else UpLoop(v.rendered, data, s, -diff, 0)
  }

  /** `_UpdateTable`: discard every rendered row, materialise the first
      `min(n, len)` rows, forget the last start, then run `#UpdateRows`. */
  function Rebuilt<T>(data: seq<T>, n: nat): (v: View<T>)
    ensures v.lastStart == Unset
    ensures v.rendered == data[..Min(n, |data|)]
  {
    View(data[..Min(n, |data|)], Unset, 0)
  }

  /** `_UpdateTable`: rebuild the rendered rows, then run `#UpdateRows`. */
  function UpdateTable<T>(data: seq<T>, n: nat, scrollTop: nat): (r: View<T>)
    ensures r.lastStart == At(StartRow(|data|, n, scrollTop))
    ensures r.offset == StartRow(|data|, n, scrollTop) * ROW_HEIGHT
  {
    UpdateRows(Rebuilt(data, n), data, n, scrollTop)
  }

  /** The window invariant: the rendered rows are exactly the contiguous
      slice of the data starting at the recorded start row, and the body is
      translated to that row. */
  ghost predicate Consistent<T>(v: View<T>, data: seq<T>, n: nat) {
    && v.lastStart.At?
    && 0 <= v.lastStart.row
    && (if |data| <= n then v.lastStart.row == 0 else v.lastStart.row + n <= |data|)
    && v.rendered == data[v.lastStart.row..v.lastStart.row + Min(n, |data|)]
    && v.offset == v.lastStart.row * ROW_HEIGHT
  }

  /** What the downward loop leaves from step `i` on: the old rows it did
      not shift out, followed by the data rows up to `s + n`. */
  function DownClosed<T>(r: seq<T>, data: seq<T>, s: int, n: int, diff: int, i: int): seq<T>
    requires 0 <= i <= diff && 0 <= s + n - diff && s + n <= |data|
    requires |r| >= diff - i
  {
    r[diff - i..] + data[s + n - diff + i..s + n]
  }

  ghost predicate DownSliced<T>(r: seq<T>, data: seq<T>, s: int, n: int, diff: int, i: int)
    requires 0 <= i <= diff && 0 <= s + n - diff && s + n <= |data|
    requires |r| >= diff - i
  {
    DownLoop(r, data, s, n, diff, i) == DownClosed(r, data, s, n, diff, i)
  }

  lemma {:induction false} DownLoopSlice<T>(r: seq<T>, data: seq<T>, s: int, n: int, diff: int, i: int)
    requires 0 <= i <= diff && 0 <= s + n - diff && s + n <= |data|
    requires |r| >= diff - i
    ensures DownSliced(r, data, s, n, diff, i)
    decreases diff - i
  {
    if i < diff {
      DownStepLength(r, data, s, n, diff, i);
      DownLoopSlice(DownStep(r, data, s + n - diff + i), data, s, n, diff, i + 1);
      DownStepSliced(r, data, s, n, diff, i);
    } else {
      DownBase(r, data, s, n, diff, i);
    }
  }

  lemma DownBase<T>(r: seq<T>, data: seq<T>, s: int, n: int, diff: int, i: int)
    requires 0 <= i == diff && 0 <= s + n - diff && s + n <= |data|
    ensures DownSliced(r, data, s, n, diff, i)
  {
    EmptyTail(r, data, s + n);
  }

  /** Inside the data every step shifts one row out and appends one. */
  lemma DownStepLength<T>(r: seq<T>, data: seq<T>, s: int, n: int, diff: int, i: int)
    requires 0 <= i < diff && 0 <= s + n - diff && s + n <= |data|
    requires |r| >= diff - i
    ensures DownStep(r, data, s + n - diff + i) == Shift(r) + [data[s + n - diff + i]]
    ensures |DownStep(r, data, s + n - diff + i)| >= diff - (i + 1)
  {
  }

  /** The closed form survives one step of the loop. */
  lemma DownStepSliced<T>(r: seq<T>, data: seq<T>, s: int, n: int, diff: int, i: int)
    requires 0 <= i < diff && 0 <= s + n - diff && s + n <= |data|
    requires |r| >= diff - i
    requires |DownStep(r, data, s + n - diff + i)| >= diff - (i + 1)
    requires DownSliced(DownStep(r, data, s + n - diff + i), data, s, n, diff, i + 1)
    ensures DownSliced(r, data, s, n, diff, i)
  {
    var r' := DownStep(r, data, s + n - diff + i);
    DownUnfold(r, data, s, n, diff, i);
    DownClosedStep(r, data, s, n, diff, i);
    Chain(DownLoop(r, data, s, n, diff, i), DownLoop(r', data, s, n, diff, i + 1),
      DownClosed(r', data, s, n, diff, i + 1), DownClosed(r, data, s, n, diff, i));
  }

  lemma DownUnfold<T>(r: seq<T>, data: seq<T>, s: int, n: int, diff: int, i: int)
    requires i < diff
    ensures DownLoop(r, data, s, n, diff, i) == DownLoop(DownStep(r, data, s + n - diff + i), data, s, n, diff, i + 1)
  {
  }

  /** The closed form moves by one appended row per step. */
  lemma DownClosedStep<T>(r: seq<T>, data: seq<T>, s: int, n: int, diff: int, i: int)
    requires 0 <= i < diff && 0 <= s + n - diff && s + n <= |data|
    requires |r| >= diff - i
    ensures |DownStep(r, data, s + n - diff + i)| >= diff - (i + 1)
    ensures DownClosed(DownStep(r, data, s + n - diff + i), data, s, n, diff, i + 1) == DownClosed(r, data, s, n, diff, i)
  {
    var idx := s + n - diff + i;
    DownStepLength(r, data, s, n, diff, i);
    ShiftAppend(r, data[idx], diff - i);
    ConsSlice(data, idx, s + n);
    AppendAssoc(r[diff - i..], [data[idx]], data[idx + 1..s + n]);
  }

  lemma EmptyTail<T>(r: seq<T>, data: seq<T>, k: int)
    requires 0 <= k <= |data|
    ensures r[0..] + data[k..k] == r
  {
  }

  lemma ShiftAppend<T>(r: seq<T>, x: T, k: int)
    requires 1 <= k <= |r|
    ensures (Shift(r) + [x])[k - 1..] == r[k..] + [x]
  {
  }

  lemma ConsSlice<T>(data: seq<T>, lo: int, hi: int)
    requires 0 <= lo < hi <= |data|
    ensures data[lo..hi] == [data[lo]] + data[lo + 1..hi]
  {
  }

  lemma AppendAssoc<T>(a: seq<T>, b: seq<T>, c: seq<T>)
    ensures (a + b) + c == a + (b + c)
  {
  }

  /** What the upward loop leaves from step `i` on: the data rows from `s`
      up to the last index it reaches, followed by the old rows it did not
      pop. */
  function UpClosed<T>(r: seq<T>, data: seq<T>, s: int, m: int, i: int): seq<T>
    requires 0 <= i <= m && 0 <= s <= |data|
    requires |r| >= m - Max(i, s + m - |data|)
  {
    var i0 := Max(i, s + m - |data|);
    data[s..s + m - i0] + r[..|r| - (m - i0)]
  }

  ghost predicate UpSliced<T>(r: seq<T>, data: seq<T>, s: int, m: int, i: int)
    requires 0 <= i <= m && 0 <= s <= |data|
    requires |r| >= m - Max(i, s + m - |data|)
  {
    UpLoop(r, data, s, m, i) == UpClosed(r, data, s, m, i)
  }

  lemma {:induction false} UpLoopSlice<T>(r: seq<T>, data: seq<T>, s: int, m: int, i: int)
    requires 0 <= i <= m && 0 <= s <= |data|
    requires |r| >= m - Max(i, s + m - |data|)
    ensures UpSliced(r, data, s, m, i)
    decreases m - i
  {
    if i < m {
      UpStepLength(r, data, s, m, i);
      UpLoopSlice(UpStep(r, data, s + m - 1 - i), data, s, m, i + 1);
      UpStepSliced(r, data, s, m, i);
    } else {
      UpBase(r, data, s, m, i);
    }
  }

  /** A step keeps enough old rows for the steps after it. */
  lemma UpStepLength<T>(r: seq<T>, data: seq<T>, s: int, m: int, i: int)
    requires 0 <= i < m && 0 <= s <= |data|
    requires |r| >= m - Max(i, s + m - |data|)
    ensures |UpStep(r, data, s + m - 1 - i)| >= m - Max(i + 1, s + m - |data|)
  {
  }

  /** The closed form survives one step of the loop, skipped or not. */
  lemma UpStepSliced<T>(r: seq<T>, data: seq<T>, s: int, m: int, i: int)
    requires 0 <= i < m && 0 <= s <= |data|
    requires |r| >= m - Max(i, s + m - |data|)
    requires |UpStep(r, data, s + m - 1 - i)| >= m - Max(i + 1, s + m - |data|)
    requires UpSliced(UpStep(r, data, s + m - 1 - i), data, s, m, i + 1)
    ensures UpSliced(r, data, s, m, i)
  {
    if s + m - 1 - i >= |data| {
      UpSkip(r, data, s, m, i);
    } else {
      UpCombine(r, data, s, m, i);
    }
  }

  /** The upward loop has nothing left to do once `i` reaches `m`. */
  lemma UpBase<T>(r: seq<T>, data: seq<T>, s: int, m: int, i: int)
    requires 0 <= i == m && 0 <= s <= |data|
    ensures UpSliced(r, data, s, m, i)
  {
    assert Max(i, s + m - |data|) == m;
    EmptyHead(r, data, s);
  }

  /** A step past the end of the data leaves the rendered rows alone. */
  lemma UpSkip<T>(r: seq<T>, data: seq<T>, s: int, m: int, i: int)
    requires 0 <= i < m && 0 <= s <= |data| && s + m - 1 - i >= |data|
    requires |r| >= m - Max(i, s + m - |data|)
    requires UpSliced(r, data, s, m, i + 1)
    ensures UpSliced(r, data, s, m, i)
  {
    assert Max(i + 1, s + m - |data|) == Max(i, s + m - |data|);
  }

  /** One prepending step of the upward loop, given the rest of it. */
  lemma UpCombine<T>(r: seq<T>, data: seq<T>, s: int, m: int, i: int)
    requires 0 <= i < m && 0 <= s <= |data| && s + m - 1 - i < |data| && |r| >= m - i
    requires UpSliced([data[s + m - 1 - i]] + Pop(r), data, s, m, i + 1)
    ensures UpSliced(r, data, s, m, i)
  {
    var r' := [data[s + m - 1 - i]] + Pop(r);
    UpFirstStep(r, data, s, m, i);
    UpClosedStep(r, data, s, m, i);
    Chain(UpLoop(r, data, s, m, i), UpLoop(r', data, s, m, i + 1),
      UpClosed(r', data, s, m, i + 1), UpClosed(r, data, s, m, i));
  }

  lemma Chain<T>(a: seq<T>, b: seq<T>, c: seq<T>, d: seq<T>)
    requires a == b && b == c && c == d
    ensures a == d
  {
  }

  lemma UpFirstStep<T>(r: seq<T>, data: seq<T>, s: int, m: int, i: int)
    requires 0 <= i < m && 0 <= s + m - 1 - i < |data|
    ensures UpLoop(r, data, s, m, i) == UpLoop([data[s + m - 1 - i]] + Pop(r), data, s, m, i + 1)
  {
    UpUnfold(r, data, s, m, i);
  }

  /** The closed form moves by one prepended row per step. */
  lemma UpClosedStep<T>(r: seq<T>, data: seq<T>, s: int, m: int, i: int)
    requires 0 <= i < m && 0 <= s <= |data| && s + m - 1 - i < |data| && |r| >= m - i
    ensures UpClosed([data[s + m - 1 - i]] + Pop(r), data, s, m, i + 1) == UpClosed(r, data, s, m, i)
  {
    assert Max(i + 1, s + m - |data|) == i + 1;
    assert Max(i, s + m - |data|) == i;
    PrependSlices(r, data, s, s + m - 1 - i, m - i);
  }

  /** Prepending `data[idx]` to the popped rows extends the data slice by
      one row and shortens the kept prefix of the old rows by one. */
  lemma PrependSlices<T>(r: seq<T>, data: seq<T>, s: int, idx: int, k: int)
    requires 0 <= s <= idx < |data| && 1 <= k <= |r|
    ensures data[s..idx] + ([data[idx]] + Pop(r))[..|r| - (k - 1)] == data[s..idx + 1] + r[..|r| - k]
  {
    PrependPop(r, data[idx], k);
    SnocSlice(data, s, idx + 1);
    AppendAssoc(data[s..idx], [data[idx]], r[..|r| - k]);
  }

  lemma UpUnfold<T>(r: seq<T>, data: seq<T>, s: int, m: int, i: int)
    requires i < m
    ensures UpLoop(r, data, s, m, i) == UpLoop(UpStep(r, data, s + m - 1 - i), data, s, m, i + 1)
  {
  }
  lemma PrependPop<T>(r: seq<T>, x: T, k: int)
    requires 1 <= k <= |r|
    ensures ([x] + Pop(r))[..|[x] + Pop(r)| - (k - 1)] == [x] + r[..|r| - k]
  {
  }

  lemma SnocSlice<T>(data: seq<T>, lo: int, hi: int)
    requires 0 <= lo < hi <= |data|
    ensures data[lo..hi] == data[lo..hi - 1] + [data[hi - 1]]
  {
  }

  lemma EmptyHead<T>(r: seq<T>, data: seq<T>, k: int)
    requires 0 <= k <= |data|
    ensures data[k..k] + r[..|r|] == r
  {
  }

  lemma SlideFromRebuild<T>(v: View<T>, data: seq<T>, n: nat, s: nat)
    requires v.rendered == data[..Min(n, |data|)] && v.lastStart == Unset
    requires if |data| <= n then s == 0 else s + n <= |data|
    ensures UpLoop(v.rendered, data, s, n, 0) == data[s..s + Min(n, |data|)]
  {
    var len := |data|;
    UpLoopSlice(v.rendered, data, s, n, 0);
    if len > n {
      assert Max(0, s + n - len) == 0;
    } else {
      assert Max(0, s + n - len) == n - len;
    }
  }

  lemma SlidDownward<T>(v: View<T>, data: seq<T>, n: nat, s: int)
    requires Diff(v.lastStart, s, n) > 0
    ensures Slid(v, data, n, s) == DownLoop(v.rendered, data, s, n, Diff(v.lastStart, s, n), 0)
  {
  }

  lemma SlidUpward<T>(v: View<T>, data: seq<T>, n: nat, s: int)
    requires Diff(v.lastStart, s, n) <= 0
    ensures Slid(v, data, n, s) == UpLoop(v.rendered, data, s, -Diff(v.lastStart, s, n), 0)
  {
  }

  lemma SlideDown<T>(v: View<T>, data: seq<T>, n: nat, s: nat)
    requires Consistent(v, data, n) && |data| > n && s + n <= |data|
    requires var p := v.lastStart.row; p < s && Diff(v.lastStart, s, n) > 0
    ensures Slid(v, data, n, s) == data[s..s + n]
  {
    var diff := Diff(v.lastStart, s, n);
    DownWindow(v, data, n, s);
    DownLoopSlice(v.rendered, data, s, n, diff, 0);
    SlidDownward(v, data, n, s);
  }

  /** Scrolling down keeps the rendered rows from `s` on and appends the
      rest of the new window. */
  lemma DownWindow<T>(v: View<T>, data: seq<T>, n: nat, s: nat)
    requires Consistent(v, data, n) && |data| > n && s + n <= |data|
    requires var p := v.lastStart.row; p < s
    ensures var diff := Diff(v.lastStart, s, n);
      && 0 <= diff <= n && 0 <= s + n - diff && |v.rendered| >= diff
      && DownClosed(v.rendered, data, s, n, diff, 0) == data[s..s + n]
  {
    var p := v.lastStart.row;
    var diff := Diff(v.lastStart, s, n);
    if s - p <= n {
      assert v.rendered[diff..] == data[s..p + n];
    }
  }

  lemma SlideUp<T>(v: View<T>, data: seq<T>, n: nat, s: nat)
    requires Consistent(v, data, n) && |data| > n && s + n <= |data|
    requires var p := v.lastStart.row; s < p
    ensures Slid(v, data, n, s) == data[s..s + n]
  {
    var m := -Diff(v.lastStart, s, n);
    UpWindow(v, data, n, s);
    UpLoopSlice(v.rendered, data, s, m, 0);
    SlidUpward(v, data, n, s);
  }

  /** Scrolling up prepends the new rows and keeps the rendered rows up to
      the end of the new window. */
  lemma UpWindow<T>(v: View<T>, data: seq<T>, n: nat, s: nat)
    requires Consistent(v, data, n) && |data| > n && s + n <= |data|
    requires var p := v.lastStart.row; s < p
    ensures var m := -Diff(v.lastStart, s, n);
      && 0 <= m <= n && |v.rendered| >= m - Max(0, s + m - |data|)
      && UpClosed(v.rendered, data, s, m, 0) == data[s..s + n]
  {
    var p := v.lastStart.row;
    var m := -Diff(v.lastStart, s, n);
    assert Max(0, s + m - |data|) == 0;
    if p - s <= n {
      assert v.rendered[..n - (p - s)] == data[p..s + n];
    }
  }

  lemma SlideFromWindow<T>(v: View<T>, data: seq<T>, n: nat, s: nat)
    requires Consistent(v, data, n) && v.lastStart != At(s)
    requires if |data| <= n then s == 0 else s + n <= |data|
    ensures Slid(v, data, n, s) == data[s..s + Min(n, |data|)]
  {
    var p := v.lastStart.row;
    var diff := Diff(v.lastStart, s, n);
    if diff > 0 {
      SlideDown(v, data, n, s);
    } else if s < p {
      SlideUp(v, data, n, s);
    } else {
      SlideEmpty(v, data, n, s);
    }
  }

  /** With no rows materialised there is nothing to slide. */
  lemma SlideEmpty<T>(v: View<T>, data: seq<T>, n: nat, s: nat)
    requires Consistent(v, data, n) && v.lastStart != At(s)
    requires if |data| <= n then s == 0 else s + n <= |data|
    requires Diff(v.lastStart, s, n) <= 0 && v.lastStart.row <= s
    ensures Slid(v, data, n, s) == data[s..s + Min(n, |data|)]
  {
    assert n == 0 && Diff(v.lastStart, s, n) == 0;
  }

  /** After a scroll update — from a consistent window or straight after a
      rebuild — the rendered rows are `data[s .. s + min(n, len)]` for the
      freshly computed start `s`, and the body offset is `s * 69`. */
  lemma UpdateRowsSlides<T>(v: View<T>, data: seq<T>, n: nat, scrollTop: nat)
    requires Consistent(v, data, n) || (v.rendered == data[..Min(n, |data|)] && v.lastStart == Unset)
    ensures var v' := UpdateRows(v, data, n, scrollTop);
      Consistent(v', data, n) && v'.lastStart == At(StartRow(|data|, n, scrollTop))
  {
    var s := StartRow(|data|, n, scrollTop);
    if v.lastStart != At(s) {
      if v.lastStart.Unset? {
        SlideFromRebuild(v, data, n, s);
      } else {
        SlideFromWindow(v, data, n, s);
      }
    }
  }

  /** A scroll event whose start row equals the last one changes nothing. */
  lemma UnchangedStartIsNoOp<T>(v: View<T>, data: seq<T>, n: nat, scrollTop: nat)
    requires v.lastStart == At(StartRow(|data|, n, scrollTop))
    ensures UpdateRows(v, data, n, scrollTop) == v
  {
  }

  /** A full rebuild renders the window for the current scroll offset. */
  lemma UpdateTableWindow<T>(data: seq<T>, n: nat, scrollTop: nat)
    ensures var v := UpdateTable(data, n, scrollTop);
      Consistent(v, data, n) && v.lastStart == At(StartRow(|data|, n, scrollTop))
  {
    UpdateRowsSlides(Rebuilt(data, n), data, n, scrollTop);
  }

  /** Worked instance: 10 visible rows, 1000 rows, scrolled to 6900 pixels. */
  lemma StartRowExample()
    ensures StartRow(1000, WindowSize(10), 6900) == 97
  {
  }
}

=== FILE: worker.dfy ===
/** The task queue of utils/worker.js as a state machine. The dispatch
    loop's iterations, the completion of an in-flight task and the calls
    of the public methods are explicit events; sleeping, the delay between
    dispatches and the interleaving of the asynchronous tasks are not
    modelled. */
module Worker {
  import opened Wrappers

  /** The queued tasks, the number of tasks in flight, whether the
      dispatch loop is running and whether the worker was cancelled. */
  datatype Worker<T> = Worker(queue: seq<T>, active: nat, running: bool, cancelled: bool)

  function New<T>(): (w: Worker<T>)
    ensures w.queue == [] && w.active == 0 && !w.running && !w.cancelled
  {
    Worker([], 0, false, false)
  }

  /** `Add(task, { priority })`: ignored once cancelled; a priority task
      goes to the head of the queue, any other to the tail. */
  function Add<T>(w: Worker<T>, task: T, priority: bool): (r: Worker<T>)
    ensures w.cancelled ==> r == w
    ensures !w.cancelled && priority ==> r.queue == [task] + w.queue
    ensures !w.cancelled && !priority ==> r.queue == w.queue + [task]
    ensures r.active == w.active && r.running == w.running && r.cancelled == w.cancelled
  {
    if w.cancelled then w
    else if priority then w.(queue := [task] + w.queue)
    else w.(queue := w.queue + [task])
  }

  /** `Run()`: starts the dispatch loop unless it is already running. */
  function Run<T>(w: Worker<T>): (r: Worker<T>)
    ensures w.running ==> r == w
    ensures r.running && r.queue == w.queue && r.active == w.active && r.cancelled == w.cancelled
  {
    if w.running then w else w.(running := true)
  }

  /** One iteration of the dispatch loop under the concurrency limit
      `limit` read at that moment: with an empty queue the loop ends;
      below the limit the head task is started; otherwise the loop waits.
      Returns the started task, if any. */
  function Step<T>(w: Worker<T>, limit: int): (r: (Worker<T>, Option<T>))
    requires w.running
    ensures |w.queue| == 0 ==> r.0 == w.(running := false) && r.1.None?
    ensures |w.queue| > 0 && w.active < limit ==>
      r.0 == w.(queue := w.queue[1..], active := w.active + 1) && r.1 == Some(w.queue[0])
    ensures |w.queue| > 0 && w.active >= limit ==> r.0 == w && r.1.None?
  {
    if |w.queue| == 0 then (w.(running := false), None)
    else if w.active < limit then (w.(queue := w.queue[1..], active := w.active + 1), Some(w.queue[0]))
    else (w, None)
  }

  /** A started task settles, whether it returned or threw. */
  function Complete<T>(w: Worker<T>): (r: Worker<T>)
    requires w.active > 0
    ensures r.active + 1 == w.active
    ensures r.queue == w.queue && r.running == w.running && r.cancelled == w.cancelled
  {
    w.(active := w.active - 1)
  }

  /** `Cancel()`: marks the worker cancelled and drops the queued tasks;
      tasks in flight run on. */
  function Cancel<T>(w: Worker<T>): (r: Worker<T>)
    ensures r.cancelled && r.queue == []
    ensures r.active == w.active && r.running == w.running
  {
    w.(queue := [], cancelled := true)
  }

  /** The condition `Finish()` waits for. */
  predicate Finished<T>(w: Worker<T>) {
    w.active == 0 && |w.queue| == 0
  }

  datatype Event<T> = AddEvent(task: T, priority: bool) | RunEvent | StepEvent(limit: int) | CompleteEvent | CancelEvent

  /** One event; a loop iteration while the loop is not running and a
      completion with nothing in flight are not events of a real run and
      yield `None`. */
  function Apply<T>(w: Worker<T>, e: Event<T>): (r: Option<Worker<T>>)
    ensures r.None? <==> (e.StepEvent? && !w.running) || (e.CompleteEvent? && w.active == 0)
  {
    match e
    case AddEvent(task, priority) => Some(Add(w, task, priority))
    case RunEvent => Some(Run(w))
    case StepEvent(limit) => if w.running then Some(Step(w, limit).0) else None
    case CompleteEvent => if w.active > 0 then Some(Complete(w)) else None
    case CancelEvent => Some(Cancel(w))
  }

  /** Runs a sequence of events; `None` when one of them is impossible. */
  function Exec<T>(w: Worker<T>, events: seq<Event<T>>): Option<Worker<T>>
    decreases |events|
  {
    if |events| == 0 then Some(w)
    else
      match Apply(w, events[0])
      case None => None
      case Some(w1) => Exec(w1, events[1..])
  }

  /** Every loop iteration of the trace reads the same limit. */
  predicate ConstantLimit<T>(events: seq<Event<T>>, limit: int) {
    forall k :: 0 <= k < |events| ==> events[k].StepEvent? ==> events[k].limit == limit
  }

  /** With a constant limit, the tasks in flight never exceed it (or zero,
      for a limit below one). */
  lemma {:induction false} ActiveWithinLimit<T>(w: Worker<T>, events: seq<Event<T>>, limit: int)
    requires w.active <= limit || w.active == 0
    requires ConstantLimit(events, limit)
    ensures Exec(w, events).Some? ==> Exec(w, events).value.active <= limit || Exec(w, events).value.active == 0
    decreases |events|
  {
    if |events| > 0 {
      var e := events[0];
      assert e.StepEvent? ==> e.limit == limit;
      match Apply(w, e)
      case None =>
      case Some(w1) =>
        assert w1.active <= limit || w1.active == 0;
        assert ConstantLimit(events[1..], limit) by {
          forall k | 0 <= k < |events[1..]| ensures events[1..][k].StepEvent? ==> events[1..][k].limit == limit {
            assert events[1..][k] == events[k + 1];
          }
        }
        ActiveWithinLimit(w1, events[1..], limit);
    }
  }

  /** Once cancelled, a worker stays cancelled with an empty queue, so it
      is finished as soon as its tasks in flight settle. */
  lemma {:induction false} CancelledStaysEmpty<T>(w: Worker<T>, events: seq<Event<T>>)
    requires w.cancelled && w.queue == []
    ensures Exec(w, events).Some? ==> Exec(w, events).value.cancelled && Exec(w, events).value.queue == []
    ensures Exec(w, events).Some? ==> (Finished(Exec(w, events).value) <==> Exec(w, events).value.active == 0)
    decreases |events|
  {
    if |events| > 0 {
      match Apply(w, events[0])
      case None =>
      case Some(w1) =>
        CancelledStaysEmpty(w1, events[1..]);
    }
  }

  /** A loop iteration never lengthens the queue and starts a task only by
      taking the head: the loop makes progress towards its exit. */
  lemma StepShrinksQueue<T>(w: Worker<T>, limit: int)
    requires w.running
    ensures |Step(w, limit).0.queue| <= |w.queue|
    ensures Step(w, limit).1.Some? <==> |Step(w, limit).0.queue| < |w.queue|
    ensures !Step(w, limit).0.running <==> |w.queue| == 0
  {
  }
}

=== FILE: wrappers.dfy ===
/** Optional values and success/failure results shared by every module.
    `None` stands for JavaScript `undefined`/`null` wherever the source
    tests a value for presence. */
module Wrappers {

  datatype Option<+T> = None | Some(value: T) {

    /** The wrapped value, or `default` when there is none. */
    function GetOr(default: T): T {
      match this
      case Some(v) => v
      case None => default
    }
  }

  /** A value or a coded error (the source's thrown `Error` objects). */
  datatype Result<+R, +E> = Success(value: R) | Failure(error: E)
}
